=== FILE: README.md ===
# ThriftGram core, modelled in Dafny

ThriftGram is a second-hand clothing marketplace: sellers open a shop and
list products with tags, and shoppers browse, search, like and review them.
Its core logic is built around a managed database. This project models the
parts of that logic that are decided by their inputs alone:

- **The tag-based recommendation feed** (`src/lib/personalized-feed.ts`).
  This covers:
  - the user's preferences;
  - the score table the scorer builds from tag-match rows;
  - the compounding like, cart and purchase boosts;
  - the popularity bonus;
  - the ranking and cut to a limit;
  - self-exclusion;
  - the three trending fallbacks;
  - the similar-products id selection.
- **The tag helpers** (`src/lib/tags.ts`): the tag vocabulary,
  `extractTagsFromProducts`, and the counting and ranking in
  `getProductsByTags`.
- **The two API routes**:
  - `POST /api/seller/register`: its sanitiser and validators, its
    refusal order over a snapshot of the `profiles` and `shops` tables,
    and the rollback after a failed shop insert;
  - `POST /api/products/create`: its validators, its refusal order, and
    how it maps a thrown error to a status.
- **The client-side state transitions and form handlers**:
  - the like set;
  - the review store and review form;
  - the tag picker and filter panel;
  - the search filter;
  - the seller dashboard's figures and delete;
  - the add-product page;
  - the become-a-seller dialog.

Database reads, the auth service and the outcome of every write are
**parameters**:
- A query result is a list, or an `Option` when the code tests for missing
  data.
- A session is a map from token to user id.
- A write's outcome is a flag or an optional error message.

Scores and prices are exact `real`s, and strings are `seq<char>`.

Modules follow the source files:

- **`Results`, `Seqs`, `Strings`, `Records`.** Shared vocabulary:
  - `Option`/`Result`;
  - filtering, deduplication, sorting and the top-k cut;
  - `trim`, the `<`/`>` sanitiser, `includes` and ASCII lower-casing;
  - JavaScript objects as ordered key lists over a map.
- **`Api`.** The request, the two tables, the `Bearer` check and `single()`.
- **`Tags`, `Feed`, `Recommend`, `ScoreExamples`.** The library code
  behind the feed, plus worked scoring examples.
- **`SellerRegister`, `ProductCreate`.** The two routes.
- **`Reviews`, `ReviewForm`, `Flags`, `TagManager`, `ProductFilters`,
  `Search`, `Likes`, `Dashboard`, `AddProduct`, `SellerModal`.** The
  client code.

## Model

| member | source | states |
|---|---|---|
| Feed.FetchUserPreferences | src/lib/personalized-feed.ts:121-169 | liked and cart ids are the query rows, or empty when a query returned no data; purchased ids are duplicate-free and are exactly the truthy item ids of the orders whose items are an array |
| Feed.PurchasedIds | src/lib/personalized-feed.ts:147-159 | no orders give no ids; otherwise the result is duplicate-free and holds x exactly when some order with an array of items has an item whose id is x and truthy |
| Feed.OrderItemIds | src/lib/personalized-feed.ts:148-154 | x is collected exactly when an order whose items are an array has an item with a truthy id x; orders whose items are not an array contribute nothing |
| Feed.TagsFromProductList | src/lib/personalized-feed.ts:174-189 | an empty id list gives no tags; the result is duplicate-free and holds exactly the tags of rows whose product is in the list |
| Feed.AddMatch | src/lib/personalized-feed.ts:214-227 | one fold step: a new product is appended with score 0.5 + 1 and its tag; a known product gains 1 and appends the tag; every other entry and the key order are unchanged |
| Feed.BuildScores | src/lib/personalized-feed.ts:212-227 | the table has one entry per product with a row, in first-row order, each scored 0.5 + (number of its rows) with one matched tag per row in row order |
| Feed.TagsOfIsFilter | src/lib/personalized-feed.ts:226 | the matched tags of a product are the tag column of the rows carrying that product id |
| Feed.RowCountIsOccurrences | src/lib/personalized-feed.ts:225 | the number of tag-match points of a product is the number of occurrences of its id among the rows |
| Feed.NoRows | src/lib/personalized-feed.ts:214-222 | a product without a row gets no points and no tags (it enters the table only through a row) |
| Feed.Bump | src/lib/personalized-feed.ts:232-233 | one boost multiplies the score by the factor and sets the reason, and leaves the id and tags alone |
| Feed.BoostOne | src/lib/personalized-feed.ts:230-235 | one boost iteration changes only the entry of that id, if it is in the table, and never adds a key |
| Feed.Boost | src/lib/personalized-feed.ts:230-249 | a whole boost loop keeps the table's keys and order, and each entry becomes its per-occurrence boosted form |
| Feed.BoostedEntryClosedForm | src/lib/personalized-feed.ts:230-249 | boosts compound per occurrence: the score is multiplied by factor^(occurrences of the id), and the reason changes exactly when the id occurs at least once |
| Feed.ScaleIsPow | src/lib/personalized-feed.ts:232 | applying the factor n times is multiplying by its n-th power |
| Feed.AddBonus | src/lib/personalized-feed.ts:261-262 | the bonus is added to the score and nothing else changes |
| Feed.AddPopularity | src/lib/personalized-feed.ts:258-264 | every product already in the table, and no other, gains a tenth of its like count (0 when missing); keys and order are kept |
| Feed.FinalTable | src/lib/personalized-feed.ts:212-264 | after the fold, the liked, cart and purchased boosts, and the bonus, each product with a row has exactly its closed-form entry (0.5 + rows, times 3^liked, 2.5^cart and 2^purchased, plus the bonus, last list's reason) and there is no other entry |
| Feed.ScoreIds | src/lib/personalized-feed.ts:89 | the product ids of a score list, index by index |
| Feed.ScoreProductsByTags | src/lib/personalized-feed.ts:194-274 | no rows give []; otherwise at most `limit` entries, all distinct products with rows, each equal to its closed form, sorted by non-increasing score, and no product left out scores above one kept |
| ScoreExamples.TwoTagsNoInteraction | src/lib/personalized-feed.ts:214-227 | two rows and no interaction score 2.5 plus the bonus, with the tag-based reason |
| ScoreExamples.OneTagLiked | src/lib/personalized-feed.ts:230-235 | one row and one like score (0.5 + 1) * 3 plus the bonus, with the liked reason |
| ScoreExamples.LikedAndCartCompound | src/lib/personalized-feed.ts:230-242 | a liked product in the cart gets both multipliers and the cart's reason |
| ScoreExamples.LikedTwiceCompound | src/lib/personalized-feed.ts:230-235 | a product liked twice is multiplied by 3 twice |
| ScoreExamples.PopularityBreaksEqualMatches | src/lib/personalized-feed.ts:258-264 | of two products alike in rows and list memberships, the one with more likes scores strictly higher |
| ScoreExamples.BoostsNeverLower | src/lib/personalized-feed.ts:8-14 | multiplying a positive score by a weight of at least 1, any number of times, never lowers it |
| ScoreExamples.ScoreAtLeastMatches | src/lib/personalized-feed.ts:214-264 | a product's final score is at least its tag-match score plus its bonus |
| Recommend.Interaction | src/lib/personalized-feed.ts:60-64 | the interaction ids are exactly the liked, cart and purchased ids |
| Recommend.TagMatches | src/lib/personalized-feed.ts:202-205 | the scorer's rows are exactly the table rows whose tag is a tag of an interaction product, in table order |
| Recommend.Candidates | src/lib/personalized-feed.ts:75-89 | the first min(`limit`, survivors) of the scored list's non-interaction entries, as a prefix of that filtered list; each is a product with a row and carries its closed-form score; the ids are distinct and the scores non-increasing |
| Recommend.CandidatesKeepBest | src/lib/personalized-feed.ts:83-88 | a scored non-interaction product dropped by the slice scores no higher than any candidate kept |
| Recommend.RequestedIds | src/lib/personalized-feed.ts:88-89 | the requested ids are at most `limit`, distinct, and none is an interaction id |
| Recommend.FindScore | src/lib/personalized-feed.ts:105 | `find` returns a score exactly when some candidate carries the id, that score carries the id, and with distinct ids it is the one candidate with that id |
| Recommend.Fetch | src/lib/personalized-feed.ts:95-98 | the fetched products are exactly the catalogue rows whose id was requested, in table order |
| Recommend.FetchLength | src/lib/personalized-feed.ts:95-98 | with a catalogue keyed by id, at most one product per requested id comes back |
| Recommend.Attach | src/lib/personalized-feed.ts:103-106 | each fetched product is paired, in order, with the candidate score carrying its id |
| Recommend.PersonalizedFeed | src/lib/personalized-feed.ts:42-116 | trending exactly when there is no history, no interaction product has a tag row, or no candidate survives exclusion; no catalogue data gives []; otherwise the items are a permutation of the fetched candidates, sorted by score, none an interaction product, each with its closed-form score |
| Recommend.ZeroLimitFallsBack | src/lib/personalized-feed.ts:88-93 | a zero page size always ends in the trending fallback |
| Recommend.OnlyInteractedFallsBack | src/lib/personalized-feed.ts:83-93 | when every tag-matched product is an interaction product, the feed falls back to trending |
| Recommend.EnoughMatchesRecommend | src/lib/personalized-feed.ts:79-93 | with a positive limit and more scored products than distinct interaction ids, the feed is personalised |
| Recommend.ExclusionLeavesSome | src/lib/personalized-feed.ts:83-85 | more distinct scored products than distinct interaction ids leave at least one after exclusion |
| Recommend.SimilarProducts | src/lib/personalized-feed.ts:297-347 | the any-other-products fallback is taken exactly when no other product shares a tag; otherwise at most `limit` distinct ids, all other products sharing a tag, and all of them when fewer than `limit` |
| Recommend.SimilarFacts | src/lib/personalized-feed.ts:305-331 | the matched rows name exactly the similar products, so both empty-result fallbacks amount to "no similar product" |
| Tags.VocabularyShape | src/lib/tags.ts:7-16 | eight distinct categories, covering every category, each with a non-empty duplicate-free tag list |
| Tags.VocabularyDisjoint | src/lib/tags.ts:7-16 | no tag string is in two categories, so a tag determines its category |
| Tags.ExtractTags | src/lib/tags.ts:134-140 | duplicate-free; holds exactly the tags of the input; in first-occurrence order |
| Tags.RowsWithTags | src/lib/tags.ts:96-99 | the rows read are exactly the table rows whose tag is requested, in table order |
| Tags.CountMatches | src/lib/tags.ts:104-107 | one count per product with a row, in first-row order, equal to its number of rows; no other product has a count |
| Tags.TopByCount | src/lib/tags.ts:110-113 | min(limit, products) distinct counted ids, in non-increasing count order, and no counted id left out has a higher count than one kept |
| Tags.ProductsByTagsSelection | src/lib/tags.ts:94-120 | no lookup exactly when the limit is 0 or no row matches; otherwise 1 to `limit` distinct ids |
| Tags.ProductsByTagsRanking | src/lib/tags.ts:104-115 | in terms of the rows: every selected product has a match, the selection is ordered by non-increasing match count, and no matched product left out has more matches than one selected |
| Strings.Trim | src/app/api/seller/register/route.ts:7 | the result is no longer than the input and has no whitespace at either end |
| Strings.TrimIsSlice | src/app/api/seller/register/route.ts:7 | the trim is a slice of the input with only whitespace before and after it |
| Strings.TrimEmptyIff | src/app/search/page.tsx:31 | a string trims to empty exactly when it is all whitespace |
| Strings.TrimIdempotent | src/app/api/seller/register/route.ts:7 | trimming twice is trimming once |
| Strings.StripAngles | src/app/api/seller/register/route.ts:8 | no `<` or `>` remains; every other character is kept as many times as it occurs, and in order |
| Strings.Sanitize | src/app/api/seller/register/route.ts:5-10 | the result has at most maxLength characters and no angle bracket, and is a prefix of the stripped trim, cut only when longer |
| Strings.SanitizeOfClean | src/app/api/seller/register/route.ts:5-10 | a string that is trimmed, free of angle brackets and short enough is returned unchanged |
| Strings.SanitizeOfTrim | src/app/api/seller/register/route.ts:5-10 | sanitising an already trimmed input gives the same result as sanitising the input |
| Strings.Lower | src/app/search/page.tsx:33-35 | lower-casing keeps the length and folds each character |
| Strings.LowerIdempotent | src/app/search/page.tsx:33-35 | lower-casing twice is lower-casing once |
| Api.BearerToken | src/app/api/seller/register/route.ts:66-76 | a token exists exactly when the header starts with `Bearer `, and the header is `Bearer ` followed by it |
| Api.Authenticate | src/app/api/seller/register/route.ts:65-88 | passes exactly when the token maps to a user, with that user; no `Bearer ` header is a 401 "Unauthorized", a rejected token a 401 "Invalid authentication token" |
| SellerRegister.ValidateShopName | src/app/api/seller/register/route.ts:12-27 | accepted exactly when the sanitised name has at least 3 characters, returning it (3 to 100 characters, no angle bracket); otherwise the too-short error, so the "> 100" error is unreachable |
| SellerRegister.CleanShopNameAccepted | src/app/api/seller/register/route.ts:12-27 | a clean name of 3 to 100 characters is accepted unchanged |
| SellerRegister.WithAt | src/app/api/seller/register/route.ts:32-34 | the result starts with `@`; `@` is added only when missing |
| SellerRegister.NormalizeHandle | src/app/api/seller/register/route.ts:30-36 | the normalised handle starts with `@` and has only `[@a-zA-Z0-9._]` characters; it keeps each of those characters of the prefixed trim as often as it occurs, and in order |
| SellerRegister.ValidateInstagramHandle | src/app/api/seller/register/route.ts:29-47 | accepted exactly when the normalised handle has 2 to 31 characters and matches `^@[a-zA-Z0-9._]+$`, and then it is the result; the length message exactly when the length is outside 2..31; otherwise the format message |
| SellerRegister.SecondAtIff | src/app/api/seller/register/route.ts:42 | a string of handle characters starting with `@`, of length at least 2, matches the format exactly when it has no second `@` |
| SellerRegister.HandleFormatErrorIff | src/app/api/seller/register/route.ts:38-44 | the format error is reported exactly when the normalised handle has a length of 2 to 31 but an `@` after index 0 |
| SellerRegister.BlankHandleRejected | src/app/api/seller/register/route.ts:30-40 | a blank handle leaves only the added `@` and fails the length check |
| SellerRegister.WellFormedHandleAccepted | src/app/api/seller/register/route.ts:29-47 | every well-formed handle of at most 31 characters is accepted unchanged |
| SellerRegister.HandleIdempotent | src/app/api/seller/register/route.ts:29-47 | validating an accepted handle again returns it unchanged |
| SellerRegister.BareHandleGetsAt | src/app/api/seller/register/route.ts:32-44 | a bare name of 1 to 30 allowed characters is accepted with an `@` in front |
| SellerRegister.ValidateBio | src/app/api/seller/register/route.ts:49-59 | never an error, so the "> 500" error is unreachable; null exactly for a missing or empty bio; otherwise the sanitised bio of at most 500 characters with no angle bracket |
| SellerRegister.BlankBioKeptEmpty | src/app/api/seller/register/route.ts:49-59 | a non-empty all-whitespace bio is truthy, so it is stored as an empty string rather than null |
| SellerRegister.ValidateBody | src/app/api/seller/register/route.ts:129-153 | accepted exactly when name and handle are present and both validators accept; a missing field gives the missing-fields message; the first failing validator's message is reported |
| SellerRegister.SetSeller | src/app/api/seller/register/route.ts:186-192 | the update rewrites the rows of that user, and only them |
| SellerRegister.SetSellerRows | src/app/api/seller/register/route.ts:186-192 | after the update the user has as many rows as before, each carrying the new flag and bio |
| SellerRegister.CheckAccount | src/app/api/seller/register/route.ts:90-126 | passes exactly when the user has one profile row, not a seller's, and has no single shop row; no single profile row is a 500, a seller a 400 "You are already a seller", an existing shop a 400 "A shop already exists for this account" |
| SellerRegister.CheckApplication | src/app/api/seller/register/route.ts:128-183 | passes exactly when the body parses, validates, and neither name nor handle is taken; an unparsable body is a 500, a validation error a 400 with its message, a taken name a 409 "Shop name is already taken", a free name with a taken handle a 409 "Instagram handle is already taken" |
| SellerRegister.Admit | src/app/api/seller/register/route.ts:61-183 | a refusal is 400, 401, 409 or 500; it is a 401 exactly when there is no signed-in user; an admitted request is signed in, valid and free |
| SellerRegister.Commit | src/app/api/seller/register/route.ts:185-241 | 201 exactly when the profile update and the shop insert succeed, with exactly the new shop added; otherwise 500 with no shop added; only that user's profile rows change, and on 201 they are a seller's with the validated bio |
| SellerRegister.Register | src/app/api/seller/register/route.ts:61-252 | the status is 201, 400, 401, 409 or 500; a refusal writes nothing; 201 exactly when admitted and both writes succeed; other users' profiles never change |
| SellerRegister.RefusalOrder | src/app/api/seller/register/route.ts:68-183 | each refusal writes nothing and comes in the handler's order: no header is a 401, then a rejected token a 401; then a missing profile a 500, already a seller a 400, an existing shop a 400; then a bad body, then validation errors, then a taken name and then a taken handle, each a 409 |
| SellerRegister.SuccessCreatesShop | src/app/api/seller/register/route.ts:204-241 | a 201 comes from a signed-in user with a valid body, and adds exactly their validated shop |
| SellerRegister.SecondRegistrationRefused | src/app/api/seller/register/route.ts:105-126 | after a success, the same user's next registration is refused with 400 |
| SellerRegister.RetryAfterRollback | src/app/api/seller/register/route.ts:216-228 | after a failed shop insert whose rollback takes effect, the same user can register again |
| SellerRegister.FailedRollbackStrandsSeller | src/app/api/seller/register/route.ts:219-223 | the rollback's result is not checked: when it does not take effect, the user is left a seller without a shop and every retry is refused |
| ProductCreate.SanitizeText | src/app/api/products/create/route.ts:5-10 | at most 500 characters, no angle bracket; the shared sanitiser at 500 |
| ProductCreate.RoundCents | src/app/api/products/create/route.ts:17 | the result is within half a cent of the input |
| ProductCreate.RoundCentsFacts | src/app/api/products/create/route.ts:17 | the result is a whole number of cents, and a whole number of cents is kept |
| ProductCreate.ValidatePrice | src/app/api/products/create/route.ts:12-18 | accepted exactly for a parsed price in [0, 1,000,000]; the result is in range, a whole number of cents, within half a cent of the price; otherwise the "Invalid price" message |
| ProductCreate.PriceIdempotent | src/app/api/products/create/route.ts:12-18 | an accepted price is accepted unchanged a second time |
| ProductCreate.ValidateStock | src/app/api/products/create/route.ts:20-26 | accepted exactly for an integer 0 to 10,000, unchanged; otherwise the "Invalid stock" message |
| ProductCreate.StockOrOne | src/app/api/products/create/route.ts:122 | a falsy stock (missing, null, 0 or empty) becomes 1; a truthy one is passed on as it parses, NaN included |
| ProductCreate.StockOrOneValidated | src/app/api/products/create/route.ts:20-26 | a falsy stock is stored as 1; a truthy stock is accepted exactly when it parses to 0 to 10,000, so a non-numeric text is refused and the text "0" is kept as 0 |
| ProductCreate.ValidateCategory | src/app/api/products/create/route.ts:28-34 | accepted exactly for the five categories, unchanged; otherwise "Invalid category" |
| ProductCreate.ImageUrls | src/app/api/products/create/route.ts:43 | the non-empty string entries, in order, and exactly those |
| ProductCreate.ValidateImages | src/app/api/products/create/route.ts:36-44 | accepted exactly for an array of 1 to 10 entries, returning its non-empty strings in order (at most 10); over 10 gives the maximum message, not an array or empty gives the at-least-one message |
| ProductCreate.StatusForError | src/app/api/products/create/route.ts:150-163 | a message containing "Invalid" is a 400 with that message; any other is a 500 with the generic message |
| ProductCreate.InvalidMessagesAre400 | src/app/api/products/create/route.ts:12-34 | the price, stock and category errors are 400s with their own messages |
| ProductCreate.ImageMessagesAre500 | src/app/api/products/create/route.ts:36-44 | both image errors lack "Invalid", so they become generic 500s |
| ProductCreate.OptionalText | src/app/api/products/create/route.ts:115-120 | a truthy text is sanitised; a falsy one becomes null |
| ProductCreate.ValidateProduct | src/app/api/products/create/route.ts:111-123 | the row is built exactly when price, category, images and stock validate, checked in that order; the first failure's message is reported; a built row is valid, belongs to the shop, and carries the sanitised name, the price rounded to cents, the validated category, the sanitised-or-null description, size, condition and material, the kept image URLs and the validated stock |
| ProductCreate.CheckSeller | src/app/api/products/create/route.ts:73-99 | passes exactly when the user is a seller with one shop, giving that shop's id; not a seller is a 403, no single shop a 404 |
| ProductCreate.CreateProduct | src/app/api/products/create/route.ts:46-165 | the status is 201, 400, 401, 403, 404 or 500; 201 exactly when a seller with one shop sends a body with all required fields that validates and the insert succeeds, and then the validated row is inserted; a missing field is a 400, an unreadable body the mapped error, a failed insert a 500; 401 exactly when there is no signed-in user |
| ProductCreate.AccountChecksFirst | src/app/api/products/create/route.ts:48-99 | a failed account check answers 401, then 403, then 404, whatever the body |
| ProductCreate.FalsyPriceIsMissing | src/app/api/products/create/route.ts:104-109 | a falsy price (missing, null or the number 0) is reported as a missing field before validation |
| ProductCreate.NonNumericPriceIs400 | src/app/api/products/create/route.ts:104-116 | a truthy price text that is not a number passes the required-field check and gets the "Invalid price" 400 |
| ProductCreate.InvalidPriceIs400 | src/app/api/products/create/route.ts:116 | with the required fields present, a bad price is a 400 with its message |
| ProductCreate.InvalidCategoryIs400 | src/app/api/products/create/route.ts:117 | a good price with an unknown category is a 400 with its message |
| ProductCreate.ImageErrorIs500 | src/app/api/products/create/route.ts:121 | a bad image list after a good price and category is a generic 500 |
| ProductCreate.ImageStatus | src/app/api/products/create/route.ts:36-44 | whichever image message the check produces, it maps to the generic 500 answer |
| ProductCreate.ImageErrorOutcome | src/app/api/products/create/route.ts:116-121 | a bad image list after a good account, price and category is answered with the status its message maps to, and nothing is created |
| ProductCreate.InvalidStockIs400 | src/app/api/products/create/route.ts:122 | an out-of-range or non-numeric stock, checked last, is a 400 with its message |
| ProductCreate.NonNumericStockIs400 | src/app/api/products/create/route.ts:20-26 | with every other field valid, a truthy stock text that is not a number gets the "Invalid stock" 400 and nothing is inserted |
| ProductCreate.ZeroStockTextKept | src/app/api/products/create/route.ts:122 | with every other field valid and a working insert, the stock text "0" is truthy, so the product is created with stock 0, not 1 |
| Reviews.Clamp | src/lib/ReviewContext.tsx:63 | the stored rating is in [1, 5]; it is the rating when inside, 1 below and 5 above |
| Reviews.ClampIdempotent | src/lib/ReviewContext.tsx:63 | clamping twice is clamping once |
| Reviews.AddReview | src/lib/ReviewContext.tsx:53-75 | no user is the "User not authenticated" error, with nothing inserted; an insert error is passed on; otherwise the row has the product, the user, the clamped rating and the trimmed comment |
| Reviews.StoredCommentTrimmed | src/lib/ReviewContext.tsx:64 | the stored comment has no whitespace at either end |
| Reviews.RoundTenth | src/lib/ReviewContext.tsx:81 | the result is within half a tenth of the input and a whole number of tenths |
| Reviews.AverageRating | src/lib/ReviewContext.tsx:77-82 | 0 when no review is for the product; otherwise within half a tenth of the mean rating of that product's reviews, and a whole number of tenths |
| Reviews.AverageInRange | src/lib/ReviewContext.tsx:77-82 | when the product's ratings are all in [1, 5] and it has a review, the average is in [1, 5] |
| Reviews.SumBounds | src/lib/ReviewContext.tsx:80 | a sum of values in [lo, hi] is in [n·lo, n·hi] |
| Reviews.OtherProductIgnored | src/lib/ReviewContext.tsx:78 | a review of another product, added at either end, does not change the average |
| Reviews.SingleReviewAverage | src/lib/ReviewContext.tsx:77-82 | a single whole-star review averages to its rating |
| ReviewForm.HandleSubmit | src/components/ReviewForm.tsx:22-59 | rating 0 stops with "Please select a rating", before the comment check; a trimmed comment under 10 stops with its message; a row is inserted exactly when the checks pass, a user exists and the insert succeeds, and the form is then reset; otherwise the input is kept; a redirect happens exactly on an error mentioning "not authenticated"; otherwise a non-empty error is shown |
| ReviewForm.SignedOutRedirects | src/components/ReviewForm.tsx:51-55 | a signed-out user who passes the checks is sent to sign in and nothing is inserted |
| ReviewForm.InsertErrorShown | src/components/ReviewForm.tsx:51-56 | a non-empty insert error without the phrase is shown as it is |
| ReviewForm.ResubmitNeedsRating | src/components/ReviewForm.tsx:27-42 | after a success the reset form stops at the rating check |
| Flags.Toggle | src/components/TagManager.tsx:24-29 | the key's flag flips, every other key keeps its value, and the key becomes present |
| Flags.ToggleTwice | src/components/ProductFilters.tsx:30-35 | toggling a present key twice restores the flags |
| Flags.ToggleOthersRead | src/components/TagManager.tsx:24-29 | toggling one key never changes how another reads |
| TagManager.AddTag | src/components/TagManager.tsx:31-37 | a no-op when the tag string is selected; otherwise the new entry is appended; earlier entries are kept and the tag is selected afterwards |
| TagManager.AddKeepsDistinct | src/components/TagManager.tsx:33-36 | adding keeps the selected tag strings distinct |
| TagManager.RemoveTag | src/components/TagManager.tsx:39-42 | the tag is no longer selected; every entry with another tag is kept as many times as before, in order, and no entry with that tag remains |
| TagManager.RemoveKeepsDistinct | src/components/TagManager.tsx:40 | removing keeps the selected tag strings distinct |
| TagManager.RemoveAbsent | src/components/TagManager.tsx:40 | removing an unselected tag changes nothing |
| TagManager.AddThenRemove | src/components/TagManager.tsx:31-42 | adding a fresh tag and removing it restores the selection |
| TagManager.ToggleCategory | src/components/TagManager.tsx:24-29 | flips the named category's flag and no other |
| TagManager.ExpandedStaysTotal | src/components/TagManager.tsx:13-29 | with a flag for every category, toggling keeps one for every category, and toggling twice restores the flags |
| TagManager.InitialExpandedTotal | src/components/TagManager.tsx:13-22 | the initial flags cover all eight categories |
| ProductFilters.Emit | src/components/ProductFilters.tsx:45-46 | the state stored and the value passed to the listener are the same |
| ProductFilters.PriceChange | src/components/ProductFilters.tsx:37-47 | replaces only the chosen bound; category and sort are kept; the new state is emitted |
| ProductFilters.CategoryChange | src/components/ProductFilters.tsx:49-53 | the current category is cleared, another is selected; price and sort are kept; the new state is emitted |
| ProductFilters.SortChange | src/components/ProductFilters.tsx:55-59 | changes only the sort order; the new state is emitted |
| ProductFilters.Reset | src/components/ProductFilters.tsx:61-69 | back to [0, 10000], no category and newest; the new state is emitted |
| ProductFilters.CategoryTwice | src/components/ProductFilters.tsx:49-53 | choosing the same category twice from none or from it restores the state |
| ProductFilters.CategorySwitchForgets | src/components/ProductFilters.tsx:49-53 | from another category, choosing a category twice clears the category instead of restoring the old one |
| ProductFilters.PriceChangeSameValue | src/components/ProductFilters.tsx:37-47 | setting a bound to its value changes nothing |
| ProductFilters.ResetAfterChanges | src/components/ProductFilters.tsx:18-69 | a reset after any changes gives the initial state |
| ProductFilters.ToggleSection | src/components/ProductFilters.tsx:30-35 | flips the named section's flag and no other |
| ProductFilters.ToggleSectionTwice | src/components/ProductFilters.tsx:30-35 | toggling a section twice restores the flags |
| Search.Search | src/app/search/page.tsx:30-41 | a blank query gives nothing; a product is listed exactly when the query is not blank and its lower-cased name, category or shop name contains the lower-cased query as typed |
| Search.SearchSubseq | src/app/search/page.tsx:32 | the results keep the products' order |
| Search.SearchCounts | src/app/search/page.tsx:32 | each matching product is kept as often as it was loaded |
| Search.SearchIdempotent | src/app/search/page.tsx:31-37 | searching the results again with the same query changes nothing |
| Search.LowerKeepsBlank | src/app/search/page.tsx:31-33 | lower-casing never makes a query blank or non-blank |
| Search.SearchCaseInsensitive | src/app/search/page.tsx:33-35 | a lower-cased query gives the same results |
| Likes.LoadUserLikes | src/lib/LikeContext.tsx:22-45 | the user id is set; no user or no rows keep the set; otherwise the set is exactly the rows' product ids |
| Likes.ToggleLike | src/lib/LikeContext.tsx:47-96 | no user is an alert and no change; a failed write is an alert and no change; otherwise the product's membership flips; no other product's membership changes |
| Likes.ToggleTwice | src/lib/LikeContext.tsx:53-100 | two successful toggles restore the set |
| Likes.TogglesCommute | src/lib/LikeContext.tsx:70-90 | successful toggles of two products commute |
| Dashboard.LikeCounts | src/app/dashboard/page.tsx:136 | the like counts, product by product |
| Dashboard.TotalLikes | src/app/dashboard/page.tsx:136 | no products give 0, one product gives its own count, and non-negative counts give a non-negative total |
| Dashboard.TotalLikesAppend | src/app/dashboard/page.tsx:136 | the total of a list is the sum of the totals of its parts |
| Dashboard.TotalLikesBounds | src/app/dashboard/page.tsx:136 | with no negative counts, the total is non-negative and at least each product's count |
| Dashboard.InStock | src/app/dashboard/page.tsx:137 | the stock count is at most the number of products |
| Dashboard.InStockExtremes | src/app/dashboard/page.tsx:137 | all products counted when all have stock, none when none has |
| Dashboard.InStockAppend | src/app/dashboard/page.tsx:137 | the stock counts of two parts add up |
| Dashboard.DeleteProduct | src/app/dashboard/page.tsx:84-94 | a declined confirm changes nothing; a throwing delete shows an alert and changes nothing; otherwise the kept products are exactly those with another id, each as often as before, in order |
| Dashboard.DeleteAbsent | src/app/dashboard/page.tsx:89 | deleting an unlisted id changes nothing |
| Dashboard.DeleteTwice | src/app/dashboard/page.tsx:89 | deleting an id twice is deleting it once |
| Dashboard.DeleteMiddle | src/app/dashboard/page.tsx:89 | deleting a product listed once leaves exactly the products around it |
| Dashboard.DeleteFigures | src/app/dashboard/page.tsx:84-137 | such a delete lowers the like total by the product's count and never raises the stock count |
| AddProduct.HandleImageUpload | src/app/dashboard/add-product/page.tsx:24-55 | no selection changes nothing; more than 10 images in all is refused with the images unchanged; otherwise the accepted images are appended and the error cleared |
| AddProduct.UploadKeepsLimit | src/app/dashboard/add-product/page.tsx:29-32 | uploads never take the page past ten images |
| AddProduct.RemoveImage | src/app/dashboard/add-product/page.tsx:57-59 | removes exactly the image at the index and keeps the order; an index outside the list removes nothing |
| AddProduct.RemoveImageMultiset | src/app/dashboard/add-product/page.tsx:58 | removing loses that one image and nothing else |
| AddProduct.CheckForm | src/app/dashboard/add-product/page.tsx:66-84 | checks no images, then a blank name, then a missing or non-positive price, then an empty category; passes exactly when all pass, an unparsable price included |
| AddProduct.TrimmedOrNull | src/app/dashboard/add-product/page.tsx:107-112 | null exactly for a blank text, otherwise the trimmed text |
| AddProduct.StockValue | src/app/dashboard/add-product/page.tsx:114 | never 0: an unparsable or zero stock becomes 1, any other is kept |
| AddProduct.SentNumber | src/app/dashboard/add-product/page.tsx:108 | the route reads a NaN or zero price back as falsy, and any other number as a truthy field that parses to itself |
| AddProduct.Payload | src/app/dashboard/add-product/page.tsx:105-115 | the trimmed name, the blank-to-null description, size and material, the condition as typed or null, the parsed price as the route reads it, the category, the images in order and the stock as a truthy number |
| AddProduct.FailureMessage | src/app/dashboard/add-product/page.tsx:120-133 | the message shown is never empty, and it is the route's error when that is not empty |
| AddProduct.RetryFallbackUnused | src/app/dashboard/add-product/page.tsx:120-133 | the catch block's own fallback is never shown unless the route sent that exact text |
| AddProduct.HandleSubmit | src/app/dashboard/add-product/page.tsx:61-137 | a failed check stops with its message, no session stops with the expired message; a sent request carries the session token and the payload; success exactly on a 2xx answer, else the failure message |
| AddProduct.TokenReachesRoute | src/app/dashboard/add-product/page.tsx:116-119 | the route reads back exactly the page's token, and so its user |
| AddProduct.SentBodyComplete | src/app/dashboard/add-product/page.tsx:105-115 | a sent body has every field the route requires exactly when the price parsed |
| AddProduct.UnparseablePriceReachesRoute | src/app/dashboard/add-product/page.tsx:71-74 | an unparsable price passes the page's check and, for a valid seller account, the route answers 400 with its missing-fields message |
| SellerModal.PrefixHandle | src/components/BecomeSellerModal.tsx:46-49 | the result starts with `@`; the trimmed handle is kept when it has one, else gets one in front |
| SellerModal.PrefixHandleTrimmed | src/components/BecomeSellerModal.tsx:46-49 | the prefixed handle has no whitespace at either end |
| SellerModal.PrefixHandleIdempotent | src/components/BecomeSellerModal.tsx:46-49 | prefixing a prefixed handle changes nothing |
| SellerModal.RouteAgreesOnHandle | src/components/BecomeSellerModal.tsx:46-49 | the route decides the same on the prefixed handle as on the handle as typed |
| SellerModal.RouteAgreesOnShopName | src/components/BecomeSellerModal.tsx:52 | the route decides the same on the trimmed shop name as on the name as typed |
| SellerModal.HandleSubmit | src/components/BecomeSellerModal.tsx:26-86 | a blank shop name stops first, then a blank handle; an application is sent exactly when both are filled, with the trimmed name, the prefixed handle and the bio trimmed or left out when blank; success clears and closes; an "already a seller" error keeps the form, shows the notice and goes to the dashboard; another error is shown, or the fallback when it is empty |
| SellerModal.SentBodyHasRequiredFields | src/components/BecomeSellerModal.tsx:51-55 | a sent application always has a non-empty shop name and handle, so it passes the route's missing-fields check |
| SellerModal.RouteRefusalRedirects | src/components/BecomeSellerModal.tsx:74-81 | the route's "You are already a seller" refusal makes the dialog show its notice and go to the dashboard |

## Left out

- **Database, auth service and RPC calls.** They are parameters:
  - query results are lists or options;
  - the auth service is a token-to-user map;
  - writes are success flags or error messages.

  The trending and "other products" fallback queries are returned as
  markers, because their content is a database query. The feed reads the
  `likes` table while the like toggle writes `product_likes`, so the two
  models share nothing.
- **Order of `.in(...)` results.** Row order is taken as table order. The
  database promises none, and the final sort makes the order matter only
  between equal scores.
- **Ties in JavaScript sorts.** Ties are not fixed: sorts are specified as
  "non-increasing and a permutation" (or the top of one).
- **`catch` blocks.** The model keeps the thrown errors that its inputs
  can cause:
  - a body that is not JSON: the seller route's 500 "Server error: …"
    and the product route's answer through its error mapping;
  - the validators' errors: the seller route's 400 with the message and
    the product route's mapped status;
  - a token the auth service rejects: a 401 on both routes;
  - the client catches of the review form, the add-product page and the
    become-seller dialog, which show the error or a fallback.

  Catches that turn a failed query into `[]` or a trending fallback are
  left out. With parameters in place of queries, those queries never
  throw.
- **Non-string body fields.** The routes' body fields are modelled as
  strings (or missing). A field of another JSON type makes `.trim()`
  throw a `TypeError`. The seller route would answer 400 with that
  error's text, and the product route a generic 500. The model does not
  cover these answers. A numeric field (the price or the stock) is
  modelled by its truthiness and what it parses to, not by its JSON
  type.
- **Negative limits.** The `limit` arguments of the feed and tag
  functions are natural numbers. JavaScript's `slice(0, -k)` on a
  negative limit, which keeps all but the last `k` entries, is not
  modelled. The callers always pass a positive limit.
- **Concurrency.** `Promise.all` in `fetchUserPreferences` is modelled as
  three independent inputs. React state batching and async ordering are
  left out.
- **`parseFloat` and `parseInt`.** The forms carry the parsed value next to
  the text, with `None` for NaN. The product route takes a numeric field
  as falsy, or truthy with its parsed value (`None` for NaN).
- **Number arithmetic.** IEEE-754 doubles are replaced by exact reals, and
  `Math.round` by `Floor(x + 0.5)`.
- **String length.** Length is counted in characters, not UTF-16 code
  units.
- **`toLowerCase`.** Only ASCII letters are folded.
- **Parts of the add-product upload.** The file reader and the per-file
  type and size checks of the upload are abstracted: `added` stands for
  the data URLs of the files that pass them. The per-file error messages
  the handler sets and then overwrites are left out.
- **User-interface effects.** Timers, toasts, alerts beyond their message,
  router navigation and rendering are left out.
- **`src/lib/recommendations.ts`.** It is pure query composition, and
  `getProductTags`, `addProductTags` and `updateProductTags` are single
  queries.
- **The rest of `ReviewContext`.** `getProductReviews` and the review-list
  refresh are single queries.
- **The like-count RPCs.** Their results are ignored by the source, so
  they are not modelled.
- **The dialog's client call.** The dialog's `becomeSeller` call is
  reduced to its outcome, a `Result`. `src/lib/auth.ts` exports only
  `signUp`, `signIn`, `signOut`, `getCurrentUser` and `signInWithGoogle`,
  and defines no `becomeSeller`, so that call is not part of this
  model. The `SellerModal.Route…` lemmas assume it posts the dialog's
  application to `POST /api/seller/register`. They also assume it returns
  the route's `error` text as the failure message.
- **The dashboard's delete response.** The dashboard's delete does not
  read the error the database returns, so neither does the model; only a
  thrown exception raises the alert.
- Strings.Sanitize: no idempotence is claimed, because the sanitiser is
  not idempotent. A leading space uncovered by removing a `<` survives.
  SanitizeOfClean states the fixed points instead.
- SellerModal.SentBodyHasRequiredFields: states only that both required
  fields are non-empty, and not that the route's validators accept the
  application. A short name or a long handle still fails there.
- Feed.FetchUserPreferences: the order of the purchased ids (a `Set` in
  insertion order) is not stated, only their membership and
  distinctness.
- Recommend.PersonalizedFeed: the "at most `limit` items" bound holds only
  when the catalogue has one row per id (stated in FetchLength). The
  source has the same dependence on the database.

=== FILE: add_product.dfy ===
/** The add-product page: the image list with its upload guard and removal,
    and the submit handler's checks, the request it sends to the product
    creation route and the message it shows for the answer.

    `parseFloat` and `parseInt` are not modelled: the form carries each
    number's text next to its parsed value, `None` standing for NaN. */
module AddProduct {
  import opened Results
  import opened Seqs
  import opened Strings
  import opened Api
  import PC = ProductCreate

  const NoImages := "Please add at least one image"
  const NameRequired := "Product name is required"
  const PriceRequired := "Valid price is required"
  const CategoryRequired := "Category is required"
  const SessionExpired := "Session expired. Please sign in again."
  const CreateFailed := "Failed to create product"
  const CreateFailedRetry := "Failed to create product. Please try again."

  /** The form's fields as typed, with the parsed price and stock. */
  datatype Form = Form(
    name: string, description: string, priceText: string, price: Option<real>,
    category: string, size: string, condition: string, material: string,
    stockText: string, stock: Option<int>)

  /** The page's state: the images added so far (as data URLs), the form
      and the error shown. */
  datatype Page = Page(images: seq<string>, form: Form, error: string)

  // ---------------------------------------------------------------------
  // Images

  /** `handleImageUpload`. `files` is the selection, `None` when there is
      none; `added` are the data URLs of the selected files that pass the
      type and size checks, read in by the file reader. The guard counts
      the whole selection. */
  function HandleImageUpload(page: Page, files: Option<nat>, added: seq<string>): (r: Page)
    requires files.Some? ==> |added| <= files.value
    ensures files.None? ==> r == page
    ensures (files.Some? && |page.images| + files.value > PC.MaxImages ==>
      r == page.(error := PC.TooManyImages))
    ensures (files.Some? && |page.images| + files.value <= PC.MaxImages ==>
      r.images == page.images + added && r.error == "")
    ensures r.form == page.form
    ensures |page.images| <= |r.images| && r.images[..|page.images|] == page.images
  {
    if files.None? then page
    else if |page.images| + files.value > PC.MaxImages then page.(error := PC.TooManyImages)
    else page.(images := page.images + added, error := "")
  }

  /** Uploads never take the page past ten images. */
  lemma UploadKeepsLimit(page: Page, files: Option<nat>, added: seq<string>)
    requires files.Some? ==> |added| <= files.value
    requires |page.images| <= PC.MaxImages
    ensures |HandleImageUpload(page, files, added).images| <= PC.MaxImages
  {
  }

  /** `removeImage(index)`: the images without the one at `index`, in
      order; an index outside the list removes nothing. */
  function RemoveImage(images: seq<string>, index: int): (r: seq<string>)
    ensures !(0 <= index < |images|) ==> r == images
    ensures (0 <= index < |images| ==>
      |r| == |images| - 1
      && (forall j :: 0 <= j < index ==> r[j] == images[j])
      && (forall j :: index <= j < |r| ==> r[j] == images[j + 1]))
  {
    if 0 <= index < |images| then images[..index] + images[index + 1..] else images
  }

  /** Removing an image loses that image and nothing else. */
  lemma RemoveImageMultiset(images: seq<string>, index: int)
    requires 0 <= index < |images|
    ensures multiset(RemoveImage(images, index)) + multiset{images[index]} == multiset(images)
  {
    assert images == images[..index] + [images[index]] + images[index + 1..];
  }

  // ---------------------------------------------------------------------
  // Submit

  /** The checks `handleSubmit` makes, in order; the first failure's
      message. A price that does not parse passes: NaN is not `<= 0`. */
  function CheckForm(images: seq<string>, form: Form): (r: Option<string>)
    ensures |images| == 0 ==> r == Some(NoImages)
    ensures (|images| > 0 && Trim(form.name) == "" ==> r == Some(NameRequired))
    ensures r.None? <==> (|images| > 0 && Trim(form.name) != ""
      && form.priceText != "" && (form.price.None? || form.price.value > 0.0)
      && form.category != "")
    ensures r.Some? ==> r.value in {NoImages, NameRequired, PriceRequired, CategoryRequired}
  {
    if |images| == 0 then Some(NoImages)
    else if Trim(form.name) == "" then Some(NameRequired)
    else if form.priceText == "" || (form.price.Some? && form.price.value <= 0.0) then Some(PriceRequired)
    else if form.category == "" then Some(CategoryRequired)
    else None
  }

  /** `s.trim() || null`. */
  function TrimmedOrNull(s: string): (r: Option<string>)
    ensures r.None? <==> Trim(s) == ""
    ensures r.Some? ==> r.value == Trim(s) && Present(r)
  {
    if Trim(s) == "" then None else Some(Trim(s))
  }

  /** `parseInt(stock) || 1`: NaN and 0 become 1. */
  function StockValue(stock: Option<int>): (r: int)
    ensures r != 0
    ensures stock.Some? && stock.value != 0 ==> r == stock.value
    ensures stock.None? || stock.value == 0 ==> r == 1
  {
    if stock.None? || stock.value == 0 then 1 else stock.value
  }

  /** A parsed number as the route reads it back from the JSON text: NaN
      is sent as `null`, and `null` and 0 are falsy; any other number is
      truthy and parses to itself. */
  function SentNumber(v: Option<real>): (r: PC.Numeric<real>)
    ensures r.Falsy? <==> v.None? || v.value == 0.0
    ensures r.Truthy? ==> r.parsed == v
  {
    if v.None? || v.value == 0.0 then PC.Falsy else PC.Truthy(v)
  }

  /** The JSON body the page sends: the name trimmed; description, size and
      material trimmed and `null` when blank; the condition `null` when
      empty (it is not trimmed); the parsed price (NaN is sent as `null`);
      the images; the stock as `StockValue`, a number that is never 0. */
  function Payload(images: seq<string>, form: Form): (r: PC.ProductBody)
    ensures r.name == Some(Trim(form.name))
    ensures r.description == TrimmedOrNull(form.description)
    ensures r.size == TrimmedOrNull(form.size) && r.material == TrimmedOrNull(form.material)
    ensures r.condition.None? <==> form.condition == ""
    ensures r.price == SentNumber(form.price) && r.category == Some(form.category)
    ensures r.images.Some? && r.images.value.Items? && |r.images.value.items| == |images|
    ensures forall i :: 0 <= i < |images| ==> r.images.value.items[i] == Some(images[i])
    ensures r.stock == PC.Truthy(Some(StockValue(form.stock)))
  {
    PC.ProductBody(
      Some(Trim(form.name)), TrimmedOrNull(form.description), SentNumber(form.price), Some(form.category),
      TrimmedOrNull(form.size), if form.condition == "" then None else Some(form.condition),
      TrimmedOrNull(form.material),
      Some(PC.Items(seq(|images|, i requires 0 <= i < |images| => Some(images[i])))),
      PC.Truthy(Some(StockValue(form.stock))))
  }

  /** How a submit ends: stopped before sending, with the message shown, or
      the request sent and the message shown for the answer (empty on
      success). */
  datatype Submission = Stopped(error: string) | Sent(request: PC.Request, error: string, created: bool)

  /** The message a failed answer leaves: the thrown message is the
      answer's `error` or a fallback, and the catch block shows it or its
      own fallback when it is empty. */
  function FailureMessage(answerError: string): (r: string)
    ensures r != ""
    ensures answerError != "" ==> r == answerError
  {
    var thrown := if answerError == "" then CreateFailed else answerError;
    if thrown == "" then CreateFailedRetry else thrown
  }

  /** The catch block's own fallback is never shown: the thrown message
      is never empty. */
  lemma RetryFallbackUnused(answerError: string)
    ensures FailureMessage(answerError) != CreateFailedRetry || answerError == CreateFailedRetry
  {
    assert CreateFailed != CreateFailedRetry by {
      assert |CreateFailed| != |CreateFailedRetry|;
    }
  }

  /** `handleSubmit`: the checks, then the session, then the request with
      the session's token; `answer` is the route's reply. */
  function HandleSubmit(page: Page, session: Option<string>, answer: Response): (r: Submission)
    ensures CheckForm(page.images, page.form).Some? ==> r == Stopped(CheckForm(page.images, page.form).value)
    ensures CheckForm(page.images, page.form).None? && session.None? ==> r == Stopped(SessionExpired)
    ensures (r.Sent? ==>
      CheckForm(page.images, page.form).None? && session.Some?
      && r.request.authorization == Some("Bearer " + session.value)
      && r.request.body == Ok(Payload(page.images, page.form)))
    ensures r.Sent? ==> (r.created <==> 200 <= answer.status < 300)
    ensures r.Sent? && !r.created ==> r.error == FailureMessage(answer.message)
    ensures r.Sent? && r.created ==> r.error == ""
  {
    match CheckForm(page.images, page.form)
    case Some(m) => Stopped(m)
    case None =>
      if session.None? then Stopped(SessionExpired)
      else
        var request := PC.Request(Some("Bearer " + session.value), Ok(Payload(page.images, page.form)));
        if 200 <= answer.status < 300 then Sent(request, "", true)
        else Sent(request, FailureMessage(answer.message), false)
  }

  /** The route reads the page's token back from the header it sends. */
  lemma TokenReachesRoute(page: Page, token: string, sessions: map<string, string>, answer: Response)
    requires HandleSubmit(page, Some(token), answer).Sent?
    ensures BearerToken(HandleSubmit(page, Some(token), answer).request.authorization) == Some(token)
    ensures (UserOf(HandleSubmit(page, Some(token), answer).request.authorization, sessions)
      == if token in sessions then Some(sessions[token]) else None)
  {
    var auth := "Bearer " + token;
    assert auth[..7] == "Bearer ";
    var t := BearerToken(Some(auth)).value;
    assert auth == "Bearer " + t;
    assert t == auth[7..];
  }

  /** A request the page sends carries every field the route requires,
      except when the price did not parse. */
  lemma SentBodyComplete(page: Page, session: Option<string>, answer: Response)
    requires HandleSubmit(page, session, answer).Sent?
    ensures PC.HasRequired(Payload(page.images, page.form)) <==> page.form.price.Some?
  {
    assert CheckForm(page.images, page.form).None?;
    var body := Payload(page.images, page.form);
    assert Present(body.name) && Present(body.category) && body.images.Some?;
    assert body.price.Truthy? <==> page.form.price.Some?;
  }

  /** A price that does not parse gets past the page's check and the
      route, once the seller and their shop check out, answers 400 with
      its missing-fields message. */
  lemma UnparseablePriceReachesRoute(page: Page, token: string, sessions: map<string, string>,
                                     db: Db, insertFails: bool, answer: Response)
    requires CheckForm(page.images, page.form).None? && page.form.price.None?
    requires (var req := PC.Request(Some("Bearer " + token), Ok(Payload(page.images, page.form)));
      PC.AccountOk(req, sessions, db))
    ensures HandleSubmit(page, Some(token), answer).Sent?
    ensures (PC.CreateProduct(HandleSubmit(page, Some(token), answer).request, sessions, db, insertFails)
      == PC.Outcome(Response(400, PC.MissingFields), None))
  {
    SentRequest(page, token, answer);
    var request := PC.Request(Some("Bearer " + token), Ok(Payload(page.images, page.form)));
    assert request.body.value.price.Falsy?;
    PC.FalsyPriceIsMissing(request, sessions, db, insertFails);
  }

  /** A form that passes the checks is sent, with the token and payload. */
  lemma SentRequest(page: Page, token: string, answer: Response)
    requires CheckForm(page.images, page.form).None?
    ensures HandleSubmit(page, Some(token), answer).Sent?
    ensures (HandleSubmit(page, Some(token), answer).request
      == PC.Request(Some("Bearer " + token), Ok(Payload(page.images, page.form))))
  {
  }
}

=== FILE: api.dfy ===
/** What the two API routes share: the rows of the `profiles` and `shops`
    tables they read, the response they send, the `Bearer ` token check,
    and the reading of JSON fields as truthy or falsy. */
module Api {
  import opened Results
  import opened Strings

  datatype Profile = Profile(id: string, isSeller: bool, sellerBio: Option<string>)
  datatype Shop = Shop(id: string, ownerId: string, shopName: string, instagramHandle: string, bio: Option<string>)

  /** A snapshot of the two tables. */
  datatype Db = Db(profiles: seq<Profile>, shops: seq<Shop>)

  /** The status and the `error` (or success `message`) of the JSON reply. */
  datatype Response = Response(status: int, message: string)

  function HasId(uid: string): Profile -> bool {
    (p: Profile) => p.id == uid
  }

  function OwnedBy(uid: string): Shop -> bool {
    (s: Shop) => s.ownerId == uid
  }

  /** Both `single()` and `maybeSingle()` yield a row only when exactly one
      matches: with none, and also with several, the data is null. */
  predicate SingleRow<T>(rows: seq<T>) {
    |rows| == 1
  }

  /** A truthy string field: present and not empty. */
  predicate Present(v: Option<string>) {
    v.Some? && v.value != ""
  }

  const Unauthorized := "Unauthorized. Please sign in."
  const InvalidToken := "Invalid authentication token. Please sign in again."

  /** The token of a `Bearer ` header. */
  function BearerToken(authorization: Option<string>): (r: Option<string>)
    ensures r.Some? <==> authorization.Some? && StartsWith(authorization.value, "Bearer ")
    ensures r.Some? ==> authorization.value == "Bearer " + r.value
  {
    if authorization.Some? && StartsWith(authorization.value, "Bearer ") then
      var token := authorization.value[7..];
      assert authorization.value == authorization.value[..7] + token;
      Some(token)
    else None
  }

  /** The signed-in user: `sessions` maps each token the auth service
      accepts to its user id. */
  function UserOf(authorization: Option<string>, sessions: map<string, string>): Option<string> {
    var token := BearerToken(authorization);
    if token.Some? && token.value in sessions then Some(sessions[token.value]) else None
  }

  /** The outcome of one group of checks: it passes on a value or refuses
      with a response. */
  datatype Gate<T> = Pass(value: T) | Refuse(response: Response)

  /** The first step of both routes: no `Bearer ` header, or a token the
      auth service rejects, is a 401 with its own message. */
  function Authenticate(authorization: Option<string>, sessions: map<string, string>): (r: Gate<string>)
    ensures r.Pass? <==> UserOf(authorization, sessions).Some?
    ensures r.Pass? ==> r.value == UserOf(authorization, sessions).value
    ensures r.Refuse? ==> r.response.status == 401
    ensures BearerToken(authorization).None? ==> r == Refuse(Response(401, Unauthorized))
    ensures BearerToken(authorization).Some? && r.Refuse? ==> r == Refuse(Response(401, InvalidToken))
  {
    var token := BearerToken(authorization);
    if token.None? then Refuse(Response(401, Unauthorized))
    else if token.value !in sessions then Refuse(Response(401, InvalidToken))
    else Pass(sessions[token.value])
  }
}

=== FILE: dashboard.dfy ===
/** The seller dashboard's list of the shop's products: the two figures it
    shows and the local update after a delete. */
module Dashboard {
  import opened Results
  import opened Seqs

  datatype Product = Product(id: string, name: string, price: real, images: seq<string>,
                             category: string, stock: int, likesCount: int)

  const DeleteFailed := "Failed to delete product"

  function LikeCounts(products: seq<Product>): (r: seq<int>)
    ensures |r| == |products|
    ensures forall i :: 0 <= i < |products| ==> r[i] == products[i].likesCount
  {
    seq(|products|, i requires 0 <= i < |products| => products[i].likesCount)
  }

  function Sum(xs: seq<int>): int
    decreases |xs|
  {
    if |xs| == 0 then 0 else xs[0] + Sum(xs[1..])
  }

  /** `totalLikes`: the products' like counts added up. */
  function TotalLikes(products: seq<Product>): (r: int)
    ensures |products| == 0 ==> r == 0
    ensures |products| == 1 ==> r == products[0].likesCount
    ensures (forall i :: 0 <= i < |products| ==> products[i].likesCount >= 0) ==> r >= 0
  {
    SumNonNegative(LikeCounts(products));
    assert |products| == 1 ==> LikeCounts(products) == [products[0].likesCount];
    assert |products| == 1 ==> Sum(LikeCounts(products)) == LikeCounts(products)[0] + Sum(LikeCounts(products)[1..]);
    assert |products| == 1 ==> LikeCounts(products)[1..] == [];
    Sum(LikeCounts(products))
  }

  lemma {:induction false} SumNonNegative(xs: seq<int>)
    ensures (forall i :: 0 <= i < |xs| ==> xs[i] >= 0) ==> Sum(xs) >= 0
    decreases |xs|
  {
    if |xs| > 0 {
      SumNonNegative(xs[1..]);
      assert forall i :: 0 <= i < |xs| - 1 ==> xs[1..][i] == xs[i + 1];
    }
  }

  lemma {:induction false} SumAppend(a: seq<int>, b: seq<int>)
    ensures Sum(a + b) == Sum(a) + Sum(b)
    decreases |a|
  {
    if |a| == 0 {
      assert a + b == b;
    } else {
      SumAppend(a[1..], b);
      assert (a + b)[1..] == a[1..] + b;
    }
  }

  /** The total of a list is the totals of its parts added. */
  lemma TotalLikesAppend(a: seq<Product>, b: seq<Product>)
    ensures TotalLikes(a + b) == TotalLikes(a) + TotalLikes(b)
  {
    assert LikeCounts(a + b) == LikeCounts(a) + LikeCounts(b);
    SumAppend(LikeCounts(a), LikeCounts(b));
  }

  /** With no negative counts the total is at least each product's count. */
  lemma {:induction false} TotalLikesBounds(products: seq<Product>)
    requires forall i :: 0 <= i < |products| ==> products[i].likesCount >= 0
    ensures TotalLikes(products) >= 0
    ensures forall i :: 0 <= i < |products| ==> TotalLikes(products) >= products[i].likesCount
    decreases |products|
  {
    if |products| > 0 {
      TotalLikesBounds(products[1..]);
      assert LikeCounts(products)[1..] == LikeCounts(products[1..]);
      forall i | 1 <= i < |products| ensures TotalLikes(products) >= products[i].likesCount {
        assert products[1..][i - 1] == products[i];
      }
    }
  }

  function Stocked(p: Product): bool {
    p.stock > 0
  }

  /** `inStock`: how many products have stock left. */
  function InStock(products: seq<Product>): (r: nat)
    ensures r <= |products|
  {
    |Filter(products, Stocked)|
  }

  /** `inStock` counts exactly the products with stock: all of them when
      every product has some, none when none has. */
  lemma InStockExtremes(products: seq<Product>)
    ensures (forall i :: 0 <= i < |products| ==> products[i].stock > 0) ==> InStock(products) == |products|
    ensures (forall i :: 0 <= i < |products| ==> products[i].stock <= 0) ==> InStock(products) == 0
  {
    if forall i :: 0 <= i < |products| ==> products[i].stock > 0 {
      FilterAll(products, Stocked);
    }
    var r := Filter(products, Stocked);
    if |r| > 0 {
      assert r[0] in r;
    }
  }

  /** The products' stock counts add up across a split of the list. */
  lemma InStockAppend(a: seq<Product>, b: seq<Product>)
    ensures InStock(a + b) == InStock(a) + InStock(b)
  {
    FilterAppend(a, b, Stocked);
  }

  lemma {:induction false} FilterAppend<T(!new)>(a: seq<T>, b: seq<T>, p: T -> bool)
    ensures Filter(a + b, p) == Filter(a, p) + Filter(b, p)
    decreases |a|
  {
    if |a| == 0 {
      assert a + b == b;
    } else {
      var ab := a + b;
      assert ab[0] == a[0] && ab[1..] == a[1..] + b;
      FilterAppend(a[1..], b, p);
      var rest := Filter(a[1..], p) + Filter(b, p);
      if p(a[0]) {
        assert Filter(ab, p) == [a[0]] + rest;
        assert Filter(a, p) == [a[0]] + Filter(a[1..], p);
      } else {
        assert Filter(ab, p) == rest;
        assert Filter(a, p) == Filter(a[1..], p);
      }
    }
  }

  function OtherId(id: string): Product -> bool {
    (p: Product) => p.id != id
  }

  /** The list after `handleDeleteProduct` and the alert shown, if any. */
  datatype Deletion = Deletion(products: seq<Product>, alert: Option<string>)

  /** `handleDeleteProduct`: a declined confirmation changes nothing; a
      delete call that throws leaves the list and alerts; otherwise every
      product with that id leaves the list and the rest keep their order.
      The delete's returned error is not inspected, so the list is updated
      whatever the database answered. */
  function DeleteProduct(products: seq<Product>, id: string, confirmed: bool, deleteThrows: bool): (r: Deletion)
    ensures !confirmed ==> r == Deletion(products, None)
    ensures confirmed && deleteThrows ==> r == Deletion(products, Some(DeleteFailed))
    ensures (confirmed && !deleteThrows ==>
      r.alert.None?
      && (forall p :: p in r.products <==> p in products && p.id != id)
      && IsSubseq(r.products, products)
      && (forall p :: multiset(r.products)[p] == if p.id == id then 0 else multiset(products)[p]))
  {
    if !confirmed then Deletion(products, None)
    else if deleteThrows then Deletion(products, Some(DeleteFailed))
    else
      var r := Filter(products, OtherId(id));
      FilterSubseq(products, OtherId(id));
      FilterCounts(products, OtherId(id));
      Deletion(r, None)
  }

  /** Deleting an id that is not listed changes nothing. */
  lemma DeleteAbsent(products: seq<Product>, id: string)
    requires forall i :: 0 <= i < |products| ==> products[i].id != id
    ensures DeleteProduct(products, id, true, false).products == products
  {
    FilterAll(products, OtherId(id));
  }

  /** Deleting the same id twice is deleting it once. */
  lemma DeleteTwice(products: seq<Product>, id: string)
    ensures (var once := DeleteProduct(products, id, true, false).products;
      DeleteProduct(once, id, true, false).products == once)
  {
    FilterIdempotent(products, OtherId(id));
  }

  /** Deleting a product listed once, between products with other ids,
      leaves exactly the products around it. */
  lemma DeleteMiddle(before: seq<Product>, x: Product, after: seq<Product>)
    requires forall i :: 0 <= i < |before| ==> before[i].id != x.id
    requires forall i :: 0 <= i < |after| ==> after[i].id != x.id
    ensures DeleteProduct(before + [x] + after, x.id, true, false).products == before + after
  {
    var p := OtherId(x.id);
    FilterAppend(before + [x], after, p);
    FilterSnoc(before, x, p);
    DeleteAbsent(before, x.id);
    DeleteAbsent(after, x.id);
    assert Filter(before, p) + [] == before;
  }

  /** After such a delete the like total drops by the deleted product's
      count and the stock count does not grow. */
  lemma DeleteFigures(before: seq<Product>, x: Product, after: seq<Product>)
    requires forall i :: 0 <= i < |before| ==> before[i].id != x.id
    requires forall i :: 0 <= i < |after| ==> after[i].id != x.id
    ensures (var rest := DeleteProduct(before + [x] + after, x.id, true, false).products;
      TotalLikes(rest) == TotalLikes(before + [x] + after) - x.likesCount
      && InStock(rest) <= InStock(before + [x] + after))
  {
    DeleteMiddle(before, x, after);
    TotalLikesAppend(before + [x], after);
    TotalLikesAppend(before, [x]);
    TotalLikesAppend(before, after);
    assert TotalLikes([x]) == x.likesCount by {
      var xs := LikeCounts([x]);
      assert xs == [x.likesCount];
      assert xs[1..] == [];
      assert Sum(xs) == xs[0] + Sum(xs[1..]);
    }
    InStockAppend(before + [x], after);
    InStockAppend(before, [x]);
    InStockAppend(before, after);
  }
}

=== FILE: feed.dfy ===
/** The personalised-feed recommender of `src/lib/personalized-feed.ts`,
    with every database read turned into a parameter:

    - the user's liked ids, cart ids and order history (each `None` when
      the query returned no data);
    - the `product_tags` table, which both tag queries filter;
    - the `likes_count` of the scored products, as a map (a product with no
      entry, or a null count, counts as 0);
    - the product display records, `None` when that query returned no data.

    The trending fallback is a query ordered by `likes_count`; the model
    reports that it was taken (`Trending`) rather than its rows. */
module Feed {
  import opened Results
  import opened Seqs
  import opened Records
  import opened Tags

  /** `RECOMMENDATION_WEIGHTS`, exact as reals. */
  const BaseScore: real := 0.5
  const TagMatchWeight: real := 1.0
  const LikedWeight: real := 3.0
  const CartWeight: real := 2.5
  const PurchasedWeight: real := 2.0
  /** The factor applied to `likes_count` in the popularity bonus. */
  const PopularityWeight: real := 0.1

  datatype Reason = TagBasedMatch | SimilarToLiked | SimilarToCart | SimilarToPurchased

  function ReasonText(r: Reason): string {
    match r
    case TagBasedMatch => "Tag-based match"
    case SimilarToLiked => "Similar to liked items"
    case SimilarToCart => "Similar to cart items"
    case SimilarToPurchased => "Similar to purchased items"
  }

  /** `UserPreferences`. */
  datatype Preferences = Preferences(liked: seq<string>, cart: seq<string>, purchased: seq<string>)

  /** `RecommendationScore`. */
  datatype Score = Score(productId: string, score: real, matchedTags: seq<string>, reason: Reason)

  // ---------------------------------------------------------------------
  // Preference fetcher

  /** A line item of an order's `items` JSON; `id` is `None` when the field
      is missing or null. */
  datatype OrderItem = OrderItem(id: Option<string>)

  /** An order's `items` column: a JSON array, or any other JSON value. */
  datatype OrderItems = ItemArray(items: seq<OrderItem>) | NotAnArray

  datatype Order = Order(items: OrderItems)

  /** `if (item.id)`: the id is present and not the empty string. */
  predicate HasTruthyId(item: OrderItem) {
    item.id.Some? && item.id.value != ""
  }

  /** The truthy item ids of the orders, in `forEach` order, before
      deduplication. */
  function OrderItemIds(orders: seq<Order>): (r: seq<string>)
    ensures forall x :: x in r <==> exists i, j :: (0 <= i < |orders| && orders[i].items.ItemArray?
      && 0 <= j < |orders[i].items.items| && HasTruthyId(orders[i].items.items[j])
      && orders[i].items.items[j].id.value == x)
    decreases |orders|
  {
    if |orders| == 0 then []
    else
      var init := orders[..|orders| - 1];
      var last := orders[|orders| - 1];
      assert forall i :: 0 <= i < |init| ==> init[i] == orders[i];
      OrderItemIds(init) + (match last.items
        case NotAnArray => []
        case ItemArray(items) => ItemIds(items))
  }

  function ItemIds(items: seq<OrderItem>): (r: seq<string>)
    ensures forall x :: x in r <==> exists j :: 0 <= j < |items| && HasTruthyId(items[j]) && items[j].id.value == x
    decreases |items|
  {
    if |items| == 0 then []
    else
      var init := items[..|items| - 1];
      var last := items[|items| - 1];
      assert forall j :: 0 <= j < |init| ==> init[j] == items[j];
      ItemIds(init) + (if HasTruthyId(last) then [last.id.value] else [])
  }

  /** The purchased ids of `fetchUserPreferences`: every truthy `item.id`
      of every order whose `items` is an array, once each (a `Set`). */
  function PurchasedIds(orders: Option<seq<Order>>): (r: seq<string>)
    ensures NoDup(r)
    ensures orders.None? ==> r == []
    ensures orders.Some? ==> forall x :: x in r <==>
      exists i, j :: (0 <= i < |orders.value| && orders.value[i].items.ItemArray?
        && 0 <= j < |orders.value[i].items.items| && HasTruthyId(orders.value[i].items.items[j])
        && orders.value[i].items.items[j].id.value == x)
  {
    Dedup(OrderItemIds(orders.GetOr([])))
  }

  /** `fetchUserPreferences` on the three query results; a source whose
      query returned no data contributes an empty list. */
  function FetchUserPreferences(likedRows: Option<seq<string>>, cartRows: Option<seq<string>>,
                                orders: Option<seq<Order>>): (p: Preferences)
    ensures p.liked == likedRows.GetOr([]) && p.cart == cartRows.GetOr([])
    ensures NoDup(p.purchased)
    ensures forall x :: x in p.purchased ==> x in OrderItemIds(orders.GetOr([]))
    ensures forall x :: x in OrderItemIds(orders.GetOr([])) ==> x in p.purchased
  {
    Preferences(likedRows.GetOr([]), cartRows.GetOr([]), PurchasedIds(orders))
  }

  // ---------------------------------------------------------------------
  // Tag extractor

  /** `getTagsFromProductList`: the distinct tags of the rows of
      `product_tags` whose product is in `productIds`. */
  function TagsFromProductList(table: seq<ProductTag>, productIds: seq<string>): (r: seq<string>)
    ensures |productIds| == 0 ==> r == []
    ensures NoDup(r)
    ensures forall t :: t in r <==> exists row :: row in table && row.productId in productIds && row.tag == t
  {
    if |productIds| == 0 then []
    else
      var rows := Filter(table, (row: ProductTag) => row.productId in productIds);
      var r := Dedup(TagStrings(rows));
      TagStringsMembers(rows);
      r
  }

  // ---------------------------------------------------------------------
  // Tag-match scorer

  /** The tags of the rows for `id`, in row order, one per row. */
  function TagsOf(rows: seq<ProductTag>, id: string): (r: seq<string>)
    ensures |r| == RowCount(rows, id)
    decreases |rows|
  {
    if |rows| == 0 then []
    else
      var row := rows[|rows| - 1];
      TagsOf(rows[..|rows| - 1], id) + if row.productId == id then [row.tag] else []
  }

  /** The number of rows for `id`. */
  function RowCount(rows: seq<ProductTag>, id: string): nat
    decreases |rows|
  {
    if |rows| == 0 then 0
    else RowCount(rows[..|rows| - 1], id) + if rows[|rows| - 1].productId == id then 1 else 0
  }

  /** `TagsOf` lists the tags of exactly the rows of `id`: it is the tag
      column of the rows that a filter on the product id keeps. */
  lemma {:induction false} TagsOfIsFilter(rows: seq<ProductTag>, id: string)
    ensures TagsOf(rows, id) == TagStrings(Filter(rows, (row: ProductTag) => row.productId == id))
    decreases |rows|
  {
    if |rows| > 0 {
      var init, row := rows[..|rows| - 1], rows[|rows| - 1];
      TagsOfIsFilter(init, id);
      assert rows == init + [row];
      FilterSnoc(init, row, (x: ProductTag) => x.productId == id);
      var f := Filter(init, (x: ProductTag) => x.productId == id);
      var extra := if row.productId == id then [row] else [];
      TagStringsAppend(f, extra);
    }
  }

  /** `RowCount` is the number of occurrences of `id` in the product-id
      column. */
  lemma {:induction false} RowCountIsOccurrences(rows: seq<ProductTag>, id: string)
    ensures RowCount(rows, id) == multiset(ProductIds(rows))[id]
    decreases |rows|
  {
    if |rows| > 0 {
      var init := rows[..|rows| - 1];
      RowCountIsOccurrences(init, id);
      assert ProductIds(rows) == ProductIds(init) + [rows[|rows| - 1].productId];
    }
  }

  /** A product without rows has no count and no tags. */
  lemma {:induction false} NoRows(rows: seq<ProductTag>, id: string)
    ensures id !in ProductIds(rows) ==> RowCount(rows, id) == 0 && TagsOf(rows, id) == []
    decreases |rows|
  {
    if |rows| > 0 {
      var init := rows[..|rows| - 1];
      NoRows(init, id);
      assert ProductIds(rows) == ProductIds(init) + [rows[|rows| - 1].productId];
    }
  }

  /** The entry a product gets from its first tag-match row. */
  function FirstMatch(row: ProductTag): Score {
    Score(row.productId, BaseScore + TagMatchWeight, [row.tag], TagBasedMatch)
  }

  /** One step of the `tagMatches.forEach`: create the entry with the base
      score on the product's first row, then add the tag-match weight and
      record the tag. */
  function AddMatch(t: Record<Score>, row: ProductTag): (r: Record<Score>)
    requires t.Valid()
    ensures r.Valid()
    ensures r.keys == if row.productId in t.at then t.keys else t.keys + [row.productId]
    ensures r.at.Keys == t.at.Keys + {row.productId}
    ensures forall id :: id in t.at && id != row.productId ==> r.at[id] == t.at[id]
    ensures row.productId in t.at ==> r.at[row.productId] == t.at[row.productId].(
      score := t.at[row.productId].score + TagMatchWeight,
      matchedTags := t.at[row.productId].matchedTags + [row.tag])
    ensures row.productId !in t.at ==> r.at[row.productId] == FirstMatch(row)
  {
    var id := row.productId;
    var entry := if id in t.at then t.at[id] else Score(id, BaseScore, [], TagBasedMatch);
    t.Put(id, entry.(score := entry.score + TagMatchWeight, matchedTags := entry.matchedTags + [row.tag]))
  }

  /** What the score table holds for `id` after the fold over `rows`. */
  function ExpectedMatch(rows: seq<ProductTag>, id: string): Score {
    Score(id, BaseScore + RowCount(rows, id) as real * TagMatchWeight, TagsOf(rows, id), TagBasedMatch)
  }

  /** `t` holds one entry per product that has a row, in first-row order,
      scored 0.5 plus 1 per row and listing one tag per row. */
  ghost predicate MatchTable(t: Record<Score>, rows: seq<ProductTag>) {
    && t.Valid()
    && t.keys == Dedup(ProductIds(rows))
    && (forall id :: id in t.at <==> id in ProductIds(rows))
    && (forall id :: id in t.at ==> t.at[id] == ExpectedMatch(rows, id))
  }

  /** The score table after the fold over the tag-match rows. */
  function BuildScores(rows: seq<ProductTag>): (t: Record<Score>)
    ensures MatchTable(t, rows)
    decreases |rows|
  {
    if |rows| == 0 then Empty()
    else
      var t := BuildScores(rows[..|rows| - 1]);
      var r := AddMatch(t, rows[|rows| - 1]);
      BuildStep(rows, t, r);
      r
  }

  lemma BuildStep(rows: seq<ProductTag>, t: Record<Score>, r: Record<Score>)
    requires |rows| > 0 && MatchTable(t, rows[..|rows| - 1])
    requires r == AddMatch(t, rows[|rows| - 1])
    ensures MatchTable(r, rows)
  {
    BuildStepKeys(rows, t, r);
    BuildStepEntries(rows, t, r);
  }

  lemma BuildStepKeys(rows: seq<ProductTag>, t: Record<Score>, r: Record<Score>)
    requires |rows| > 0 && t.Valid()
    requires t.keys == Dedup(ProductIds(rows[..|rows| - 1]))
    requires forall id :: id in t.at <==> id in ProductIds(rows[..|rows| - 1])
    requires r == AddMatch(t, rows[|rows| - 1])
    ensures r.keys == Dedup(ProductIds(rows))
    ensures forall id :: id in r.at <==> id in ProductIds(rows)
  {
    var id := rows[|rows| - 1].productId;
    SnocIds(rows);
    assert r.keys == if id in t.at then t.keys else t.keys + [id];
    assert r.at.Keys == t.at.Keys + {id};
  }

  lemma BuildStepEntries(rows: seq<ProductTag>, t: Record<Score>, r: Record<Score>)
    requires |rows| > 0 && t.Valid()
    requires forall id :: id in t.at <==> id in ProductIds(rows[..|rows| - 1])
    requires forall id :: id in t.at ==> t.at[id] == ExpectedMatch(rows[..|rows| - 1], id)
    requires r == AddMatch(t, rows[|rows| - 1])
    ensures forall id :: id in r.at ==> r.at[id] == ExpectedMatch(rows, id)
  {
    var init, row := rows[..|rows| - 1], rows[|rows| - 1];
    assert rows == init + [row];
    forall id | id in r.at
      ensures r.at[id] == ExpectedMatch(rows, id)
    {
      BuildStepAt(init, row, rows, t, r, id);
    }
  }

  lemma BuildStepAt(init: seq<ProductTag>, row: ProductTag, rows: seq<ProductTag>, t: Record<Score>, r: Record<Score>, id: string)
    requires rows == init + [row]
    requires t.Valid()
    requires id in t.at <==> id in ProductIds(init)
    requires id in t.at ==> t.at[id] == ExpectedMatch(init, id)
    requires r == AddMatch(t, row) && id in r.at
    ensures r.at[id] == ExpectedMatch(rows, id)
  {
    assert init == rows[..|rows| - 1] && row == rows[|rows| - 1];
    NoRows(init, id);
  }

  // ---------------------------------------------------------------------
  // Interaction boosts and popularity bonus

  function Pow(x: real, n: nat): real
    decreases n
  {
    if n == 0 then 1.0 else Pow(x, n - 1) * x
  }

  /** `x` multiplied by `f`, `n` times over. */
  function Scale(x: real, f: real, n: nat): real
    decreases n
  {
    if n == 0 then x else Scale(x, f, n - 1) * f
  }

  /** Repeated multiplication is multiplication by a power. */
  lemma {:induction false} ScaleIsPow(x: real, f: real, n: nat)
    ensures Scale(x, f, n) == x * Pow(f, n)
    decreases n
  {
    if n > 0 {
      ScaleIsPow(x, f, n - 1);
      calc {
        Scale(x, f, n);
        Scale(x, f, n - 1) * f;
        x * Pow(f, n - 1) * f;
        x * (Pow(f, n - 1) * f);
        x * Pow(f, n);
      }
    }
  }

  /** One iteration of a boost `forEach`: an id already in the table has
      its score multiplied and its reason overwritten; any other id is
      ignored. */
  function BoostOne(t: Record<Score>, id: string, factor: real, reason: Reason): (r: Record<Score>)
    requires t.Valid()
    ensures r.Valid() && r.keys == t.keys && r.at.Keys == t.at.Keys
    ensures forall k :: k in t.at ==> r.at[k] == if k == id then Bump(t.at[k], factor, reason) else t.at[k]
  {
    if id in t.at then t.Put(id, Bump(t.at[id], factor, reason)) else t
  }

  /** `score *= factor; reason = ...` on one entry. */
  function Bump(e: Score, factor: real, reason: Reason): (r: Score)
    ensures r.productId == e.productId && r.matchedTags == e.matchedTags
    ensures r.score == e.score * factor && r.reason == reason
  {
    e.(score := e.score * factor, reason := reason)
  }

  /** A whole boost `forEach` over `ids`: the table keeps exactly its
      products and key order, and each entry becomes `BoostedEntry` of its
      old value. */
  function Boost(t: Record<Score>, ids: seq<string>, factor: real, reason: Reason): (r: Record<Score>)
    requires t.Valid()
    ensures r.Valid() && r.keys == t.keys && r.at.Keys == t.at.Keys
    ensures forall k :: k in t.at ==> r.at[k] == BoostedEntry(t.at[k], k, ids, factor, reason)
    decreases |ids|
  {
    if |ids| == 0 then t
    else
      var mid := Boost(t, ids[..|ids| - 1], factor, reason);
      var r := BoostOne(mid, ids[|ids| - 1], factor, reason);
      BoostStep(t, ids, mid, r, factor, reason);
      r
  }

  lemma BoostStep(t: Record<Score>, ids: seq<string>, mid: Record<Score>, r: Record<Score>, factor: real, reason: Reason)
    requires |ids| > 0
    requires mid.at.Keys == t.at.Keys
    requires forall k :: k in t.at ==> mid.at[k] == BoostedEntry(t.at[k], k, ids[..|ids| - 1], factor, reason)
    requires r.at.Keys == mid.at.Keys
    requires forall k :: k in mid.at ==> r.at[k] == if k == ids[|ids| - 1] then Bump(mid.at[k], factor, reason) else mid.at[k]
    ensures forall k :: k in t.at ==> r.at[k] == BoostedEntry(t.at[k], k, ids, factor, reason)
  {
    forall k | k in t.at ensures r.at[k] == BoostedEntry(t.at[k], k, ids, factor, reason) {
      BoostKey(t.at[k], k, ids, mid.at[k], r.at[k], factor, reason);
    }
  }

  lemma BoostKey(e: Score, k: string, ids: seq<string>, m: Score, after: Score, factor: real, reason: Reason)
    requires |ids| > 0
    requires m == BoostedEntry(e, k, ids[..|ids| - 1], factor, reason)
    requires after == if k == ids[|ids| - 1] then Bump(m, factor, reason) else m
    ensures after == BoostedEntry(e, k, ids, factor, reason)
  {
  }

  /** The entry of product `k` after the boost loop over `ids`, seen one
      entry at a time. */
  function BoostedEntry(e: Score, k: string, ids: seq<string>, factor: real, reason: Reason): Score
    decreases |ids|
  {
    if |ids| == 0 then e
    else
      var m := BoostedEntry(e, k, ids[..|ids| - 1], factor, reason);
      if ids[|ids| - 1] == k then Bump(m, factor, reason) else m
  }

  /** The boost loop applied per occurrence: the score is multiplied once
      for every occurrence of `k` in `ids`, the reason is overwritten when
      there is at least one, and nothing else changes. */
  lemma {:induction false} BoostedEntryClosedForm(e: Score, k: string, ids: seq<string>, factor: real, reason: Reason)
    ensures BoostedEntry(e, k, ids, factor, reason) == e.(
      score := Scale(e.score, factor, multiset(ids)[k]),
      reason := if k in ids then reason else e.reason)
    decreases |ids|
  {
    if |ids| > 0 {
      BoostedEntryClosedForm(e, k, ids[..|ids| - 1], factor, reason);
      SnocCount(ids, k);
    }
  }

  /** Occurrences of `k` in a non-empty list, split at its last element. */
  lemma SnocCount(ids: seq<string>, k: string)
    requires |ids| > 0
    ensures multiset(ids)[k] == multiset(ids[..|ids| - 1])[k] + if k == ids[|ids| - 1] then 1 else 0
    ensures k in ids <==> k in ids[..|ids| - 1] || k == ids[|ids| - 1]
  {
    assert ids == ids[..|ids| - 1] + [ids[|ids| - 1]];
  }

  /** `product.likes_count || 0`: a product without a count scores 0. */
  function LikesOf(likes: map<string, int>, id: string): int {
    if id in likes then likes[id] else 0
  }

  /** The popularity pass: every product of the table, and no other,
      gains a tenth of its like count. */
  function AddPopularity(t: Record<Score>, likes: map<string, int>): (r: Record<Score>)
    requires t.Valid()
    ensures r.Valid() && r.keys == t.keys && r.at.Keys == t.at.Keys
    ensures forall k :: k in t.at ==> r.at[k] == AddBonus(t.at[k], LikesOf(likes, k) as real * PopularityWeight)
  {
    Record(t.keys, map k | k in t.at :: AddBonus(t.at[k], LikesOf(likes, k) as real * PopularityWeight))
  }

  /** `score += bonus` on one entry. */
  function AddBonus(e: Score, bonus: real): (r: Score)
    ensures r.productId == e.productId && r.matchedTags == e.matchedTags && r.reason == e.reason
    ensures r.score == e.score + bonus
  {
    e.(score := e.score + bonus)
  }

  /** The reason a product ends with: the last boost list (liked, then
      cart, then purchased) that mentions it. */
  function FinalReason(prefs: Preferences, id: string): Reason {
    if id in prefs.purchased then SimilarToPurchased
    else if id in prefs.cart then SimilarToCart
    else if id in prefs.liked then SimilarToLiked
    else TagBasedMatch
  }

  /** The closed form of a product's final entry. */
  function ExpectedScore(rows: seq<ProductTag>, prefs: Preferences, likes: map<string, int>, id: string): Score {
    Score(id,
      Scale(Scale(Scale(BaseScore + RowCount(rows, id) as real * TagMatchWeight,
        LikedWeight, multiset(prefs.liked)[id]),
        CartWeight, multiset(prefs.cart)[id]),
        PurchasedWeight, multiset(prefs.purchased)[id])
        + LikesOf(likes, id) as real * PopularityWeight,
      TagsOf(rows, id),
      FinalReason(prefs, id))
  }

  /** `t` holds one entry per product that has a row, in first-row order,
      each equal to its closed form. */
  ghost predicate ScoredTable(t: Record<Score>, rows: seq<ProductTag>, prefs: Preferences, likes: map<string, int>) {
    && t.Valid()
    && t.keys == Dedup(ProductIds(rows))
    && (forall id :: id in t.at <==> id in ProductIds(rows))
    && (forall id :: id in t.at ==> t.at[id] == ExpectedScore(rows, prefs, likes, id))
  }

  /** `productScores` after the fold, the three boosts and the popularity
      pass, in that order. */
  function FinalTable(rows: seq<ProductTag>, prefs: Preferences, likes: map<string, int>): (t: Record<Score>)
    ensures ScoredTable(t, rows, prefs, likes)
  {
    var t0 := BuildScores(rows);
    var t1 := Boost(t0, prefs.liked, LikedWeight, SimilarToLiked);
    var t2 := Boost(t1, prefs.cart, CartWeight, SimilarToCart);
    var t3 := Boost(t2, prefs.purchased, PurchasedWeight, SimilarToPurchased);
    var t4 := AddPopularity(t3, likes);
    FinalTableFacts(rows, prefs, likes, t0, t1, t2, t3, t4);
    t4
  }

  lemma FinalTableFacts(rows: seq<ProductTag>, prefs: Preferences, likes: map<string, int>,
                        t0: Record<Score>, t1: Record<Score>, t2: Record<Score>, t3: Record<Score>, t4: Record<Score>)
    requires forall id :: id in t0.at ==> t0.at[id] == ExpectedMatch(rows, id)
    requires t1.at.Keys == t0.at.Keys && t2.at.Keys == t0.at.Keys && t3.at.Keys == t0.at.Keys && t4.at.Keys == t0.at.Keys
    requires forall k :: k in t0.at ==> t1.at[k] == BoostedEntry(t0.at[k], k, prefs.liked, LikedWeight, SimilarToLiked)
    requires forall k :: k in t0.at ==> t2.at[k] == BoostedEntry(t1.at[k], k, prefs.cart, CartWeight, SimilarToCart)
    requires forall k :: k in t0.at ==>
      t3.at[k] == BoostedEntry(t2.at[k], k, prefs.purchased, PurchasedWeight, SimilarToPurchased)
    requires forall k :: k in t0.at ==> t4.at[k] == AddBonus(t3.at[k], LikesOf(likes, k) as real * PopularityWeight)
    ensures forall id :: id in t4.at ==> t4.at[id] == ExpectedScore(rows, prefs, likes, id)
  {
    forall id | id in t4.at ensures t4.at[id] == ExpectedScore(rows, prefs, likes, id) {
      FinalEntry(rows, prefs, likes, id, t0.at[id], t1.at[id], t2.at[id], t3.at[id], t4.at[id]);
    }
  }

  lemma FinalEntry(rows: seq<ProductTag>, prefs: Preferences, likes: map<string, int>, id: string,
                   e0: Score, e1: Score, e2: Score, e3: Score, e4: Score)
    requires e0 == ExpectedMatch(rows, id)
    requires e1 == BoostedEntry(e0, id, prefs.liked, LikedWeight, SimilarToLiked)
    requires e2 == BoostedEntry(e1, id, prefs.cart, CartWeight, SimilarToCart)
    requires e3 == BoostedEntry(e2, id, prefs.purchased, PurchasedWeight, SimilarToPurchased)
    requires e4 == AddBonus(e3, LikesOf(likes, id) as real * PopularityWeight)
    ensures e4 == ExpectedScore(rows, prefs, likes, id)
  {
    BoostedEntryClosedForm(e0, id, prefs.liked, LikedWeight, SimilarToLiked);
    BoostedEntryClosedForm(e1, id, prefs.cart, CartWeight, SimilarToCart);
    BoostedEntryClosedForm(e2, id, prefs.purchased, PurchasedWeight, SimilarToPurchased);
  }

  // ---------------------------------------------------------------------
  // Sort and truncate

  function ScoreKey(s: Score): real {
    s.score
  }

  function ScoreIds(s: seq<Score>): (r: seq<string>)
    ensures |r| == |s|
    ensures forall i :: 0 <= i < |s| ==> r[i] == s[i].productId
  {
    seq(|s|, i requires 0 <= i < |s| => s[i].productId)
  }

  /** `r` is a ranking of the products of `rows`: as many entries as
      `limit` allows, by non-increasing score, one per product, each equal
      to its closed form, and no product left out scores above one kept. */
  ghost predicate RankedScores(r: seq<Score>, rows: seq<ProductTag>, prefs: Preferences, likes: map<string, int>,
                               limit: nat) {
    && |r| == (if limit < |Dedup(ProductIds(rows))| then limit else |Dedup(ProductIds(rows))|)
    && SortedDesc(r, ScoreKey)
    && (forall i :: 0 <= i < |r| ==> r[i].productId in ProductIds(rows))
    && (forall i :: 0 <= i < |r| ==> r[i] == ExpectedScore(rows, prefs, likes, r[i].productId))
    && NoDup(ScoreIds(r))
    && (forall id :: id in ProductIds(rows) && id !in ScoreIds(r) ==>
          forall i :: 0 <= i < |r| ==> ExpectedScore(rows, prefs, likes, id).score <= r[i].score)
  }

  /** `scoreProductsByTags` on the tag-match rows: nothing without rows;
      otherwise the `limit` best entries of the final table. */
  function ScoreProductsByTags(tagMatches: seq<ProductTag>, prefs: Preferences, likes: map<string, int>,
                               limit: nat): (r: seq<Score>)
    ensures |tagMatches| == 0 ==> r == []
    ensures RankedScores(r, tagMatches, prefs, likes, limit)
  {
    if |tagMatches| == 0 then []
    else
      var t := FinalTable(tagMatches, prefs, likes);
      var r := TopK(t.Values(), ScoreKey, limit);
      ScoreTopK(tagMatches, prefs, likes, limit, t, r);
      r
  }

  lemma ScoreTopK(rows: seq<ProductTag>, prefs: Preferences, likes: map<string, int>, limit: nat,
                  t: Record<Score>, r: seq<Score>)
    requires ScoredTable(t, rows, prefs, likes)
    requires r == TopK(t.Values(), ScoreKey, limit)
    ensures RankedScores(r, rows, prefs, likes, limit)
  {
    ScoreFacts(rows, prefs, likes, t, t.Values(), r);
  }

  lemma ScoreFacts(rows: seq<ProductTag>, prefs: Preferences, likes: map<string, int>,
                   t: Record<Score>, values: seq<Score>, r: seq<Score>)
    requires t.Valid()
    requires forall id :: id in t.at <==> id in ProductIds(rows)
    requires forall id :: id in t.at ==> t.at[id] == ExpectedScore(rows, prefs, likes, id)
    requires |values| == |t.keys| && forall i :: 0 <= i < |t.keys| ==> values[i] == t.at[t.keys[i]]
    requires forall x :: x in r ==> x in values
    requires forall y :: y in values && y !in r ==> forall i :: 0 <= i < |r| ==> ScoreKey(y) <= ScoreKey(r[i])
    requires NoDup(values) ==> NoDup(r)
    ensures forall i :: 0 <= i < |r| ==> r[i].productId in ProductIds(rows)
    ensures forall i :: 0 <= i < |r| ==> r[i] == ExpectedScore(rows, prefs, likes, r[i].productId)
    ensures NoDup(ScoreIds(r))
    ensures forall id :: id in ProductIds(rows) && id !in ScoreIds(r) ==>
      forall i :: 0 <= i < |r| ==> ExpectedScore(rows, prefs, likes, id).score <= r[i].score
  {
    assert forall i :: 0 <= i < |values| ==> values[i] == ExpectedScore(rows, prefs, likes, t.keys[i]);
    assert NoDup(values) by {
      forall i, j | 0 <= i < j < |values| ensures values[i] != values[j] {
        assert values[i].productId == t.keys[i] && values[j].productId == t.keys[j];
      }
    }
    forall i | 0 <= i < |r| ensures r[i].productId in ProductIds(rows) && r[i] == ExpectedScore(rows, prefs, likes, r[i].productId) {
      assert r[i] in values;
    }
    assert NoDup(ScoreIds(r)) by {
      forall i, j | 0 <= i < j < |r| ensures ScoreIds(r)[i] != ScoreIds(r)[j] {
        assert r[i] != r[j];
      }
    }
    forall id | id in ProductIds(rows) && id !in ScoreIds(r)
      ensures forall i :: 0 <= i < |r| ==> ExpectedScore(rows, prefs, likes, id).score <= r[i].score
    {
      var k := FirstIndex(t.keys, id);
      var y := values[k];
      assert y == ExpectedScore(rows, prefs, likes, id);
      assert y !in r by {
        assert forall i :: 0 <= i < |r| ==> ScoreIds(r)[i] != id;
      }
      assert forall i :: 0 <= i < |r| ==> ScoreKey(y) <= ScoreKey(r[i]);
    }
  }
}

=== FILE: flags.dfy ===
/** Expand/collapse flags kept in an object keyed by name, as the tag
    manager and the filter panel keep them. A key that was never set reads
    as `undefined`, which is falsy, so toggling it turns it on. */
module Flags {
  /** `flags[k]` read as a boolean. */
  predicate IsOn<K>(flags: map<K, bool>, k: K) {
    k in flags && flags[k]
  }

  /** `{ ...prev, [k]: !prev[k] }`. */
  function Toggle<K>(flags: map<K, bool>, k: K): (r: map<K, bool>)
    ensures k in r && (IsOn(r, k) <==> !IsOn(flags, k))
    ensures r.Keys == flags.Keys + {k}
    ensures forall j :: j in flags && j != k ==> r[j] == flags[j]
  {
    flags[k := !IsOn(flags, k)]
  }

  /** Toggling a key twice restores the flags, once the key is present. */
  lemma ToggleTwice<K>(flags: map<K, bool>, k: K)
    requires k in flags
    ensures Toggle(Toggle(flags, k), k) == flags
  {
    var r := Toggle(Toggle(flags, k), k);
    assert r.Keys == flags.Keys;
  }

  /** Toggling one key never changes how another key reads. */
  lemma ToggleOthersRead<K>(flags: map<K, bool>, k: K, j: K)
    requires j != k
    ensures IsOn(Toggle(flags, k), j) == IsOn(flags, j)
  {
  }
}

=== FILE: likes.dfy ===
/** The like store of `LikeContext`: the set of product ids the signed-in
    user has liked, and how `toggleLike` changes it. The outcome of the
    delete or insert on `product_likes` is an input; the like-count calls
    that follow it are not modelled, as their results are ignored. */
module Likes {
  import opened Results

  const LoginRequired := "Please login to like products"
  const UpdateFailed := "Failed to update like. Please try again."

  /** The liked set after a toggle and the alert shown, if any. */
  datatype Step = Step(liked: set<string>, alert: Option<string>)

  /** The state `loadUserLikes` leaves: the signed-in user and their liked
      ids. */
  datatype Store = Store(userId: Option<string>, liked: set<string>)

  /** `loadUserLikes`: no user clears the user id; otherwise the user is
      recorded and, when the rows arrived, the liked set becomes the set
      of their product ids. */
  function LoadUserLikes(store: Store, user: Option<string>, rows: Option<seq<string>>): (r: Store)
    ensures r.userId == user
    ensures user.None? || rows.None? ==> r.liked == store.liked
    ensures (user.Some? && rows.Some? ==>
      forall id :: id in r.liked <==> id in rows.value)
  {
    if user.None? then Store(None, store.liked)
    else if rows.None? then Store(user, store.liked)
    else Store(user, set id | id in rows.value)
  }

  /** `isLiked`. */
  predicate IsLiked(liked: set<string>, productId: string) {
    productId in liked
  }

  /** `toggleLike`: without a user, an alert and no change; otherwise a
      liked id is deleted and an unliked one inserted, and the local set
      follows only when the write reports no error. */
  function ToggleLike(liked: set<string>, userId: Option<string>, productId: string, writeFails: bool): (r: Step)
    ensures userId.None? ==> r == Step(liked, Some(LoginRequired))
    ensures userId.Some? && writeFails ==> r == Step(liked, Some(UpdateFailed))
    ensures (userId.Some? && !writeFails ==>
      r.alert.None? && (IsLiked(r.liked, productId) <==> !IsLiked(liked, productId)))
    ensures forall id :: id != productId ==> (IsLiked(r.liked, id) <==> IsLiked(liked, id))
  {
    if userId.None? then Step(liked, Some(LoginRequired))
    else if writeFails then Step(liked, Some(UpdateFailed))
    else if productId in liked then Step(liked - {productId}, None)
    else Step(liked + {productId}, None)
  }

  /** Two successful toggles of the same product restore the set. */
  lemma ToggleTwice(liked: set<string>, user: string, productId: string)
    ensures ToggleLike(ToggleLike(liked, Some(user), productId, false).liked, Some(user), productId, false).liked
      == liked
  {
    var once := ToggleLike(liked, Some(user), productId, false).liked;
    var twice := ToggleLike(once, Some(user), productId, false).liked;
    assert forall id :: id in twice <==> id in liked;
  }

  /** Toggles of different products commute. */
  lemma TogglesCommute(liked: set<string>, user: string, a: string, b: string)
    ensures (ToggleLike(ToggleLike(liked, Some(user), a, false).liked, Some(user), b, false).liked
      == ToggleLike(ToggleLike(liked, Some(user), b, false).liked, Some(user), a, false).liked)
  {
    var ab := ToggleLike(ToggleLike(liked, Some(user), a, false).liked, Some(user), b, false).liked;
    var ba := ToggleLike(ToggleLike(liked, Some(user), b, false).liked, Some(user), a, false).liked;
    assert forall id :: id in ab <==> id in ba;
  }
}

=== FILE: product_create.dfy ===
/** The product creation route: the field validators, the mapping from a
    thrown message to a status, and the handler, which checks the caller
    and their shop before it reads the body.

    A numeric field arrives as a `Numeric`: falsy, or truthy together with
    what `parseFloat` (the price) or `parseInt` (the stock) makes of it,
    `None` standing for NaN. */
module ProductCreate {
  import opened Results
  import opened Seqs
  import opened Strings
  import opened Api

  const TextMaxLength: nat := 500
  const MaxPrice: real := 1000000.0
  const MaxStock: int := 10000
  const MaxImages: nat := 10

  /** The word the outer `catch` looks for. */
  const InvalidWord := "Invalid"
  const InvalidPrice := InvalidWord + " price. Must be between 0 and 1,000,000"
  const InvalidStock := InvalidWord + " stock. Must be between 0 and 10,000"
  const InvalidCategory := InvalidWord + " category"
  const NoImages := "At least one image is required"
  const TooManyImages := "Maximum 10 images allowed"

  /** `sanitizeString` of this route: the shared sanitiser at 500. */
  function SanitizeText(input: string): (r: string)
    ensures |r| <= TextMaxLength && NoAngles(r)
    ensures r == Sanitize(input, TextMaxLength)
  {
    Sanitize(input, TextMaxLength)
  }

  // ---------------------------------------------------------------------
  // Price

  /** `Math.round(x * 100) / 100`: `Math.round` rounds halves up, that is
      to the floor of `v + 0.5`. */
  function RoundCents(x: real): (r: real)
    ensures x - 0.005 < r <= x + 0.005
  {
    ((x * 100.0 + 0.5).Floor as real) / 100.0
  }

  /** A whole number of cents. */
  ghost predicate IsCents(x: real) {
    exists n: int {:trigger n as real} :: x == n as real / 100.0
  }

  /** The result of rounding is a whole number of cents, and a whole
      number of cents rounds to itself. */
  lemma RoundCentsFacts(x: real)
    ensures IsCents(RoundCents(x))
    ensures IsCents(x) ==> RoundCents(x) == x
  {
    var n := (x * 100.0 + 0.5).Floor;
    assert RoundCents(x) == n as real / 100.0;
    if IsCents(x) {
      var m: int :| x == m as real / 100.0;
      assert x * 100.0 + 0.5 == m as real + 0.5;
      assert (m as real + 0.5).Floor == m;
    }
  }

  /** Rounding keeps a value of [0, 1,000,000] inside that range. */
  lemma RoundCentsInRange(x: real)
    requires 0.0 <= x <= MaxPrice
    ensures 0.0 <= RoundCents(x) <= MaxPrice
  {
    var n := (x * 100.0 + 0.5).Floor;
    assert n as real <= x * 100.0 + 0.5 < n as real + 1.0;
    assert 0 <= n <= 100000000;
  }

  /** Exactly the prices of [0, 1,000,000] are accepted (`None` is NaN),
      each rounded to cents. */
  function ValidatePrice(price: Option<real>): (r: Result<real>)
    ensures r.Ok? <==> price.Some? && 0.0 <= price.value <= MaxPrice
    ensures r.Ok? ==> 0.0 <= r.value <= MaxPrice && IsCents(r.value)
    ensures r.Ok? ==> price.value - 0.005 < r.value <= price.value + 0.005
    ensures r.Err? ==> r.message == InvalidPrice
  {
    if price.None? || price.value < 0.0 || price.value > MaxPrice then Err(InvalidPrice)
    else
      RoundCentsFacts(price.value);
      RoundCentsInRange(price.value);
      Ok(RoundCents(price.value))
  }

  /** An accepted price is accepted unchanged a second time. */
  lemma PriceIdempotent(price: Option<real>)
    requires ValidatePrice(price).Ok?
    ensures ValidatePrice(Some(ValidatePrice(price).value)) == ValidatePrice(price)
  {
    RoundCentsFacts(ValidatePrice(price).value);
  }

  // ---------------------------------------------------------------------
  // Stock, category, images

  /** Exactly the integers 0 to 10,000 are accepted, unchanged. */
  function ValidateStock(stock: Option<int>): (r: Result<int>)
    ensures r.Ok? <==> stock.Some? && 0 <= stock.value <= MaxStock
    ensures r.Ok? ==> r.value == stock.value
    ensures r.Err? ==> r.message == InvalidStock
  {
    if stock.None? || stock.value < 0 || stock.value > MaxStock then Err(InvalidStock)
    else Ok(stock.value)
  }

  /** A numeric body field: falsy (missing, `null`, `false`, `0` or `""`),
      or truthy with its parsed value, `None` when it parses as NaN (a text
      such as `"abc"`). A truthy text may parse to 0 (`"0"`). */
  datatype Numeric<T> = Falsy | Truthy(parsed: Option<T>)

  /** `parseInt(body.stock || 1)`: a falsy stock becomes 1; a truthy one is
      parsed as it is, NaN included. */
  function StockOrOne(stock: Numeric<int>): (r: Option<int>)
    ensures stock.Falsy? ==> r == Some(1)
    ensures stock.Truthy? ==> r == stock.parsed
  {
    match stock
    case Falsy => Some(1)
    case Truthy(parsed) => parsed
  }

  /** A falsy stock is stored as 1; a truthy stock is accepted exactly when
      it parses to 0 to 10,000, so a text that is not a number is refused
      and the text "0" is kept as 0. */
  lemma StockOrOneValidated(stock: Numeric<int>)
    ensures stock.Falsy? ==> ValidateStock(StockOrOne(stock)) == Ok(1)
    ensures stock == Truthy(None) ==> ValidateStock(StockOrOne(stock)) == Err(InvalidStock)
    ensures stock == Truthy(Some(0)) ==> ValidateStock(StockOrOne(stock)) == Ok(0)
    ensures (stock.Truthy? ==>
      (ValidateStock(StockOrOne(stock)).Ok? <==> stock.parsed.Some? && 0 <= stock.parsed.value <= MaxStock))
  {
  }

  const Categories: seq<string> := ["Tops", "Bottoms", "Outerwear", "Dresses", "Accessories"]

  /** Exactly the five categories are accepted, unchanged. */
  function ValidateCategory(category: string): (r: Result<string>)
    ensures r.Ok? <==> category in Categories
    ensures r.Ok? ==> r.value == category
    ensures r.Err? ==> r.message == InvalidCategory
  {
    if category !in Categories then Err(InvalidCategory) else Ok(category)
  }

  /** The `images` field: something other than an array, or an array whose
      entries are strings (`Some`) or other values (`None`). */
  datatype Images = NotArray | Items(items: seq<Option<string>>)

  predicate IsImageUrl(v: Option<string>) {
    v.Some? && |v.value| > 0
  }

  /** The non-empty string entries, in order. */
  function ImageUrls(items: seq<Option<string>>): (r: seq<string>)
    ensures |r| == |Filter(items, IsImageUrl)|
    ensures forall i :: 0 <= i < |r| ==> Some(r[i]) == Filter(items, IsImageUrl)[i] && |r[i]| > 0
    ensures forall u :: u in r <==> Some(u) in items && |u| > 0
  {
    var kept := Filter(items, IsImageUrl);
    assert forall i :: 0 <= i < |kept| ==> kept[i] in kept;
    var r := seq(|kept|, i requires 0 <= i < |kept| => kept[i].value);
    assert forall u :: Some(u) in kept ==> u in r by {
      forall u | Some(u) in kept ensures u in r {
        var i :| 0 <= i < |kept| && kept[i] == Some(u);
        assert r[i] == u;
      }
    }
    r
  }

  /** A non-empty array of at most 10 entries yields its non-empty string
      entries in their order (the final `slice(0, 10)` cuts nothing). */
  function ValidateImages(images: Images): (r: Result<seq<string>>)
    ensures r.Ok? <==> images.Items? && 0 < |images.items| <= MaxImages
    ensures r.Ok? ==> r.value == ImageUrls(images.items) && |r.value| <= MaxImages
    ensures r.Ok? ==> IsSubseq(Filter(images.items, IsImageUrl), images.items)
    ensures r.Err? && images.Items? && |images.items| > MaxImages ==> r.message == TooManyImages
    ensures r.Err? && (images.NotArray? || |images.items| == 0) ==> r.message == NoImages
  {
    if images.NotArray? || |images.items| == 0 then Err(NoImages)
    else if |images.items| > MaxImages then Err(TooManyImages)
    else
      FilterSubseq(images.items, IsImageUrl);
      Ok(Take(ImageUrls(images.items), MaxImages))
  }

  // ---------------------------------------------------------------------
  // Thrown errors

  const Unexpected := "An unexpected error occurred. Please try again."

  /** The outer `catch`: a message containing "Invalid" is sent back with
      400, any other message is replaced by a generic 500. */
  function StatusForError(message: string): (r: Response)
    ensures Contains(message, InvalidWord) ==> r == Response(400, message)
    ensures !Contains(message, InvalidWord) ==> r == Response(500, Unexpected)
  {
    if Contains(message, InvalidWord) then Response(400, message) else Response(500, Unexpected)
  }

  lemma StartsWithConcat(a: string, b: string)
    ensures StartsWith(a + b, a)
  {
    assert (a + b)[..|a|] == a;
  }

  lemma ContainsPrefix(s: string, prefix: string)
    requires StartsWith(s, prefix)
    ensures Contains(s, prefix)
  {
  }

  /** The price, stock and category errors mention "Invalid", so they are
      reported with 400 and their own message. */
  lemma InvalidMessagesAre400()
    ensures StatusForError(InvalidPrice) == Response(400, InvalidPrice)
    ensures StatusForError(InvalidStock) == Response(400, InvalidStock)
    ensures StatusForError(InvalidCategory) == Response(400, InvalidCategory)
  {
    InvalidPrefixed(" price. Must be between 0 and 1,000,000");
    InvalidPrefixed(" stock. Must be between 0 and 10,000");
    InvalidPrefixed(" category");
  }

  lemma InvalidPrefixed(rest: string)
    ensures Contains(InvalidWord + rest, InvalidWord)
  {
    StartsWithConcat(InvalidWord, rest);
    ContainsPrefix(InvalidWord + rest, InvalidWord);
  }

  /** The two image errors contain no capital I, so they do not mention
      "Invalid" and are reported with the generic 500. */
  lemma ImageMessagesAre500()
    ensures !Contains(NoImages, InvalidWord) && !Contains(TooManyImages, InvalidWord)
  {
    assert 'I' in InvalidWord;
    assert 'I' !in NoImages;
    assert 'I' !in TooManyImages;
    NotContainsByChar(NoImages, InvalidWord, 'I');
    NotContainsByChar(TooManyImages, InvalidWord, 'I');
  }

  // ---------------------------------------------------------------------
  // The request

  /** The JSON body's fields; `None` is a missing or null text field. */
  datatype ProductBody = ProductBody(
    name: Option<string>, description: Option<string>, price: Numeric<real>, category: Option<string>,
    size: Option<string>, condition: Option<string>, material: Option<string>,
    images: Option<Images>, stock: Numeric<int>)

  /** The `Authorization` header, if any, and the body, or the message of
      the parse error when the body is not JSON. */
  datatype Request = Request(authorization: Option<string>, body: Result<ProductBody>)

  /** The row the handler inserts. */
  datatype NewProduct = NewProduct(
    shopId: string, name: string, description: Option<string>, price: real, category: string,
    size: Option<string>, condition: Option<string>, material: Option<string>,
    images: seq<string>, stock: int)

  datatype Outcome = Outcome(response: Response, inserted: Option<NewProduct>)

  const NotSeller := "You must be a seller to create products."
  const NoShop := "Shop not found. Please create a shop first."
  const MissingFields := "Missing required fields: name, price, category, images"
  const InsertFailed := "Failed to create product. Please try again."
  const Created := "Product created successfully!"

  /** `!body.name || !body.price || !body.category || !body.images`. */
  predicate HasRequired(body: ProductBody) {
    Present(body.name) && body.price.Truthy? && Present(body.category) && body.images.Some?
  }

  /** A truthy optional text is sanitised; a falsy one becomes null. */
  function OptionalText(v: Option<string>): (r: Option<string>)
    ensures r.Some? <==> Present(v)
    ensures r.Some? ==> |r.value| <= TextMaxLength && NoAngles(r.value) && r.value == SanitizeText(v.value)
  {
    if Present(v) then Some(SanitizeText(v.value)) else None
  }

  /** The object literal of step 4, built field by field: the first
      validator that throws decides the error. */
  function ValidateProduct(shopId: string, body: ProductBody): (r: Result<NewProduct>)
    requires HasRequired(body)
    ensures r.Ok? <==> (ValidatePrice(body.price.parsed).Ok? && ValidateCategory(body.category.value).Ok?
      && ValidateImages(body.images.value).Ok? && ValidateStock(StockOrOne(body.stock)).Ok?)
    ensures r.Ok? ==> ProductValid(r.value) && r.value.shopId == shopId
    ensures r.Ok? ==> r.value.name == SanitizeText(body.name.value) && r.value.images == ImageUrls(body.images.value.items)
    ensures r.Ok? ==> r.value.stock == StockOrOne(body.stock).value
    ensures (r.Ok? ==>
      r.value.price == ValidatePrice(body.price.parsed).value && r.value.category == body.category.value)
    ensures (r.Ok? ==>
      r.value.description == OptionalText(body.description) && r.value.size == OptionalText(body.size)
      && r.value.condition == OptionalText(body.condition) && r.value.material == OptionalText(body.material))
    ensures ValidatePrice(body.price.parsed).Err? ==> r == Err(InvalidPrice)
    ensures ValidatePrice(body.price.parsed).Ok? && ValidateCategory(body.category.value).Err? ==> r == Err(InvalidCategory)
    ensures r.Err? ==> r.message in {InvalidPrice, InvalidCategory, NoImages, TooManyImages, InvalidStock}
  {
    match ValidatePrice(body.price.parsed)
    case Err(m) => Err(m)
    case Ok(_) =>
      match ValidateCategory(body.category.value)
      case Err(m) => Err(m)
      case Ok(_) =>
        match ValidateImages(body.images.value)
        case Err(m) => Err(m)
        case Ok(_) =>
          match ValidateStock(StockOrOne(body.stock))
          case Err(m) => Err(m)
          case Ok(_) => Ok(BuiltRow(shopId, body))
  }

  /** The row once every validator has passed: each column from its
      validator or sanitiser. */
  function BuiltRow(shopId: string, body: ProductBody): (p: NewProduct)
    requires HasRequired(body)
    requires ValidatePrice(body.price.parsed).Ok? && ValidateCategory(body.category.value).Ok?
    requires ValidateImages(body.images.value).Ok? && ValidateStock(StockOrOne(body.stock)).Ok?
    ensures ProductValid(p) && p.shopId == shopId
  {
    NewProduct(shopId, SanitizeText(body.name.value), OptionalText(body.description),
      ValidatePrice(body.price.parsed).value, ValidateCategory(body.category.value).value,
      OptionalText(body.size), OptionalText(body.condition), OptionalText(body.material),
      ValidateImages(body.images.value).value, ValidateStock(StockOrOne(body.stock)).value)
  }

  /** What every inserted row satisfies. */
  ghost predicate ProductValid(p: NewProduct) {
    && |p.name| <= TextMaxLength && NoAngles(p.name)
    && (p.description.Some? ==> |p.description.value| <= TextMaxLength && NoAngles(p.description.value))
    && 0.0 <= p.price <= MaxPrice && IsCents(p.price)
    && p.category in Categories
    && |p.images| <= MaxImages && (forall i :: 0 <= i < |p.images| ==> |p.images[i]| > 0)
    && 0 <= p.stock <= MaxStock
  }

  /** The caller's profile is found and marked as a seller's. */
  ghost predicate IsSeller(uid: string, db: Db) {
    SingleRow(Filter(db.profiles, HasId(uid))) && Filter(db.profiles, HasId(uid))[0].isSeller
  }

  /** Steps 2 and 3: the caller must be a seller (403) and have exactly one
      shop (404); that shop's id is the result. */
  function CheckSeller(uid: string, db: Db): (r: Gate<string>)
    ensures r.Pass? <==> IsSeller(uid, db) && SingleRow(Filter(db.shops, OwnedBy(uid)))
    ensures r.Pass? ==> exists s :: s in db.shops && s.ownerId == uid && s.id == r.value
    ensures r.Pass? ==> forall s :: s in db.shops && s.ownerId == uid ==> s.id == r.value
    ensures !IsSeller(uid, db) ==> r == Refuse(Response(403, NotSeller))
    ensures IsSeller(uid, db) && r.Refuse? ==> r == Refuse(Response(404, NoShop))
  {
    var profile := Filter(db.profiles, HasId(uid));
    if !(SingleRow(profile) && profile[0].isSeller) then Refuse(Response(403, NotSeller))
    else
      var shop := Filter(db.shops, OwnedBy(uid));
      if !SingleRow(shop) then Refuse(Response(404, NoShop))
      else
        assert shop == [shop[0]];
        assert shop[0] in shop;
        Pass(shop[0].id)
  }

  /** `POST /api/products/create`; `insertFails` is the database's answer
      to the insert. */
  function CreateProduct(req: Request, sessions: map<string, string>, db: Db, insertFails: bool): (r: Outcome)
    ensures r.response.status in {201, 400, 401, 403, 404, 500}
    ensures r.inserted.Some? <==> r.response.status == 201
    ensures r.response.status == 401 <==> UserOf(req.authorization, sessions).None?
    ensures r.inserted.Some? ==> ProductValid(r.inserted.value)
    ensures r.inserted.Some? ==> (var uid := UserOf(req.authorization, sessions).value;
      IsSeller(uid, db) && exists s :: s in db.shops && s.ownerId == uid && s.id == r.inserted.value.shopId)
    ensures r.inserted.Some? ==> req.body.Ok? && HasRequired(req.body.value)
    ensures (r.response.status == 201 <==> var uid := UserOf(req.authorization, sessions);
      && uid.Some? && CheckSeller(uid.value, db).Pass? && req.body.Ok? && HasRequired(req.body.value)
      && ValidateProduct(CheckSeller(uid.value, db).value, req.body.value).Ok? && !insertFails)
    ensures (r.inserted.Some? ==>
      r.response == Response(201, Created)
      && r.inserted.value == ValidateProduct(CheckSeller(UserOf(req.authorization, sessions).value, db).value, req.body.value).value)
    ensures (var uid := UserOf(req.authorization, sessions);
      uid.Some? && CheckSeller(uid.value, db).Pass? && req.body.Err?)
      ==> r == Outcome(StatusForError(req.body.message), None)
    ensures (var uid := UserOf(req.authorization, sessions);
      uid.Some? && CheckSeller(uid.value, db).Pass? && req.body.Ok? && !HasRequired(req.body.value))
      ==> r == Outcome(Response(400, MissingFields), None)
    ensures (var uid := UserOf(req.authorization, sessions);
      && uid.Some? && CheckSeller(uid.value, db).Pass? && req.body.Ok? && HasRequired(req.body.value)
      && ValidateProduct(CheckSeller(uid.value, db).value, req.body.value).Ok? && insertFails)
      ==> r == Outcome(Response(500, InsertFailed), None)
  {
    match Authenticate(req.authorization, sessions)
    case Refuse(response) => Outcome(response, None)
    case Pass(uid) =>
      match CheckSeller(uid, db)
      case Refuse(response) => Outcome(response, None)
      case Pass(shopId) =>
        if req.body.Err? then Outcome(StatusForError(req.body.message), None)
        else if !HasRequired(req.body.value) then Outcome(Response(400, MissingFields), None)
        else
          match ValidateProduct(shopId, req.body.value)
          case Err(m) => Outcome(StatusForError(m), None)
          case Ok(product) =>
            if insertFails then Outcome(Response(500, InsertFailed), None)
            else Outcome(Response(201, Created), Some(product))
  }

  // ---------------------------------------------------------------------
  // Properties of the handler

  /** The caller is signed in, a seller, and owns exactly one shop. */
  ghost predicate AccountOk(req: Request, sessions: map<string, string>, db: Db) {
    var uid := UserOf(req.authorization, sessions);
    uid.Some? && IsSeller(uid.value, db) && SingleRow(Filter(db.shops, OwnedBy(uid.value)))
  }

  /** The account checks come first, 401 then 403 then 404, and before the
      body is read: a refused caller gets the same answer whatever the
      body holds. */
  lemma AccountChecksFirst(req: Request, sessions: map<string, string>, db: Db, insertFails: bool,
                           other: Result<ProductBody>, insertFails2: bool)
    requires !AccountOk(req, sessions, db)
    ensures CreateProduct(req, sessions, db, insertFails)
      == CreateProduct(Request(req.authorization, other), sessions, db, insertFails2)
    ensures var uid := UserOf(req.authorization, sessions);
      uid.Some? && !IsSeller(uid.value, db) ==>
      CreateProduct(req, sessions, db, insertFails) == Outcome(Response(403, NotSeller), None)
    ensures var uid := UserOf(req.authorization, sessions);
      uid.Some? && IsSeller(uid.value, db) ==>
      CreateProduct(req, sessions, db, insertFails) == Outcome(Response(404, NoShop), None)
  {
  }

  /** A falsy price (missing, null or the number 0) is reported as a
      missing field before any validation. */
  lemma FalsyPriceIsMissing(req: Request, sessions: map<string, string>, db: Db, insertFails: bool)
    requires AccountOk(req, sessions, db) && req.body.Ok? && req.body.value.price.Falsy?
    ensures CreateProduct(req, sessions, db, insertFails) == Outcome(Response(400, MissingFields), None)
  {
  }

  /** A truthy price text that is not a number gets past the required-field
      check and is refused by `validatePrice` with its 400. */
  lemma NonNumericPriceIs400(req: Request, sessions: map<string, string>, db: Db, insertFails: bool)
    requires AccountOk(req, sessions, db) && req.body.Ok? && req.body.value.price == Truthy(None)
    requires Present(req.body.value.name) && Present(req.body.value.category) && req.body.value.images.Some?
    ensures CreateProduct(req, sessions, db, insertFails) == Outcome(Response(400, InvalidPrice), None)
  {
    InvalidPriceIs400(req, sessions, db, insertFails);
  }

  /** With the required fields present, an invalid price is a 400 with
      its message. */
  lemma InvalidPriceIs400(req: Request, sessions: map<string, string>, db: Db, insertFails: bool)
    requires AccountOk(req, sessions, db) && req.body.Ok? && HasRequired(req.body.value)
    requires ValidatePrice(req.body.value.price.parsed).Err?
    ensures CreateProduct(req, sessions, db, insertFails) == Outcome(Response(400, InvalidPrice), None)
  {
    InvalidMessagesAre400();
  }

  /** A valid price with an unknown category is a 400 with its message. */
  lemma InvalidCategoryIs400(req: Request, sessions: map<string, string>, db: Db, insertFails: bool)
    requires AccountOk(req, sessions, db) && req.body.Ok? && HasRequired(req.body.value)
    requires ValidatePrice(req.body.value.price.parsed).Ok? && ValidateCategory(req.body.value.category.value).Err?
    ensures CreateProduct(req, sessions, db, insertFails) == Outcome(Response(400, InvalidCategory), None)
  {
    InvalidMessagesAre400();
  }

  /** A bad image list after a valid price and category is a generic 500:
      neither image message mentions "Invalid". */
  lemma ImageErrorIs500(req: Request, sessions: map<string, string>, db: Db, insertFails: bool)
    requires AccountOk(req, sessions, db) && req.body.Ok? && HasRequired(req.body.value)
    requires ValidatePrice(req.body.value.price.parsed).Ok? && ValidateCategory(req.body.value.category.value).Ok?
    requires ValidateImages(req.body.value.images.value).Err?
    ensures CreateProduct(req, sessions, db, insertFails) == Outcome(Response(500, Unexpected), None)
  {
    ImageErrorOutcome(req, sessions, db, insertFails);
    ImageStatus(req.body.value.images.value);
  }

  /** Both image messages map to the 500 answer. */
  lemma ImageStatus(images: Images)
    requires ValidateImages(images).Err?
    ensures StatusForError(ValidateImages(images).message) == Response(500, Unexpected)
  {
    ImageMessagesAre500();
  }

  /** An image error is answered with the status its message maps to. */
  lemma ImageErrorOutcome(req: Request, sessions: map<string, string>, db: Db, insertFails: bool)
    requires AccountOk(req, sessions, db) && req.body.Ok? && HasRequired(req.body.value)
    requires ValidatePrice(req.body.value.price.parsed).Ok? && ValidateCategory(req.body.value.category.value).Ok?
    requires ValidateImages(req.body.value.images.value).Err?
    ensures (CreateProduct(req, sessions, db, insertFails)
      == Outcome(StatusForError(ValidateImages(req.body.value.images.value).message), None))
  {
  }

  /** An out-of-range or non-numeric stock, checked last, is a 400 with
      its message. */
  lemma InvalidStockIs400(req: Request, sessions: map<string, string>, db: Db, insertFails: bool)
    requires AccountOk(req, sessions, db) && req.body.Ok? && HasRequired(req.body.value)
    requires ValidatePrice(req.body.value.price.parsed).Ok? && ValidateCategory(req.body.value.category.value).Ok?
    requires ValidateImages(req.body.value.images.value).Ok?
    requires ValidateStock(StockOrOne(req.body.value.stock)).Err?
    ensures CreateProduct(req, sessions, db, insertFails) == Outcome(Response(400, InvalidStock), None)
  {
    InvalidMessagesAre400();
  }

  /** With everything else valid, a truthy stock text that is not a number
      is refused with the stock's 400 and nothing is inserted. */
  lemma NonNumericStockIs400(req: Request, sessions: map<string, string>, db: Db, insertFails: bool)
    requires AccountOk(req, sessions, db) && req.body.Ok? && HasRequired(req.body.value)
    requires ValidatePrice(req.body.value.price.parsed).Ok? && ValidateCategory(req.body.value.category.value).Ok?
    requires ValidateImages(req.body.value.images.value).Ok?
    requires req.body.value.stock == Truthy(None)
    ensures CreateProduct(req, sessions, db, insertFails) == Outcome(Response(400, InvalidStock), None)
  {
    StockOrOneValidated(req.body.value.stock);
    InvalidStockIs400(req, sessions, db, insertFails);
  }

  /** With everything else valid and the insert succeeding, the stock text
      "0" is truthy, so the row is created with stock 0, not 1. */
  lemma ZeroStockTextKept(req: Request, sessions: map<string, string>, db: Db)
    requires AccountOk(req, sessions, db) && req.body.Ok? && HasRequired(req.body.value)
    requires ValidatePrice(req.body.value.price.parsed).Ok? && ValidateCategory(req.body.value.category.value).Ok?
    requires ValidateImages(req.body.value.images.value).Ok?
    requires req.body.value.stock == Truthy(Some(0))
    ensures CreateProduct(req, sessions, db, false).response.status == 201
    ensures CreateProduct(req, sessions, db, false).inserted.value.stock == 0
  {
    StockOrOneValidated(req.body.value.stock);
  }
}

=== FILE: product_filters.dfy ===
/** The filter panel: the filter state, the handlers that change one part
    of it and report the new state to the parent, and the section flags. */
module ProductFilters {
  import Flags

  datatype SortBy = Newest | PriceLow | PriceHigh | Popular

  /** `FilterOptions`: the price range `[minPrice, maxPrice]`, the category
      (empty for all) and the sort order. */
  datatype Filters = Filters(minPrice: real, maxPrice: real, category: string, sortBy: SortBy)

  datatype Bound = Min | Max

  /** A handler's effect: the state it stores and the value it passes to
      `onFiltersChange`. */
  datatype Update = Update(state: Filters, emitted: Filters)

  /** The state the panel starts in and returns to on reset. */
  const Initial := Filters(0.0, 10000.0, "", Newest)

  function Emit(f: Filters): (u: Update)
    ensures u.state == f && u.emitted == f
  {
    Update(f, f)
  }

  /** `handlePriceChange`: replaces the chosen bound only. */
  function PriceChange(f: Filters, value: real, bound: Bound): (u: Update)
    ensures u.emitted == u.state
    ensures u.state.category == f.category && u.state.sortBy == f.sortBy
    ensures bound == Min ==> u.state.minPrice == value && u.state.maxPrice == f.maxPrice
    ensures bound == Max ==> u.state.maxPrice == value && u.state.minPrice == f.minPrice
  {
    match bound
    case Min => Emit(f.(minPrice := value))
    case Max => Emit(f.(maxPrice := value))
  }

  /** `handleCategoryChange`: choosing the current category clears it,
      choosing another selects it. */
  function CategoryChange(f: Filters, category: string): (u: Update)
    ensures u.emitted == u.state
    ensures u.state.minPrice == f.minPrice && u.state.maxPrice == f.maxPrice && u.state.sortBy == f.sortBy
    ensures f.category == category ==> u.state.category == ""
    ensures f.category != category ==> u.state.category == category
  {
    Emit(f.(category := if f.category == category then "" else category))
  }

  /** `handleSortChange`: changes the sort order only. */
  function SortChange(f: Filters, sortBy: SortBy): (u: Update)
    ensures u.emitted == u.state
    ensures u.state == Filters(f.minPrice, f.maxPrice, f.category, sortBy)
  {
    Emit(f.(sortBy := sortBy))
  }

  /** `resetFilters`: back to the initial state, whatever came before. */
  function Reset(f: Filters): (u: Update)
    ensures u.emitted == u.state
    ensures u.state.minPrice == 0.0 && u.state.maxPrice == 10000.0
    ensures u.state.category == "" && u.state.sortBy == Newest
  {
    Emit(Initial)
  }

  /** Choosing the same category twice restores the state when it started
      with no category or with that one. */
  lemma CategoryTwice(f: Filters, category: string)
    requires f.category == "" || f.category == category
    ensures CategoryChange(CategoryChange(f, category).state, category).state == f
  {
  }

  /** Choosing a category from a state with another one selects it, and
      choosing it again clears the filter rather than restoring the old
      one. */
  lemma CategorySwitchForgets(f: Filters, category: string)
    requires f.category != category && f.category != "" && category != ""
    ensures CategoryChange(CategoryChange(f, category).state, category).state == f.(category := "")
  {
  }

  /** Setting a bound to the value it has changes nothing. */
  lemma PriceChangeSameValue(f: Filters)
    ensures PriceChange(f, f.minPrice, Min).state == f
    ensures PriceChange(f, f.maxPrice, Max).state == f
  {
  }

  /** Resetting after any sequence of changes gives the starting state. */
  lemma ResetAfterChanges(f: Filters, value: real, bound: Bound, category: string, sortBy: SortBy)
    ensures Reset(SortChange(CategoryChange(PriceChange(f, value, bound).state, category).state, sortBy).state).state
      == Initial
  {
  }

  /** The section flags the panel starts with: all three open. */
  const InitialSections: map<string, bool> := map["price" := true, "category" := true, "sort" := true]

  /** `toggleSection`: flips the named section's flag and no other; an
      unknown section name starts out closed and so opens. */
  function ToggleSection(sections: map<string, bool>, section: string): (r: map<string, bool>)
    ensures Flags.IsOn(r, section) <==> !Flags.IsOn(sections, section)
    ensures forall s :: s != section ==> Flags.IsOn(r, s) == Flags.IsOn(sections, s)
  {
    var r := Flags.Toggle(sections, section);
    forall s | s != section ensures Flags.IsOn(r, s) == Flags.IsOn(sections, s) {
      Flags.ToggleOthersRead(sections, section, s);
    }
    r
  }

  /** Toggling a section twice restores the flags. */
  lemma ToggleSectionTwice(sections: map<string, bool>, section: string)
    requires section in sections
    ensures ToggleSection(ToggleSection(sections, section), section) == sections
  {
    Flags.ToggleTwice(sections, section);
  }
}

=== FILE: recommend.dfy ===
/** The control flow of `getPersonalizedFeedRecommendations` and
    `getSimilarProducts` in `src/lib/personalized-feed.ts`, on top of the
    scorer of module `Feed`.

    The database reads are parameters: the `product_tags` table, the
    `likes_count` map and the `products` table (`None` when its query
    returned no data). The trending fallback and the "any other products"
    query of `getSimilarProducts` are reported as outcomes rather than
    rows, since their rows come from a query ordered by the database. */
module Recommend {
  import opened Results
  import opened Seqs
  import opened Tags
  import opened Feed

  /** A `products` row; `details` stands for the columns the orchestrator
      carries through without reading them. */
  datatype Product = Product(id: string, details: string)

  /** A product with its `_recommendationScore` (`find` returns `None`
      when no score carries its id). */
  datatype FeedItem = FeedItem(product: Product, recommendation: Option<Score>)

  datatype FeedResult =
    | Trending                          // `getTrendingFallback(limit)`
    | Recommended(items: seq<FeedItem>)

  /** `[...liked, ...cart, ...purchased]`. */
  function Interaction(prefs: Preferences): (r: seq<string>)
    ensures forall x :: x in r <==> x in prefs.liked || x in prefs.cart || x in prefs.purchased
  {
    prefs.liked + prefs.cart + prefs.purchased
  }

  /** All three preference lists are empty. */
  predicate NoHistory(prefs: Preferences) {
    |prefs.liked| == 0 && |prefs.cart| == 0 && |prefs.purchased| == 0
  }

  /** The rows the scorer reads: every `product_tags` row whose tag is a
      tag of some interaction product. */
  function TagMatches(table: seq<ProductTag>, prefs: Preferences): (r: seq<ProductTag>)
    ensures forall row :: row in r <==> (row in table && exists x :: (x in table
      && x.productId in Interaction(prefs) && x.tag == row.tag))
    ensures IsSubseq(r, table)
  {
    RowsWithTags(table, TagsFromProductList(table, Interaction(prefs)))
  }

  function ScoreId(s: Score): string {
    s.productId
  }

  /** The scorer is asked for three times as many candidates as the page
      shows. */
  function Scored(table: seq<ProductTag>, prefs: Preferences, likes: map<string, int>, limit: nat): seq<Score> {
    ScoreProductsByTags(TagMatches(table, prefs), prefs, likes, limit * 3)
  }

  /** The self-exclusion test `!interactionProductIds.includes(productId)`. */
  function Exclusion(prefs: Preferences): Score -> bool {
    (s: Score) => s.productId !in Interaction(prefs)
  }

  /** `filteredScores`: the scored candidates that are not interaction
      products, in the scorer's order. */
  function Survivors(table: seq<ProductTag>, prefs: Preferences, likes: map<string, int>, limit: nat): seq<Score> {
    Filter(Scored(table, prefs, likes, limit), Exclusion(prefs))
  }

  /** `topRecommendations`: the first `limit` scored candidates that are
      not interaction products. */
  function Candidates(table: seq<ProductTag>, prefs: Preferences, likes: map<string, int>, limit: nat): (r: seq<Score>)
    ensures |r| <= limit
    ensures |r| == if |Survivors(table, prefs, likes, limit)| < limit then |Survivors(table, prefs, likes, limit)| else limit
    ensures r == Survivors(table, prefs, likes, limit)[..|r|]
    ensures forall i :: 0 <= i < |r| ==> r[i].productId !in Interaction(prefs)
    ensures forall i :: 0 <= i < |r| ==> r[i] in Scored(table, prefs, likes, limit)
    ensures forall i :: 0 <= i < |r| ==> r[i].productId in ProductIds(TagMatches(table, prefs))
    ensures forall i :: 0 <= i < |r| ==> r[i] == ExpectedScore(TagMatches(table, prefs), prefs, likes, r[i].productId)
    ensures SortedDesc(r, ScoreKey)
    ensures NoDup(ScoreIds(r))
  {
    var r := Take(Survivors(table, prefs, likes, limit), limit);
    TopSurvivorFacts(table, prefs, likes, limit, r);
    r
  }

  lemma TopSurvivorFacts(table: seq<ProductTag>, prefs: Preferences, likes: map<string, int>, limit: nat, r: seq<Score>)
    requires r == Take(Survivors(table, prefs, likes, limit), limit)
    ensures |r| <= limit
    ensures |r| == if |Survivors(table, prefs, likes, limit)| < limit then |Survivors(table, prefs, likes, limit)| else limit
    ensures r == Survivors(table, prefs, likes, limit)[..|r|]
    ensures forall i :: 0 <= i < |r| ==> r[i].productId !in Interaction(prefs)
    ensures forall i :: 0 <= i < |r| ==> r[i] in Scored(table, prefs, likes, limit)
    ensures forall i :: 0 <= i < |r| ==> r[i].productId in ProductIds(TagMatches(table, prefs))
    ensures forall i :: 0 <= i < |r| ==> r[i] == ExpectedScore(TagMatches(table, prefs), prefs, likes, r[i].productId)
    ensures SortedDesc(r, ScoreKey)
    ensures NoDup(ScoreIds(r))
  {
    var scores := Scored(table, prefs, likes, limit);
    var kept := Filter(scores, Exclusion(prefs));
    CandidateFacts(scores, kept, r, Exclusion(prefs));
    CandidateScores(TagMatches(table, prefs), prefs, likes, scores, r);
  }

  lemma CandidateFacts(scores: seq<Score>, kept: seq<Score>, r: seq<Score>, p: Score -> bool)
    requires SortedDesc(scores, ScoreKey) && NoDup(ScoreIds(scores))
    requires kept == Filter(scores, p)
    requires |r| <= |kept| && r == kept[..|r|]
    ensures SortedDesc(r, ScoreKey)
    ensures NoDup(ScoreIds(r))
    ensures forall i :: 0 <= i < |r| ==> r[i] in kept
  {
    FilterSorted(scores, p, ScoreKey);
    assert KeysDistinct(scores, ScoreId) by {
      assert forall i :: 0 <= i < |scores| ==> ScoreIds(scores)[i] == ScoreId(scores[i]);
    }
    FilterKeysDistinct(scores, p, ScoreId);
    assert forall i :: 0 <= i < |r| ==> r[i] == kept[i];
    assert forall i :: 0 <= i < |r| ==> ScoreIds(r)[i] == ScoreId(kept[i]);
  }

  lemma CandidateScores(rows: seq<ProductTag>, prefs: Preferences, likes: map<string, int>,
                        scores: seq<Score>, r: seq<Score>)
    requires forall i :: 0 <= i < |scores| ==> scores[i].productId in ProductIds(rows)
    requires forall i :: 0 <= i < |scores| ==> scores[i] == ExpectedScore(rows, prefs, likes, scores[i].productId)
    requires forall i :: 0 <= i < |r| ==> r[i] in scores
    ensures forall i :: 0 <= i < |r| ==> r[i].productId in ProductIds(rows)
    ensures forall i :: 0 <= i < |r| ==> r[i] == ExpectedScore(rows, prefs, likes, r[i].productId)
  {
  }

  /** The ids whose display records are requested. */
  function RequestedIds(table: seq<ProductTag>, prefs: Preferences, likes: map<string, int>, limit: nat): (r: seq<string>)
    ensures |r| <= limit && NoDup(r)
    ensures forall x :: x in r ==> x !in Interaction(prefs)
  {
    ScoreIds(Candidates(table, prefs, likes, limit))
  }

  /** `topRecommendations.find(r => r.productId === id)`: the first score
      carrying `id`, the only one when ids are distinct. */
  function FindScore(top: seq<Score>, id: string): (r: Option<Score>)
    ensures r.Some? <==> id in ScoreIds(top)
    ensures r.Some? ==> r.value in top && r.value.productId == id
    ensures NoDup(ScoreIds(top)) ==> forall j :: 0 <= j < |top| && top[j].productId == id ==> r == Some(top[j])
  {
    var ids := ScoreIds(top);
    if id in ids then
      var k := FirstIndex(ids, id);
      assert forall j :: 0 <= j < |top| && top[j].productId == id && NoDup(ids) ==> j == k;
      Some(top[k])
    else None
  }

  /** The products whose id was requested, in table order (`.in('id', ids)`). */
  function Fetch(products: seq<Product>, ids: seq<string>): (r: seq<Product>)
    ensures forall p :: p in r <==> p in products && p.id in ids
    ensures IsSubseq(r, products)
  {
    FilterSubseq(products, (p: Product) => p.id in ids);
    Filter(products, (p: Product) => p.id in ids)
  }

  /** Each fetched product paired with its score. */
  function Attach(products: seq<Product>, top: seq<Score>): (r: seq<FeedItem>)
    ensures |r| == |products|
    ensures forall i :: 0 <= i < |r| ==> r[i] == FeedItem(products[i], FindScore(top, products[i].id))
  {
    seq(|products|, i requires 0 <= i < |products| => FeedItem(products[i], FindScore(top, products[i].id)))
  }

  /** The sort key `_recommendationScore?.score || 0`. */
  function ItemKey(item: FeedItem): real {
    match item.recommendation
    case Some(s) => s.score
    case None => 0.0
  }

  /** `getPersonalizedFeedRecommendations(userId, limit)` on the user's
      preferences and the tables it reads. */
  function PersonalizedFeed(prefs: Preferences, table: seq<ProductTag>, likes: map<string, int>,
                            catalog: Option<seq<Product>>, limit: nat): (r: FeedResult)
    ensures r.Trending? <==> (NoHistory(prefs)
      || (forall row :: row in table ==> row.productId !in Interaction(prefs))
      || |Candidates(table, prefs, likes, limit)| == 0)
    ensures r.Recommended? && catalog.None? ==> r.items == []
    ensures r.Recommended? && catalog.Some? ==> FeedShape(r.items, Candidates(table, prefs, likes, limit),
      prefs, TagMatches(table, prefs), likes, catalog.value, limit)
  {
    if NoHistory(prefs) then Trending
    else
      var allTags := TagsFromProductList(table, Interaction(prefs));
      if |allTags| == 0 then
        NoTags(table, prefs);
        Trending
      else
        SomeTags(table, prefs);
        var top := Candidates(table, prefs, likes, limit);
        if |top| == 0 then Trending
        else
          match catalog
          case None => Recommended([])
          case Some(products) =>
            var fetched := Fetch(products, ScoreIds(top));
            var merged := Attach(fetched, top);
            var items := SortDesc(merged, ItemKey);
            FeedFacts(prefs, TagMatches(table, prefs), likes, products, limit, top, fetched, merged, items);
            Recommended(items)
  }

  lemma NoTags(table: seq<ProductTag>, prefs: Preferences)
    requires |Interaction(prefs)| > 0
    requires |TagsFromProductList(table, Interaction(prefs))| == 0
    ensures forall row :: row in table ==> row.productId !in Interaction(prefs)
  {
    var tags := TagsFromProductList(table, Interaction(prefs));
    forall row | row in table ensures row.productId !in Interaction(prefs) {
      assert row.productId in Interaction(prefs) ==> row.tag in tags;
    }
  }

  lemma SomeTags(table: seq<ProductTag>, prefs: Preferences)
    requires |TagsFromProductList(table, Interaction(prefs))| > 0
    ensures exists row :: row in table && row.productId in Interaction(prefs)
  {
    var tags := TagsFromProductList(table, Interaction(prefs));
    assert tags[0] in tags;
  }

  /** The recommended items drawn from the candidates `top`: a permutation
      of the fetched products, each requested, none an interaction product,
      each carrying its closed-form score, sorted by non-increasing score,
      and no more of them than `limit` when the table has one row per id. */
  ghost predicate FeedShape(items: seq<FeedItem>, top: seq<Score>, prefs: Preferences, rows: seq<ProductTag>,
                            likes: map<string, int>, products: seq<Product>, limit: nat) {
    && multiset(items) == multiset(Attach(Fetch(products, ScoreIds(top)), top))
    && SortedDesc(items, ItemKey)
    && (forall i :: 0 <= i < |items| ==> items[i].product.id in ScoreIds(top))
    && (forall i :: 0 <= i < |items| ==> items[i].product.id !in Interaction(prefs))
    && (forall i :: 0 <= i < |items| ==> (items[i].recommendation.Some?
          && items[i].recommendation.value == ExpectedScore(rows, prefs, likes, items[i].product.id)))
    && (KeysDistinct(products, ProductId) ==> |items| <= limit)
  }

  function ProductId(p: Product): string {
    p.id
  }

  lemma FeedFacts(prefs: Preferences, rows: seq<ProductTag>, likes: map<string, int>,
                  products: seq<Product>, limit: nat, top: seq<Score>, fetched: seq<Product>,
                  merged: seq<FeedItem>, items: seq<FeedItem>)
    requires |top| <= limit && NoDup(ScoreIds(top))
    requires forall i :: 0 <= i < |top| ==> top[i].productId !in Interaction(prefs)
    requires forall i :: 0 <= i < |top| ==> top[i] == ExpectedScore(rows, prefs, likes, top[i].productId)
    requires fetched == Fetch(products, ScoreIds(top))
    requires merged == Attach(fetched, top)
    requires SortedDesc(items, ItemKey) && multiset(items) == multiset(merged)
    ensures FeedShape(items, top, prefs, rows, likes, products, limit)
  {
    forall i | 0 <= i < |items|
      ensures items[i].product.id in ScoreIds(top)
      ensures items[i].product.id !in Interaction(prefs)
      ensures items[i].recommendation.Some?
      ensures items[i].recommendation.value == ExpectedScore(rows, prefs, likes, items[i].product.id)
    {
      assert items[i] in multiset(merged);
      ItemFacts(prefs, rows, likes, products, top, fetched, merged, items[i]);
    }
    if KeysDistinct(products, ProductId) {
      FetchLength(products, ScoreIds(top));
      assert |items| == |multiset(items)| == |multiset(merged)| == |merged|;
    }
  }

  lemma ItemFacts(prefs: Preferences, rows: seq<ProductTag>, likes: map<string, int>,
                  products: seq<Product>, top: seq<Score>, fetched: seq<Product>,
                  merged: seq<FeedItem>, item: FeedItem)
    requires forall i :: 0 <= i < |top| ==> top[i].productId !in Interaction(prefs)
    requires forall i :: 0 <= i < |top| ==> top[i] == ExpectedScore(rows, prefs, likes, top[i].productId)
    requires forall p :: p in fetched ==> p.id in ScoreIds(top)
    requires |merged| == |fetched|
    requires forall i :: 0 <= i < |merged| ==> merged[i] == FeedItem(fetched[i], FindScore(top, fetched[i].id))
    requires item in merged
    ensures item.product.id in ScoreIds(top) && item.product.id !in Interaction(prefs)
    ensures item.recommendation.Some?
    ensures item.recommendation.value == ExpectedScore(rows, prefs, likes, item.product.id)
  {
    var k :| 0 <= k < |merged| && merged[k] == item;
    assert fetched[k] in fetched;
    var j := FirstIndex(ScoreIds(top), fetched[k].id);
    assert top[j].productId == fetched[k].id;
  }

  /** A zero page size always falls back to trending: no candidate
      survives `slice(0, 0)`. */
  lemma ZeroLimitFallsBack(prefs: Preferences, table: seq<ProductTag>, likes: map<string, int>,
                           catalog: Option<seq<Product>>)
    ensures PersonalizedFeed(prefs, table, likes, catalog, 0) == Trending
  {
  }

  /** When every tag-matched product is one the user interacted with,
      self-exclusion leaves nothing and the feed falls back to trending. */
  lemma OnlyInteractedFallsBack(prefs: Preferences, table: seq<ProductTag>, likes: map<string, int>,
                                catalog: Option<seq<Product>>, limit: nat)
    requires forall row :: row in TagMatches(table, prefs) ==> row.productId in Interaction(prefs)
    ensures PersonalizedFeed(prefs, table, likes, catalog, limit) == Trending
  {
    NoCandidates(prefs, table, likes, limit);
  }

  lemma NoCandidates(prefs: Preferences, table: seq<ProductTag>, likes: map<string, int>, limit: nat)
    requires forall row :: row in TagMatches(table, prefs) ==> row.productId in Interaction(prefs)
    ensures |Candidates(table, prefs, likes, limit)| == 0
  {
    var rows := TagMatches(table, prefs);
    var ids := ProductIds(rows);
    forall x | x in ids ensures x in Interaction(prefs) {
      var j :| 0 <= j < |rows| && ids[j] == x;
      assert rows[j] in rows;
    }
    NoneSurvive(Candidates(table, prefs, likes, limit), ids, Interaction(prefs));
  }

  lemma NoneSurvive(top: seq<Score>, ids: seq<string>, excluded: seq<string>)
    requires forall i :: 0 <= i < |top| ==> top[i].productId in ids && top[i].productId !in excluded
    requires forall x :: x in ids ==> x in excluded
    ensures |top| == 0
  {
    HeadIn(top);
  }

  /** When the scorer returns more distinct products than the user has
      interaction ids, some candidate survives self-exclusion and the feed
      is personalised. */
  lemma EnoughMatchesRecommend(prefs: Preferences, table: seq<ProductTag>, likes: map<string, int>,
                               catalog: Option<seq<Product>>, limit: nat)
    requires limit > 0
    requires |Scored(table, prefs, likes, limit)| > |Dedup(Interaction(prefs))|
    ensures PersonalizedFeed(prefs, table, likes, catalog, limit).Recommended?
  {
    SomeCandidates(prefs, table, likes, limit);
  }

  lemma SomeCandidates(prefs: Preferences, table: seq<ProductTag>, likes: map<string, int>, limit: nat)
    requires limit > 0
    requires |Scored(table, prefs, likes, limit)| > |Dedup(Interaction(prefs))|
    ensures |Candidates(table, prefs, likes, limit)| > 0
    ensures !NoHistory(prefs) && exists row :: row in table && row.productId in Interaction(prefs)
  {
    var scores := Scored(table, prefs, likes, limit);
    ExclusionLeavesSome(scores, prefs);
    assert Candidates(table, prefs, likes, limit) == Take(Filter(scores, Exclusion(prefs)), limit);
    var rows := TagMatches(table, prefs);
    assert |rows| > 0;
    assert rows[0] in rows;
  }

  /** More distinct scored products than distinct interaction ids leave
      at least one after exclusion. */
  lemma ExclusionLeavesSome(scores: seq<Score>, prefs: Preferences)
    requires NoDup(ScoreIds(scores))
    requires |scores| > |Dedup(Interaction(prefs))|
    ensures |Filter(scores, Exclusion(prefs))| > 0
  {
    var kept := Filter(scores, Exclusion(prefs));
    if |kept| == 0 {
      forall x | x in ScoreIds(scores) ensures x in Dedup(Interaction(prefs)) {
        var i :| 0 <= i < |scores| && ScoreIds(scores)[i] == x;
        assert scores[i] !in kept;
      }
      NoDupSubsetLength(ScoreIds(scores), Dedup(Interaction(prefs)));
    }
  }

  /** Among the scored candidates that are not interaction products, the
      ones dropped by `slice(0, limit)` score no higher than any kept. */
  lemma CandidatesKeepBest(prefs: Preferences, table: seq<ProductTag>, likes: map<string, int>, limit: nat, s: Score)
    requires s in Scored(table, prefs, likes, limit) && s.productId !in Interaction(prefs)
    requires s !in Candidates(table, prefs, likes, limit)
    ensures forall i :: 0 <= i < |Candidates(table, prefs, likes, limit)| ==>
      s.score <= Candidates(table, prefs, likes, limit)[i].score
  {
    var scores := Scored(table, prefs, likes, limit);
    assert Candidates(table, prefs, likes, limit) == Take(Filter(scores, Exclusion(prefs)), limit);
    KeptBest(scores, Exclusion(prefs), limit, s);
  }

  lemma KeptBest(scores: seq<Score>, p: Score -> bool, limit: nat, s: Score)
    requires SortedDesc(scores, ScoreKey)
    requires s in scores && p(s) && s !in Take(Filter(scores, p), limit)
    ensures forall i :: 0 <= i < |Take(Filter(scores, p), limit)| ==> s.score <= Take(Filter(scores, p), limit)[i].score
  {
    var kept := Filter(scores, p);
    FilterSorted(scores, p, ScoreKey);
    assert s in multiset(kept) && s !in multiset(Take(kept, limit));
    TakeOfSortedKeepsLargest(kept, limit, ScoreKey, s);
  }

  /** Fetching a duplicate-free id list from a table keyed by id returns at
      most one row per id. */
  lemma FetchLength(products: seq<Product>, ids: seq<string>)
    requires KeysDistinct(products, ProductId) && NoDup(ids)
    ensures |Fetch(products, ids)| <= |ids|
  {
    var f := Fetch(products, ids);
    FilterKeysDistinct(products, (p: Product) => p.id in ids, ProductId);
    var fids := seq(|f|, i requires 0 <= i < |f| => f[i].id);
    assert NoDup(fids);
    assert forall x :: x in fids ==> x in ids;
    NoDupSubsetLength(fids, ids);
  }

  // ---------------------------------------------------------------------
  // Similar products

  /** What `getSimilarProducts` returns. */
  datatype SimilarResult =
    | AnyOthers                // up to `limit` products other than the reference, in database order
    | ByIds(ids: seq<string>)  // the display records of exactly these ids

  /** The other products carrying a tag that `productId` also carries. */
  ghost function Similar(table: seq<ProductTag>, productId: string): set<string> {
    set a, b | a in table && b in table && a.productId == productId && b.productId != productId && a.tag == b.tag
      :: b.productId
  }

  /** `getSimilarProducts(productId, limit)` on the `product_tags` table. */
  function SimilarProducts(table: seq<ProductTag>, productId: string, limit: nat): (r: SimilarResult)
    ensures r.AnyOthers? <==> Similar(table, productId) == {}
    ensures r.ByIds? ==> NoDup(r.ids) && |r.ids| <= limit
    ensures r.ByIds? ==> forall x :: x in r.ids ==> x in Similar(table, productId)
    ensures r.ByIds? && |r.ids| < limit ==> forall x :: x in Similar(table, productId) ==> x in r.ids
  {
    var reference := Filter(table, (row: ProductTag) => row.productId == productId);
    var tagList := TagStrings(reference);
    var matched := Filter(table, (row: ProductTag) => row.tag in tagList && row.productId != productId);
    SimilarFacts(table, productId, reference, tagList, matched);
    if |reference| == 0 then AnyOthers
    else if |matched| == 0 then AnyOthers
    else ByIds(Take(Dedup(ProductIds(matched)), limit))
  }

  lemma SimilarFacts(table: seq<ProductTag>, productId: string, reference: seq<ProductTag>,
                     tagList: seq<string>, matched: seq<ProductTag>)
    requires forall row :: row in reference <==> row in table && row.productId == productId
    requires tagList == TagStrings(reference)
    requires forall row :: row in matched <==> row in table && row.tag in tagList && row.productId != productId
    ensures forall x :: x in ProductIds(matched) <==> x in Similar(table, productId)
    ensures |matched| == 0 <==> Similar(table, productId) == {}
    ensures |reference| == 0 ==> |matched| == 0
  {
    var sim := Similar(table, productId);
    TagStringsMembers(reference);
    ProductIdsMembers(matched);
    forall x | x in sim ensures x in ProductIds(matched) {
      var a, b :| a in table && b in table && a.productId == productId && b.productId != productId
        && a.tag == b.tag && b.productId == x;
      assert a in reference;
      assert b in matched;
    }
    forall x | x in ProductIds(matched) ensures x in sim {
      var b :| b in matched && b.productId == x;
      var a :| a in reference && a.tag == b.tag;
      assert a in table && b in table && a.productId == productId && b.productId != productId && a.tag == b.tag;
    }
    HeadIn(ProductIds(matched));
    HeadIn(matched);
    assert |matched| > 0 ==> matched[0].tag in tagList;
  }
}

=== FILE: records.dfy ===
/** A JavaScript object used as a dictionary with string keys
    (`Record<string, V>`): a map together with the order in which keys were
    first assigned, which is the order `Object.keys`, `Object.values` and
    `Object.entries` report for non-numeric keys. */
module Records {
  import opened Seqs

  datatype Record<V> = Record(keys: seq<string>, at: map<string, V>) {

    /** Keys are listed once each, and exactly the keys present are listed. */
    ghost predicate Valid() {
      && NoDup(keys)
      && (forall i :: 0 <= i < |keys| ==> keys[i] in at)
      && (forall k :: k in at ==> k in keys)
    }

    /** `obj[k] = v`: a new key is appended to the key order, an existing
        key keeps its place. */
    function Put(k: string, v: V): (r: Record<V>)
      requires Valid()
      ensures r.Valid()
      ensures r.at == at[k := v]
      ensures r.keys == if k in at then keys else keys + [k]
    {
      Record(if k in at then keys else keys + [k], at[k := v])
    }

    /** `Object.values(obj)`. */
    function Values(): (r: seq<V>)
      requires Valid()
      ensures |r| == |keys|
      ensures forall i :: 0 <= i < |keys| ==> r[i] == at[keys[i]]
    {
      seq(|keys|, i requires 0 <= i < |keys| && Valid() => at[keys[i]])
    }

    /** `Object.entries(obj)`. */
    function Entries(): (r: seq<(string, V)>)
      requires Valid()
      ensures |r| == |keys|
      ensures forall i :: 0 <= i < |keys| ==> r[i] == (keys[i], at[keys[i]])
      ensures NoDup(r)
    {
      seq(|keys|, i requires 0 <= i < |keys| && Valid() => (keys[i], at[keys[i]]))
    }
  }

  function Empty<V>(): (r: Record<V>)
    ensures r.Valid() && r.keys == [] && r.at == map[]
  {
    Record([], map[])
  }
}

=== FILE: results.dfy ===
/** Option and Result types shared by every module of the model.
    A `Result` failure carries the exact error message the source throws,
    because several callers branch on the text of that message. */
module Results {

  datatype Option<+T> = None | Some(value: T) {
    /** The value, or `default` when absent (JavaScript's `x ?? default`). */
    function GetOr(default: T): T {
      match this
      case Some(v) => v
      case None => default
    }
  }

  datatype Result<+T> = Ok(value: T) | Err(message: string)
}

=== FILE: review_form.dfy ===
/** The review form's submit handler: the client-side checks, the call to
    `addReview`, and the form state the outcome leaves behind. */
module ReviewForm {
  import opened Results
  import opened Strings
  import opened Reviews

  const MinCommentLength := 10
  const RatingRequired := "Please select a rating"
  const CommentTooShort := "Comment must be at least 10 characters"
  const SubmitFailed := "Failed to submit review"

  /** The form's state: the chosen star rating (0 for none), the comment
      text, the error shown and whether the success note is shown. */
  datatype Form = Form(rating: int, comment: string, error: string, success: bool)

  /** What one submit does: the form state afterwards, the review row
      inserted (if any), and whether the user is sent to sign in. */
  datatype Submission = Submission(form: Form, inserted: Option<NewReview>, redirect: bool)

  /** The client-side checks pass: a rating is chosen and the trimmed
      comment has at least ten characters. */
  predicate Acceptable(form: Form) {
    form.rating != 0 && |Trim(form.comment)| >= MinCommentLength
  }

  /** `handleSubmit`: clear the error and the success note, check the
      rating, then the comment, then submit; on success reset the form, on
      an authentication error redirect, otherwise show the error's message
      or a fallback when it is empty. */
  function HandleSubmit(form: Form, productId: string, user: Option<string>,
                        insertError: Option<string>): (r: Submission)
    ensures form.rating == 0 ==> r == Submission(form.(error := RatingRequired, success := false), None, false)
    ensures (form.rating != 0 && |Trim(form.comment)| < MinCommentLength ==>
      r == Submission(form.(error := CommentTooShort, success := false), None, false))
    ensures r.inserted.Some? <==> Acceptable(form) && user.Some? && insertError.None?
    ensures (r.inserted.Some? ==>
      r.form == Form(0, "", "", true)
      && r.inserted.value.productId == productId
      && 1.0 <= r.inserted.value.rating <= 5.0
      && |r.inserted.value.comment| >= MinCommentLength)
    ensures (r.inserted.None? ==>
      !r.form.success && r.form.rating == form.rating && r.form.comment == form.comment)
    ensures (r.redirect <==> (Acceptable(form)
      && AddReview(productId, form.rating as real, form.comment, user, insertError).Err?
      && Contains(AddReview(productId, form.rating as real, form.comment, user, insertError).message, AuthPhrase)))
    ensures r.redirect ==> r.form.error == "" && r.inserted.None?
    ensures !r.redirect && r.inserted.None? ==> r.form.error != ""
  {
    var cleared := form.(error := "", success := false);
    if form.rating == 0 then Submission(cleared.(error := RatingRequired), None, false)
    else if |Trim(form.comment)| < MinCommentLength then Submission(cleared.(error := CommentTooShort), None, false)
    else
      match AddReview(productId, form.rating as real, form.comment, user, insertError)
      case Ok(row) => Submission(Form(0, "", "", true), Some(row), false)
      case Err(m) =>
        if Contains(m, AuthPhrase) then Submission(cleared, None, true)
        else Submission(cleared.(error := if m == "" then SubmitFailed else m), None, false)
  }

  /** A signed-out user who passes the checks is sent to sign in and
      nothing is inserted. */
  lemma SignedOutRedirects(form: Form, productId: string, insertError: Option<string>)
    requires Acceptable(form)
    ensures HandleSubmit(form, productId, None, insertError).redirect
    ensures HandleSubmit(form, productId, None, insertError).inserted.None?
  {
    ContainsSuffix("User ", AuthPhrase);
  }

  /** An insert error without the phrase is shown as it is. */
  lemma InsertErrorShown(form: Form, productId: string, user: string, m: string)
    requires Acceptable(form)
    requires m != "" && !Contains(m, AuthPhrase)
    ensures HandleSubmit(form, productId, Some(user), Some(m)).form.error == m
  {
  }

  /** After a successful submit the form is reset, so submitting it again
      stops at the rating check. */
  lemma ResubmitNeedsRating(form: Form, productId: string, user: Option<string>, insertError: Option<string>,
                            user2: Option<string>, insertError2: Option<string>)
    requires HandleSubmit(form, productId, user, insertError).inserted.Some?
    ensures (var again := HandleSubmit(HandleSubmit(form, productId, user, insertError).form, productId, user2, insertError2);
      again.form.error == RatingRequired && again.inserted.None?)
  {
  }
}

=== FILE: reviews.dfy ===
/** The review store of `ReviewContext`: how `addReview` shapes the row it
    inserts, and how `averageRating` summarises the loaded reviews of one
    product. The signed-in user and the insert's error are inputs. */
module Reviews {
  import opened Results
  import opened Seqs
  import opened Strings

  datatype Review = Review(id: string, productId: string, userId: string, rating: real, comment: string)

  /** The row `addReview` inserts into the `reviews` table. */
  datatype NewReview = NewReview(productId: string, userId: string, rating: real, comment: string)

  const AuthPhrase := "not authenticated"
  const NotAuthenticated := "User " + AuthPhrase

  /** `Math.min(5, Math.max(1, rating))`. */
  function Clamp(rating: real): (r: real)
    ensures 1.0 <= r <= 5.0
    ensures 1.0 <= rating <= 5.0 ==> r == rating
    ensures rating < 1.0 ==> r == 1.0
    ensures rating > 5.0 ==> r == 5.0
  {
    if rating < 1.0 then 1.0 else if rating > 5.0 then 5.0 else rating
  }

  /** Clamping a clamped rating changes nothing. */
  lemma ClampIdempotent(rating: real)
    ensures Clamp(Clamp(rating)) == Clamp(rating)
  {
  }

  /** `addReview`: without a user it fails before inserting; otherwise the
      row carries the clamped rating and the trimmed comment, and an
      insert error is passed on. */
  function AddReview(productId: string, rating: real, comment: string,
                     user: Option<string>, insertError: Option<string>): (r: Result<NewReview>)
    ensures user.None? ==> r == Err(NotAuthenticated)
    ensures user.Some? && insertError.Some? ==> r == Err(insertError.value)
    ensures r.Ok? <==> user.Some? && insertError.None?
    ensures r.Ok? ==> (r.value.productId == productId && r.value.userId == user.value
      && 1.0 <= r.value.rating <= 5.0 && r.value.comment == Trim(comment))
    ensures r.Ok? && 1.0 <= rating <= 5.0 ==> r.value.rating == rating
  {
    if user.None? then Err(NotAuthenticated)
    else if insertError.Some? then Err(insertError.value)
    else Ok(NewReview(productId, user.value, Clamp(rating), Trim(comment)))
  }

  /** The stored comment has no whitespace at either end. */
  lemma StoredCommentTrimmed(productId: string, rating: real, comment: string, user: string)
    ensures var c := AddReview(productId, rating, comment, Some(user), None).value.comment;
      |c| > 0 ==> !IsWhitespace(c[0]) && !IsWhitespace(c[|c| - 1])
  {
  }

  function ForProduct(productId: string): Review -> bool {
    (r: Review) => r.productId == productId
  }

  function Ratings(rs: seq<Review>): (r: seq<real>)
    ensures |r| == |rs|
    ensures forall i :: 0 <= i < |rs| ==> r[i] == rs[i].rating
  {
    seq(|rs|, i requires 0 <= i < |rs| => rs[i].rating)
  }

  function Sum(xs: seq<real>): real
    decreases |xs|
  {
    if |xs| == 0 then 0.0 else xs[0] + Sum(xs[1..])
  }

  /** A sum of values within `[lo, hi]` lies within `[n * lo, n * hi]`. */
  lemma {:induction false} SumBounds(xs: seq<real>, lo: real, hi: real)
    requires forall i :: 0 <= i < |xs| ==> lo <= xs[i] <= hi
    ensures |xs| as real * lo <= Sum(xs) <= |xs| as real * hi
    decreases |xs|
  {
    if |xs| > 0 {
      SumBounds(xs[1..], lo, hi);
    }
  }

  /** `Math.round(x * 10) / 10`: the nearest tenth, halves rounded up. */
  function RoundTenth(x: real): (r: real)
    ensures x - 0.05 < r <= x + 0.05
    ensures (r * 10.0).Floor as real == r * 10.0
  {
    var k := (x * 10.0 + 0.5).Floor;
    assert k as real / 10.0 * 10.0 == k as real;
    k as real / 10.0
  }

  /** The mean rating of the non-empty list `rs`. */
  function Mean(rs: seq<Review>): real
    requires |rs| > 0
  {
    Sum(Ratings(rs)) / |rs| as real
  }

  /** `averageRating`: 0 when the product has no reviews, otherwise the
      mean of its reviews' ratings rounded to a tenth. Reviews of other
      products play no part. */
  function AverageRating(reviews: seq<Review>, productId: string): (r: real)
    ensures |Filter(reviews, ForProduct(productId))| == 0 ==> r == 0.0
    ensures (|Filter(reviews, ForProduct(productId))| > 0 ==>
      var m := Mean(Filter(reviews, ForProduct(productId)));
      m - 0.05 < r <= m + 0.05)
    ensures (r * 10.0).Floor as real == r * 10.0
  {
    var matching := Filter(reviews, ForProduct(productId));
    if |matching| == 0 then 0.0 else RoundTenth(Mean(matching))
  }

  /** When every rating of the product lies in 1..5, so does its average. */
  lemma AverageInRange(reviews: seq<Review>, productId: string)
    requires forall r :: r in reviews && r.productId == productId ==> 1.0 <= r.rating <= 5.0
    requires exists r :: r in reviews && r.productId == productId
    ensures 1.0 <= AverageRating(reviews, productId) <= 5.0
  {
    var matching := Filter(reviews, ForProduct(productId));
    var r0 :| r0 in reviews && r0.productId == productId;
    assert r0 in matching;
    forall r | r in matching ensures 1.0 <= r.rating <= 5.0 {
    }
    MeanInRange(matching);
    RoundTenthInRange(Mean(matching));
  }

  lemma MeanInRange(rs: seq<Review>)
    requires |rs| > 0
    requires forall r :: r in rs ==> 1.0 <= r.rating <= 5.0
    ensures 1.0 <= Mean(rs) <= 5.0
  {
    var xs := Ratings(rs);
    forall i | 0 <= i < |xs| ensures 1.0 <= xs[i] <= 5.0 {
      assert rs[i] in rs;
    }
    SumBounds(xs, 1.0, 5.0);
    DivideBounds(Sum(xs), |rs| as real);
  }

  lemma DivideBounds(s: real, n: real)
    requires n >= 1.0 && n <= s <= 5.0 * n
    ensures 1.0 <= s / n <= 5.0
  {
    assert n / n == 1.0;
    assert (5.0 * n) / n == 5.0;
  }

  lemma RoundTenthInRange(m: real)
    requires 1.0 <= m <= 5.0
    ensures 1.0 <= RoundTenth(m) <= 5.0
  {
    var k := (m * 10.0 + 0.5).Floor;
    assert 10 <= k <= 50;
  }

  /** A review of another product does not move this product's average. */
  lemma OtherProductIgnored(reviews: seq<Review>, x: Review, productId: string)
    requires x.productId != productId
    ensures AverageRating(reviews + [x], productId) == AverageRating(reviews, productId)
    ensures AverageRating([x] + reviews, productId) == AverageRating(reviews, productId)
  {
    assert !ForProduct(productId)(x);
    FilterSnoc(reviews, x, ForProduct(productId));
    var m := Filter(reviews, ForProduct(productId));
    assert m + [] == m;
    assert Filter(reviews + [x], ForProduct(productId)) == m;
    assert ([x] + reviews)[1..] == reviews;
  }

  /** A single review with a whole-star rating averages to that rating. */
  lemma SingleReviewAverage(x: Review, k: int)
    requires x.rating == k as real
    ensures AverageRating([x], x.productId) == k as real
  {
    var matching := Filter([x], ForProduct(x.productId));
    assert [x][1..] == [];
    assert matching == [x];
    assert Sum(Ratings(matching)) == k as real;
    assert ((k as real * 10.0 + 0.5).Floor) == k * 10;
  }
}

=== FILE: score_examples.dfy ===
/** Worked consequences of the closed form `Feed.ExpectedScore`: the
    weights of `RECOMMENDATION_WEIGHTS` applied to particular tag counts and
    list memberships. Every entry the scorer returns equals its closed form
    (`Feed.RankedScores`), so these are statements about the scorer. */
module ScoreExamples {
  import opened Seqs
  import opened Tags
  import opened Feed

  /** Two matching rows and no list membership: 0.5 + 2 + a tenth of the
      like count, with the default reason. */
  lemma TwoTagsNoInteraction(rows: seq<ProductTag>, prefs: Preferences, likes: map<string, int>, id: string)
    requires RowCount(rows, id) == 2
    requires id !in prefs.liked && id !in prefs.cart && id !in prefs.purchased
    ensures ExpectedScore(rows, prefs, likes, id).score == 2.5 + LikesOf(likes, id) as real * 0.1
    ensures ExpectedScore(rows, prefs, likes, id).reason == TagBasedMatch
  {
    assert multiset(prefs.liked)[id] == 0 && multiset(prefs.cart)[id] == 0 && multiset(prefs.purchased)[id] == 0;
  }

  /** One matching row and one like: (0.5 + 1) * 3 = 4.5 plus the bonus,
      for the liked reason. */
  lemma OneTagLiked(rows: seq<ProductTag>, prefs: Preferences, likes: map<string, int>, id: string)
    requires RowCount(rows, id) == 1
    requires multiset(prefs.liked)[id] == 1
    requires id !in prefs.cart && id !in prefs.purchased
    ensures ExpectedScore(rows, prefs, likes, id).score == 4.5 + LikesOf(likes, id) as real * 0.1
    ensures ExpectedScore(rows, prefs, likes, id).reason == SimilarToLiked
  {
    assert multiset(prefs.cart)[id] == 0 && multiset(prefs.purchased)[id] == 0;
    assert id in prefs.liked by {
      assert id in multiset(prefs.liked);
    }
  }

  /** A product both liked and in the cart gets both multipliers, 3 * 2.5,
      and the cart's reason, which is applied later. */
  lemma LikedAndCartCompound(rows: seq<ProductTag>, prefs: Preferences, likes: map<string, int>, id: string)
    requires multiset(prefs.liked)[id] == 1 && multiset(prefs.cart)[id] == 1
    requires id !in prefs.purchased
    ensures ExpectedScore(rows, prefs, likes, id).score
      == (0.5 + RowCount(rows, id) as real) * 7.5 + LikesOf(likes, id) as real * 0.1
    ensures ExpectedScore(rows, prefs, likes, id).reason == SimilarToCart
  {
    assert multiset(prefs.purchased)[id] == 0;
    assert id in prefs.cart by {
      assert id in multiset(prefs.cart);
    }
  }

  /** Each further occurrence in the liked list multiplies by 3 again. */
  lemma LikedTwiceCompound(rows: seq<ProductTag>, prefs: Preferences, likes: map<string, int>, id: string)
    requires multiset(prefs.liked)[id] == 2
    requires id !in prefs.cart && id !in prefs.purchased
    ensures ExpectedScore(rows, prefs, likes, id).score
      == (0.5 + RowCount(rows, id) as real) * 9.0 + LikesOf(likes, id) as real * 0.1
  {
    assert multiset(prefs.cart)[id] == 0 && multiset(prefs.purchased)[id] == 0;
  }

  /** Of two products with the same rows count and the same list
      memberships, the more liked one scores higher. */
  lemma PopularityBreaksEqualMatches(rows: seq<ProductTag>, prefs: Preferences, likes: map<string, int>,
                                     b: string, c: string)
    requires RowCount(rows, b) == RowCount(rows, c)
    requires multiset(prefs.liked)[b] == multiset(prefs.liked)[c]
    requires multiset(prefs.cart)[b] == multiset(prefs.cart)[c]
    requires multiset(prefs.purchased)[b] == multiset(prefs.purchased)[c]
    requires LikesOf(likes, b) > LikesOf(likes, c)
    ensures ExpectedScore(rows, prefs, likes, b).score > ExpectedScore(rows, prefs, likes, c).score
  {
  }

  /** The boosts never lower a score: each multiplier is above 1 and the
      score before them is positive. */
  lemma {:induction false} BoostsNeverLower(x: real, f: real, n: nat)
    requires x > 0.0 && f >= 1.0
    ensures Scale(x, f, n) >= x
    decreases n
  {
    if n > 0 {
      BoostsNeverLower(x, f, n - 1);
      assert Scale(x, f, n) == Scale(x, f, n - 1) * f;
      assert Scale(x, f, n - 1) * f >= Scale(x, f, n - 1) * 1.0;
    }
  }

  /** A product's score is at least its tag-match score plus its bonus. */
  lemma ScoreAtLeastMatches(rows: seq<ProductTag>, prefs: Preferences, likes: map<string, int>, id: string)
    ensures ExpectedScore(rows, prefs, likes, id).score
      >= 0.5 + RowCount(rows, id) as real + LikesOf(likes, id) as real * 0.1
  {
    var base := BaseScore + RowCount(rows, id) as real * TagMatchWeight;
    var s1 := Scale(base, LikedWeight, multiset(prefs.liked)[id]);
    var s2 := Scale(s1, CartWeight, multiset(prefs.cart)[id]);
    BoostsNeverLower(base, LikedWeight, multiset(prefs.liked)[id]);
    BoostsNeverLower(s1, CartWeight, multiset(prefs.cart)[id]);
    BoostsNeverLower(s2, PurchasedWeight, multiset(prefs.purchased)[id]);
  }
}

=== FILE: search.dfy ===
/** The search page's filter: a case-insensitive substring match of the
    query against each product's name, category and shop name. */
module Search {
  import opened Seqs
  import opened Strings

  /** A loaded product with the shop name its query joins in. */
  datatype Product = Product(id: string, name: string, price: real, category: string, shopName: string)

  /** The product's name, category or shop name, lower-cased, contains the
      lower-cased query. */
  predicate Matches(p: Product, query: string) {
    || Contains(Lower(p.name), Lower(query))
    || Contains(Lower(p.category), Lower(query))
    || Contains(Lower(p.shopName), Lower(query))
  }

  function MatchesQuery(query: string): Product -> bool {
    (p: Product) => Matches(p, query)
  }

  /** The search page's filtering effect: no results for a blank query,
      otherwise the matching products. The blank test trims the query; the
      match itself uses the query as typed. */
  function Search(products: seq<Product>, query: string): (r: seq<Product>)
    ensures Trim(query) == "" ==> r == []
    ensures forall p :: p in r <==> Trim(query) != "" && p in products && Matches(p, query)
    ensures |r| <= |products|
  {
    if Trim(query) == "" then [] else Filter(products, MatchesQuery(query))
  }

  /** The results keep the products' order. */
  lemma SearchSubseq(products: seq<Product>, query: string)
    ensures IsSubseq(Search(products, query), products)
  {
    if Trim(query) != "" {
      FilterSubseq(products, MatchesQuery(query));
    }
  }

  /** The results keep each matching product as often as it was loaded. */
  lemma SearchCounts(products: seq<Product>, query: string, p: Product)
    requires Trim(query) != "" && Matches(p, query)
    ensures multiset(Search(products, query))[p] == multiset(products)[p]
  {
    FilterCounts(products, MatchesQuery(query));
  }

  /** Searching the results again with the same query returns them
      unchanged. */
  lemma SearchIdempotent(products: seq<Product>, query: string)
    ensures Search(Search(products, query), query) == Search(products, query)
  {
    if Trim(query) != "" {
      FilterIdempotent(products, MatchesQuery(query));
    }
  }

  lemma LowerCharWhitespace(c: char)
    ensures IsWhitespace(LowerChar(c)) <==> IsWhitespace(c)
  {
  }

  /** Lower-casing never makes a query blank or non-blank. */
  lemma LowerKeepsBlank(query: string)
    ensures Trim(Lower(query)) == "" <==> Trim(query) == ""
  {
    TrimEmptyIff(query);
    TrimEmptyIff(Lower(query));
    forall i | 0 <= i < |query| ensures IsWhitespace(Lower(query)[i]) <==> IsWhitespace(query[i]) {
      LowerCharWhitespace(query[i]);
    }
  }

  /** The search ignores the case of the query. */
  lemma SearchCaseInsensitive(products: seq<Product>, query: string)
    ensures Search(products, Lower(query)) == Search(products, query)
  {
    LowerKeepsBlank(query);
    LowerIdempotent(query);
    FilterAgree(products, MatchesQuery(Lower(query)), MatchesQuery(query));
  }
}

=== FILE: seller_modal.dfy ===
/** The "become a seller" dialog: its two required-field checks, the `@`
    it puts in front of the handle, the application it submits, and what
    it does with the answer. The submission's outcome is an input: the
    client call behind it is not part of this model. */
module SellerModal {
  import opened Results
  import opened Strings
  import opened Api
  import SR = SellerRegister

  const ShopNameRequired := "Shop name is required"
  const HandleRequired := "Instagram handle is required"
  const AlreadySellerNotice := "You are already a seller! Redirecting to dashboard..."
  const SubmitFailed := "Failed to create seller account. Please try again."

  datatype Form = Form(shopName: string, instagramHandle: string, bio: string)

  /** What one submit does: the form afterwards, the error shown, the
      application submitted (if any), whether the dialog closes and
      whether the user is sent to the dashboard. */
  datatype Outcome = Outcome(form: Form, error: string, sent: Option<SR.Body>, closed: bool, toDashboard: bool)

  /** The trimmed handle, with an `@` put in front when it has none. */
  function PrefixHandle(handle: string): (r: string)
    ensures |r| > 0 && r[0] == '@'
    ensures StartsWith(Trim(handle), "@") ==> r == Trim(handle)
    ensures !StartsWith(Trim(handle), "@") ==> r == "@" + Trim(handle)
  {
    SR.WithAt(Trim(handle))
  }

  /** The prefixed handle has no whitespace at either end. */
  lemma PrefixHandleTrimmed(handle: string)
    ensures Trim(PrefixHandle(handle)) == PrefixHandle(handle)
  {
    var t := Trim(handle);
    var r := PrefixHandle(handle);
    assert !IsWhitespace('@');
    if !StartsWith(t, "@") && |t| > 0 {
      assert r[|r| - 1] == t[|t| - 1];
    }
    TrimOfTrimmed(r);
  }

  lemma WithAtOfPrefixed(r: string)
    requires |r| > 0 && r[0] == '@'
    ensures SR.WithAt(r) == r
  {
    assert r[..1] == "@";
  }

  /** Prefixing is idempotent: a prefixed handle is left as it is. */
  lemma PrefixHandleIdempotent(handle: string)
    ensures PrefixHandle(PrefixHandle(handle)) == PrefixHandle(handle)
  {
    var r := PrefixHandle(handle);
    PrefixHandleTrimmed(handle);
    WithAtOfPrefixed(r);
  }

  /** The route makes the same decision on the prefixed handle as on the
      handle as typed. */
  lemma RouteAgreesOnHandle(handle: string)
    ensures SR.ValidateInstagramHandle(PrefixHandle(handle)) == SR.ValidateInstagramHandle(handle)
  {
    PrefixHandleIdempotent(handle);
    SR.HandleValidationByPrefixed(PrefixHandle(handle), handle);
  }

  /** The route makes the same decision on the trimmed shop name as on the
      name as typed. */
  lemma RouteAgreesOnShopName(name: string)
    ensures SR.ValidateShopName(Trim(name)) == SR.ValidateShopName(name)
  {
    SanitizeOfTrim(name, SR.ShopNameMaxLength);
    var a, b := SR.ValidateShopName(Trim(name)), SR.ValidateShopName(name);
    if a.Ok? {
      assert a.value == b.value;
    } else {
      assert a.message == b.message;
    }
  }

  /** `handleSubmit`: the shop name check, then the handle check, then the
      submission; on success the dialog closes and the form is cleared, and
      the user goes to the dashboard unless the opener handles success; an
      error mentioning "already a seller" shows a notice and goes to the
      dashboard; any other error is shown, or a fallback when it is
      empty. */
  function HandleSubmit(form: Form, outcome: Result<()>, hasOnSuccess: bool): (r: Outcome)
    ensures Trim(form.shopName) == "" ==> r == Outcome(form, ShopNameRequired, None, false, false)
    ensures (Trim(form.shopName) != "" && Trim(form.instagramHandle) == "" ==>
      r == Outcome(form, HandleRequired, None, false, false))
    ensures r.sent.Some? <==> Trim(form.shopName) != "" && Trim(form.instagramHandle) != ""
    ensures (r.sent.Some? ==>
      r.sent.value.shopName == Some(Trim(form.shopName))
      && r.sent.value.instagramHandle == Some(PrefixHandle(form.instagramHandle))
      && (r.sent.value.bio.None? <==> Trim(form.bio) == "")
      && (r.sent.value.bio.Some? ==> r.sent.value.bio.value == Trim(form.bio)))
    ensures (r.sent.Some? && outcome.Ok? ==>
      r.form == Form("", "", "") && r.error == "" && r.closed && r.toDashboard == !hasOnSuccess)
    ensures (r.sent.Some? && outcome.Err? && Contains(outcome.message, SR.AlreadySellerPhrase) ==>
      r.form == form && r.error == AlreadySellerNotice && r.closed && r.toDashboard)
    ensures (r.sent.Some? && outcome.Err? && !Contains(outcome.message, SR.AlreadySellerPhrase) ==>
      r.form == form && !r.closed && !r.toDashboard && r.error != ""
      && (outcome.message != "" ==> r.error == outcome.message))
  {
    if Trim(form.shopName) == "" then Outcome(form, ShopNameRequired, None, false, false)
    else if Trim(form.instagramHandle) == "" then Outcome(form, HandleRequired, None, false, false)
    else
      var bio := if Trim(form.bio) == "" then None else Some(Trim(form.bio));
      var body := SR.Body(Some(Trim(form.shopName)), Some(PrefixHandle(form.instagramHandle)), bio);
      match outcome
      case Ok(_) => Outcome(Form("", "", ""), "", Some(body), true, !hasOnSuccess)
      case Err(m) =>
        if Contains(m, SR.AlreadySellerPhrase) then Outcome(form, AlreadySellerNotice, Some(body), true, true)
        else Outcome(form, if m == "" then SubmitFailed else m, Some(body), false, false)
  }

  /** The application the dialog submits always gets past the route's
      missing-fields check, which asks for a non-empty shop name and
      handle. */
  lemma SentBodyHasRequiredFields(form: Form, outcome: Result<()>, hasOnSuccess: bool)
    requires HandleSubmit(form, outcome, hasOnSuccess).sent.Some?
    ensures (var body := HandleSubmit(form, outcome, hasOnSuccess).sent.value;
      Present(body.shopName) && Present(body.instagramHandle))
  {
    var body := HandleSubmit(form, outcome, hasOnSuccess).sent.value;
    assert body.instagramHandle.value[0] == '@';
  }

  /** When the route's already-a-seller message reaches the dialog, the
      dialog shows its notice and heads for the dashboard. */
  lemma RouteRefusalRedirects(form: Form, hasOnSuccess: bool)
    requires Trim(form.shopName) != "" && Trim(form.instagramHandle) != ""
    ensures (var r := HandleSubmit(form, Err(SR.AlreadySeller), hasOnSuccess);
      r.error == AlreadySellerNotice && r.toDashboard)
  {
    ContainsSuffix("You are ", SR.AlreadySellerPhrase);
  }
}

=== FILE: seller_register.dfy ===
/** The seller registration route: the validators for the shop name, the
    Instagram handle and the bio, and the request handler, which checks the
    caller's account, validates the body, checks that the name and handle
    are free, promotes the profile to a seller and creates the shop, undoing
    the promotion when the shop cannot be created.

    The database is a snapshot of the two tables the handler touches; the
    outcome of each write (which the database decides) is a parameter. */
module SellerRegister {
  import opened Results
  import opened Seqs
  import opened Strings
  import opened Api

  const ShopNameMaxLength: nat := 100
  const BioMaxLength: nat := 500

  const ShopNameTooShort := "Shop name must be at least 3 characters long"
  const ShopNameTooLong := "Shop name must be less than 100 characters"
  const HandleLengthError := "Instagram handle must be between 1-30 characters"
  const HandleFormatError := "Invalid Instagram handle format"
  const BioTooLong := "Bio must be less than 500 characters"

  // ---------------------------------------------------------------------
  // Shop name

  /** The name, sanitised to at most 100 characters, when that leaves at
      least 3 of them. The "too long" error of the source cannot happen,
      since the sanitiser already cuts at 100: every error is "too short". */
  function ValidateShopName(name: string): (r: Result<string>)
    ensures r.Ok? <==> |Sanitize(name, ShopNameMaxLength)| >= 3
    ensures r.Ok? ==> 3 <= |r.value| <= ShopNameMaxLength && NoAngles(r.value)
    ensures r.Ok? ==> r.value == Sanitize(name, ShopNameMaxLength)
    ensures r.Err? ==> r.message == ShopNameTooShort
  {
    var sanitized := Sanitize(name, ShopNameMaxLength);
    if |sanitized| < 3 then Err(ShopNameTooShort)
    else if |sanitized| > ShopNameMaxLength then Err(ShopNameTooLong)
    else Ok(sanitized)
  }

  /** A name that is already trimmed, free of angle brackets and 3 to 100
      characters long is accepted exactly as given. */
  lemma CleanShopNameAccepted(name: string)
    requires 3 <= |name| <= ShopNameMaxLength
    requires !IsWhitespace(name[0]) && !IsWhitespace(name[|name| - 1])
    requires NoAngles(name)
    ensures ValidateShopName(name) == Ok(name)
  {
    SanitizeOfClean(name, ShopNameMaxLength);
  }

  // ---------------------------------------------------------------------
  // Instagram handle

  /** The characters `[a-zA-Z0-9._]` a handle may contain after its `@`. */
  predicate IsHandleBodyChar(c: char) {
    ('a' <= c <= 'z') || ('A' <= c <= 'Z') || ('0' <= c <= '9') || c == '.' || c == '_'
  }

  /** The characters the normaliser keeps: `[@a-zA-Z0-9._]`. */
  predicate IsHandleChar(c: char) {
    c == '@' || IsHandleBodyChar(c)
  }

  /** `/^@[a-zA-Z0-9._]+$/`: an `@` followed by one or more body
      characters. */
  predicate HandleFormat(s: string) {
    |s| >= 2 && s[0] == '@' && forall i :: 1 <= i < |s| ==> IsHandleBodyChar(s[i])
  }

  /** `s` with an `@` put in front unless it already starts with one. */
  function WithAt(s: string): (r: string)
    ensures |r| > 0 && r[0] == '@'
    ensures StartsWith(s, "@") ==> r == s
    ensures !StartsWith(s, "@") ==> r == "@" + s
  {
    if StartsWith(s, "@") then s else "@" + s
  }

  /** The trimmed handle with an `@` in front and every character outside
      `[@a-zA-Z0-9._]` removed. */
  function NormalizeHandle(handle: string): (r: string)
    ensures |r| > 0 && r[0] == '@'
    ensures forall i :: 0 <= i < |r| ==> IsHandleChar(r[i])
    ensures forall c :: c in r <==> c in WithAt(Trim(handle)) && IsHandleChar(c)
    ensures IsSubseq(r, WithAt(Trim(handle)))
    ensures forall c :: multiset(r)[c] == if IsHandleChar(c) then multiset(WithAt(Trim(handle)))[c] else 0
  {
    var s := WithAt(Trim(handle));
    KeptHandleChars(s);
    Filter(s, IsHandleChar)
  }

  lemma KeptHandleChars(s: string)
    requires |s| > 0 && s[0] == '@'
    ensures var r := Filter(s, IsHandleChar);
      && |r| > 0 && r[0] == '@'
      && (forall i :: 0 <= i < |r| ==> IsHandleChar(r[i]))
      && (forall c :: c in r <==> c in s && IsHandleChar(c))
      && IsSubseq(r, s)
      && (forall c :: multiset(r)[c] == if IsHandleChar(c) then multiset(s)[c] else 0)
  {
    var r := Filter(s, IsHandleChar);
    assert r[0] == '@' by {
      assert r == [s[0]] + Filter(s[1..], IsHandleChar);
    }
    assert forall i :: 0 <= i < |r| ==> r[i] in r;
    FilterSubseq(s, IsHandleChar);
    FilterCounts(s, IsHandleChar);
  }

  /** The normalised handle when it is 2 to 31 characters long (1 to 30
      after the `@`) and has no second `@`. */
  function ValidateInstagramHandle(handle: string): (r: Result<string>)
    ensures r.Ok? ==> HandleFormat(r.value) && |r.value| <= 31
    ensures r.Ok? ==> r.value == NormalizeHandle(handle)
    ensures r.Err? ==> r.message == HandleLengthError || r.message == HandleFormatError
    ensures (r.Ok? <==> var n := NormalizeHandle(handle); 2 <= |n| <= 31 && HandleFormat(n))
    ensures r == Err(HandleLengthError) <==> !(2 <= |NormalizeHandle(handle)| <= 31)
  {
    assert |HandleFormatError| != |HandleLengthError|;
    var sanitized := NormalizeHandle(handle);
    if |sanitized| < 2 || |sanitized| > 31 then Err(HandleLengthError)
    else if !HandleFormat(sanitized) then Err(HandleFormatError)
    else Ok(sanitized)
  }

  /** The validator reads the handle only through its trimmed,
      `@`-prefixed form. */
  lemma HandleValidationByPrefixed(a: string, b: string)
    requires WithAt(Trim(a)) == WithAt(Trim(b))
    ensures ValidateInstagramHandle(a) == ValidateInstagramHandle(b)
  {
    assert NormalizeHandle(a) == NormalizeHandle(b);
  }

  /** Every well-formed handle of at most 31 characters is accepted as it
      is; with `ValidateInstagramHandle`'s contract, the accepted values are
      exactly these handles. */
  lemma WellFormedHandleAccepted(h: string)
    requires HandleFormat(h) && |h| <= 31
    ensures ValidateInstagramHandle(h) == Ok(h)
  {
    NormalizeWellFormed(h);
  }

  lemma NormalizeWellFormed(h: string)
    requires HandleFormat(h)
    ensures NormalizeHandle(h) == h
  {
    TrimWellFormed(h);
    StartsAt(h);
    AllHandleChars(h);
  }

  lemma StartsAt(h: string)
    requires HandleFormat(h)
    ensures WithAt(h) == h
  {
    assert h[..1] == "@";
  }

  lemma AllHandleChars(h: string)
    requires HandleFormat(h)
    ensures Filter(h, IsHandleChar) == h
  {
    assert forall i :: 0 <= i < |h| ==> IsHandleChar(h[i]);
    FilterAll(h, IsHandleChar);
  }

  lemma TrimWellFormed(h: string)
    requires HandleFormat(h)
    ensures Trim(h) == h
  {
    HandleCharNotWhitespace(h[0]);
    HandleCharNotWhitespace(h[|h| - 1]);
    TrimOfTrimmed(h);
  }

  lemma HandleCharNotWhitespace(c: char)
    requires IsHandleChar(c)
    ensures !IsWhitespace(c)
  {
  }

  /** Validating an accepted handle again gives it back. */
  lemma HandleIdempotent(h: string)
    requires ValidateInstagramHandle(h).Ok?
    ensures ValidateInstagramHandle(ValidateInstagramHandle(h).value) == ValidateInstagramHandle(h)
  {
    WellFormedHandleAccepted(ValidateInstagramHandle(h).value);
  }

  /** A bare name of 1 to 30 body characters gets its `@` added. */
  lemma BareHandleGetsAt(w: string)
    requires 1 <= |w| <= 30
    requires forall i :: 0 <= i < |w| ==> IsHandleBodyChar(w[i])
    ensures ValidateInstagramHandle(w) == Ok("@" + w)
  {
    HandleCharNotWhitespace(w[0]);
    HandleCharNotWhitespace(w[|w| - 1]);
    TrimOfTrimmed(w);
    assert !StartsWith(w, "@");
    var h := "@" + w;
    assert forall i :: 1 <= i < |h| ==> h[i] == w[i - 1];
    FilterAll(h, IsHandleChar);
  }

  /** The format error is reported exactly when the normalised handle has
      an acceptable length but a second `@`. */
  lemma HandleFormatErrorIff(handle: string)
    ensures ValidateInstagramHandle(handle) == Err(HandleFormatError)
      <==> (var n := NormalizeHandle(handle); 2 <= |n| <= 31 && '@' in n[1..])
  {
    var n := NormalizeHandle(handle);
    if |n| >= 2 {
      SecondAtIff(n);
    } else {
      assert n[1..] == [];
    }
  }

  /** A string of handle characters that starts with `@` and has at least
      two characters is well-formed exactly when it has no second `@`. */
  lemma SecondAtIff(n: string)
    requires |n| >= 2 && n[0] == '@'
    requires forall i :: 0 <= i < |n| ==> IsHandleChar(n[i])
    ensures HandleFormat(n) <==> '@' !in n[1..]
  {
    if !HandleFormat(n) {
      var i :| 1 <= i < |n| && !IsHandleBodyChar(n[i]);
      assert n[1..][i - 1] == '@';
    }
    if '@' in n[1..] {
      var j :| 0 <= j < |n| - 1 && n[1..][j] == '@';
      assert n[j + 1] == '@';
    }
  }

  /** A blank handle leaves only the added `@` and fails on length. */
  lemma BlankHandleRejected(handle: string)
    requires AllWhitespace(handle)
    ensures ValidateInstagramHandle(handle) == Err(HandleLengthError)
  {
    TrimEmptyIff(handle);
    assert WithAt(Trim(handle)) == "@";
    assert NormalizeHandle(handle) == "@" by {
      assert "@"[1..] == "";
    }
  }

  // ---------------------------------------------------------------------
  // Bio

  /** No bio (missing or empty) is stored as null; any other bio is
      sanitised to at most 500 characters. The "too long" error of the
      source cannot happen. */
  function ValidateBio(bio: Option<string>): (r: Result<Option<string>>)
    ensures r.Ok?
    ensures r.value.None? <==> bio.None? || bio.value == ""
    ensures r.value.Some? ==> |r.value.value| <= BioMaxLength && NoAngles(r.value.value)
    ensures r.value.Some? ==> r.value.value == Sanitize(bio.value, BioMaxLength)
  {
    if bio.None? || bio.value == "" then Ok(None)
    else
      var sanitized := Sanitize(bio.value, BioMaxLength);
      if |sanitized| > BioMaxLength then Err(BioTooLong) else Ok(Some(sanitized))
  }

  /** A bio of only whitespace is not empty, so it is kept, as an empty
      string rather than as null. */
  lemma BlankBioKeptEmpty(bio: string)
    requires bio != "" && AllWhitespace(bio)
    ensures ValidateBio(Some(bio)) == Ok(Some(""))
  {
    TrimEmptyIff(bio);
  }

  // ---------------------------------------------------------------------
  // The request

  /** The JSON body's three fields; `None` is a missing or null field. */
  datatype Body = Body(shopName: Option<string>, instagramHandle: Option<string>, bio: Option<string>)

  /** The `Authorization` header, if any, and the body, or the message of
      the parse error when the body is not JSON. */
  datatype Request = Request(authorization: Option<string>, body: Result<Body>)

  /** A validated application. */
  datatype Application = Application(shopName: string, instagramHandle: string, bio: Option<string>)

  const MissingFields := "Shop name and Instagram handle are required"

  /** The presence check and then the three validators, in the order the
      handler runs them; the first failure's message is the error. */
  function ValidateBody(body: Body): (r: Result<Application>)
    ensures r.Ok? <==> (Present(body.shopName) && Present(body.instagramHandle)
      && ValidateShopName(body.shopName.value).Ok?
      && ValidateInstagramHandle(body.instagramHandle.value).Ok?)
    ensures r.Ok? ==> 3 <= |r.value.shopName| <= ShopNameMaxLength && NoAngles(r.value.shopName)
    ensures r.Ok? ==> HandleFormat(r.value.instagramHandle) && |r.value.instagramHandle| <= 31
    ensures r.Ok? && r.value.bio.Some? ==> |r.value.bio.value| <= BioMaxLength
    ensures r.Ok? ==> r.value.bio == ValidateBio(body.bio).value
    ensures !Present(body.shopName) || !Present(body.instagramHandle) ==> r == Err(MissingFields)
    ensures (Present(body.shopName) && Present(body.instagramHandle)
      && ValidateShopName(body.shopName.value).Err?) ==> r == Err(ShopNameTooShort)
    ensures r.Err? ==> r.message in {MissingFields, ShopNameTooShort, HandleLengthError, HandleFormatError}
  {
    if !Present(body.shopName) || !Present(body.instagramHandle) then Err(MissingFields)
    else
      match ValidateShopName(body.shopName.value)
      case Err(m) => Err(m)
      case Ok(name) =>
        match ValidateInstagramHandle(body.instagramHandle.value)
        case Err(m) => Err(m)
        case Ok(handle) =>
          match ValidateBio(body.bio)
          case Err(m) => Err(m)
          case Ok(bio) => Ok(Application(name, handle, bio))
  }

  // ---------------------------------------------------------------------
  // The database snapshot

  /** What the database answers to the three writes: whether the profile
      update fails, the message of the shop insert's error if it fails,
      whether the (unchecked) rollback update takes effect, and the id the
      database gives a new shop. */
  datatype Writes = Writes(profileUpdateFails: bool, shopInsertError: Option<string>, rollbackApplies: bool,
                          newShopId: string)

  datatype Outcome = Outcome(response: Response, db: Db)

  function NamedAs(name: string): Shop -> bool {
    (s: Shop) => s.shopName == name
  }

  function HandleIs(handle: string): Shop -> bool {
    (s: Shop) => s.instagramHandle == handle
  }

  /** `update({ is_seller, seller_bio }).eq('id', uid)`. */
  function SetSeller(ps: seq<Profile>, uid: string, isSeller: bool, bio: Option<string>): (r: seq<Profile>)
    ensures |r| == |ps|
    ensures forall i :: 0 <= i < |ps| ==> r[i].id == ps[i].id
    ensures forall i :: 0 <= i < |ps| && ps[i].id != uid ==> r[i] == ps[i]
    ensures forall i :: 0 <= i < |ps| && ps[i].id == uid ==> r[i] == Profile(uid, isSeller, bio)
  {
    seq(|ps|, i requires 0 <= i < |ps| => if ps[i].id == uid then Profile(uid, isSeller, bio) else ps[i])
  }

  /** The update touches the rows of `uid` and only them, so the lookup of
      `uid` finds as many rows as before, each now carrying the new
      values. */
  lemma {:induction false} SetSellerRows(ps: seq<Profile>, uid: string, isSeller: bool, bio: Option<string>)
    ensures |Filter(SetSeller(ps, uid, isSeller, bio), HasId(uid))| == |Filter(ps, HasId(uid))|
    ensures forall p :: p in Filter(SetSeller(ps, uid, isSeller, bio), HasId(uid)) ==> p == Profile(uid, isSeller, bio)
    decreases |ps|
  {
    var r := SetSeller(ps, uid, isSeller, bio);
    if |ps| > 0 {
      assert r[1..] == SetSeller(ps[1..], uid, isSeller, bio);
      SetSellerRows(ps[1..], uid, isSeller, bio);
      assert Filter(r, HasId(uid)) == (if HasId(uid)(r[0]) then [r[0]] else []) + Filter(r[1..], HasId(uid));
      assert Filter(ps, HasId(uid)) == (if HasId(uid)(ps[0]) then [ps[0]] else []) + Filter(ps[1..], HasId(uid));
    }
    forall p | p in Filter(r, HasId(uid)) ensures p == Profile(uid, isSeller, bio) {
      var i :| 0 <= i < |r| && r[i] == p;
    }
  }

  // ---------------------------------------------------------------------
  // The handler

  const ProfileFetchFailed := "Failed to fetch profile. Please try again."
  const AlreadySellerPhrase := "already a seller"
  const AlreadySeller := "You are " + AlreadySellerPhrase
  const ShopExists := "A shop already exists for this account"
  const ServerErrorPrefix := "Server error: "
  const NameTaken := "Shop name is already taken"
  const HandleTaken := "Instagram handle is already taken"
  const ProfileUpdateFailed := "Failed to update profile. Please try again."
  const ShopCreateFailedPrefix := "Failed to create shop: "
  const Created := "Seller account created successfully!"

  /** Steps 2 and 3: the caller's profile (exactly one row, which
      `single()` demands), its seller flag, and the caller's shop. */
  function CheckAccount(uid: string, db: Db): (r: Gate<()>)
    ensures r.Pass? <==> AccountFree(uid, db)
    ensures r.Refuse? ==> r.response.status in {400, 500}
    ensures |Filter(db.profiles, HasId(uid))| == 1 && Filter(db.profiles, HasId(uid))[0].isSeller
      ==> r == Refuse(Response(400, AlreadySeller))
    ensures |Filter(db.profiles, HasId(uid))| != 1 ==> r == Refuse(Response(500, ProfileFetchFailed))
    ensures (|Filter(db.profiles, HasId(uid))| == 1 && !Filter(db.profiles, HasId(uid))[0].isSeller
      && SingleRow(Filter(db.shops, OwnedBy(uid))))
      ==> r == Refuse(Response(400, ShopExists))
  {
    var profile := Filter(db.profiles, HasId(uid));
    if |profile| != 1 then Refuse(Response(500, ProfileFetchFailed))
    else if profile[0].isSeller then Refuse(Response(400, AlreadySeller))
    else if SingleRow(Filter(db.shops, OwnedBy(uid))) then Refuse(Response(400, ShopExists))
    else Pass(())
  }

  /** The caller has exactly one profile, it is not a seller's, and no
      shop is found for them. */
  ghost predicate AccountFree(uid: string, db: Db) {
    && |Filter(db.profiles, HasId(uid))| == 1
    && !Filter(db.profiles, HasId(uid))[0].isSeller
    && !SingleRow(Filter(db.shops, OwnedBy(uid)))
  }

  /** Steps 4 to 6: the body is parsed and validated, and the name and then
      the handle are looked up among the shops. */
  function CheckApplication(body: Result<Body>, db: Db): (r: Gate<Application>)
    ensures r.Pass? <==> (body.Ok? && ValidateBody(body.value).Ok?
      && ApplicationFree(ValidateBody(body.value).value, db))
    ensures r.Pass? ==> r.value == ValidateBody(body.value).value
    ensures r.Refuse? ==> r.response.status in {400, 409, 500}
    ensures body.Err? ==> r == Refuse(Response(500, ServerErrorPrefix + body.message))
    ensures body.Ok? && ValidateBody(body.value).Err? ==> r == Refuse(Response(400, ValidateBody(body.value).message))
    ensures (body.Ok? && ValidateBody(body.value).Ok?
      && SingleRow(Filter(db.shops, NamedAs(ValidateBody(body.value).value.shopName))))
      ==> r == Refuse(Response(409, NameTaken))
    ensures (body.Ok? && ValidateBody(body.value).Ok?
      && !SingleRow(Filter(db.shops, NamedAs(ValidateBody(body.value).value.shopName)))
      && SingleRow(Filter(db.shops, HandleIs(ValidateBody(body.value).value.instagramHandle))))
      ==> r == Refuse(Response(409, HandleTaken))
  {
    if body.Err? then Refuse(Response(500, ServerErrorPrefix + body.message))
    else
      match ValidateBody(body.value)
      case Err(m) => Refuse(Response(400, m))
      case Ok(app) =>
        if SingleRow(Filter(db.shops, NamedAs(app.shopName))) then Refuse(Response(409, NameTaken))
        else if SingleRow(Filter(db.shops, HandleIs(app.instagramHandle))) then Refuse(Response(409, HandleTaken))
        else Pass(app)
  }

  /** No single shop holds the application's name or its handle. */
  ghost predicate ApplicationFree(app: Application, db: Db) {
    && !SingleRow(Filter(db.shops, NamedAs(app.shopName)))
    && !SingleRow(Filter(db.shops, HandleIs(app.instagramHandle)))
  }

  /** The result of the checks that precede every write. */
  datatype Admission = Admitted(uid: string, app: Application) | Refused(response: Response)

  /** Steps 1 to 6 in the handler's order; every refusal comes before any
      write. */
  function Admit(req: Request, sessions: map<string, string>, db: Db): (r: Admission)
    ensures r.Refused? ==> r.response.status in {400, 401, 409, 500}
    ensures (r.Refused? && r.response.status == 401) <==> UserOf(req.authorization, sessions).None?
    ensures r.Admitted? <==> (UserOf(req.authorization, sessions).Some?
      && AccountFree(UserOf(req.authorization, sessions).value, db)
      && CheckApplication(req.body, db).Pass?)
    ensures r.Admitted? ==> r.uid == UserOf(req.authorization, sessions).value
    ensures r.Admitted? ==> req.body.Ok? && ValidateBody(req.body.value) == Ok(r.app) && ApplicationFree(r.app, db)
  {
    match Authenticate(req.authorization, sessions)
    case Refuse(response) => Refused(response)
    case Pass(uid) =>
      match CheckAccount(uid, db)
      case Refuse(response) => Refused(response)
      case Pass(_) =>
        match CheckApplication(req.body, db)
        case Refuse(response) => Refused(response)
        case Pass(app) => Admitted(uid, app)
  }

  /** Steps 7 and 8: promote the profile, create the shop, and on a failed
      insert set the profile back to a non-seller without a bio. */
  function Commit(db: Db, uid: string, app: Application, writes: Writes): (r: Outcome)
    ensures r.response.status in {201, 500}
    ensures r.response.status == 201 <==> !writes.profileUpdateFails && writes.shopInsertError.None?
    ensures r.response.status == 201 ==> r.db.shops == db.shops + [Shop(writes.newShopId, uid, app.shopName, app.instagramHandle, app.bio)]
    ensures r.response.status != 201 ==> r.db.shops == db.shops
    ensures |r.db.profiles| == |db.profiles|
    ensures forall i :: 0 <= i < |db.profiles| && db.profiles[i].id != uid ==> r.db.profiles[i] == db.profiles[i]
    ensures r.response.status == 201 ==>
      forall i :: 0 <= i < |db.profiles| && db.profiles[i].id == uid ==> r.db.profiles[i] == Profile(uid, true, app.bio)
  {
    if writes.profileUpdateFails then Outcome(Response(500, ProfileUpdateFailed), db)
    else
      var promoted := SetSeller(db.profiles, uid, true, app.bio);
      match writes.shopInsertError
      case Some(m) =>
        var profiles := if writes.rollbackApplies then SetSeller(promoted, uid, false, None) else promoted;
        Outcome(Response(500, ShopCreateFailedPrefix + m), Db(profiles, db.shops))
      case None =>
        Outcome(Response(201, Created), Db(promoted, db.shops + [Shop(writes.newShopId, uid, app.shopName, app.instagramHandle, app.bio)]))
  }

  /** `POST /api/seller/register`. */
  function Register(req: Request, sessions: map<string, string>, db: Db, writes: Writes): (r: Outcome)
    ensures r.response.status in {201, 400, 401, 409, 500}
    ensures Admit(req, sessions, db).Refused? ==> r == Outcome(Admit(req, sessions, db).response, db)
    ensures r.response.status == 201 <==>
      Admit(req, sessions, db).Admitted? && !writes.profileUpdateFails && writes.shopInsertError.None?
    ensures r.response.status != 201 ==> r.db.shops == db.shops
    ensures |r.db.profiles| == |db.profiles|
    ensures forall i :: 0 <= i < |db.profiles| && Some(db.profiles[i].id) != UserOf(req.authorization, sessions) ==>
      r.db.profiles[i] == db.profiles[i]
  {
    match Admit(req, sessions, db)
    case Refused(response) => Outcome(response, db)
    case Admitted(uid, app) => Commit(db, uid, app, writes)
  }

  // ---------------------------------------------------------------------
  // Properties of the handler

  /** A successful registration adds exactly the validated shop, owned by
      the caller, and makes the caller's profile a seller with the
      validated bio. */
  lemma SuccessCreatesShop(req: Request, sessions: map<string, string>, db: Db, writes: Writes)
    requires Register(req, sessions, db, writes).response.status == 201
    ensures UserOf(req.authorization, sessions).Some? && req.body.Ok? && ValidateBody(req.body.value).Ok?
    ensures var uid := UserOf(req.authorization, sessions).value;
      var app := ValidateBody(req.body.value).value;
      var r := Register(req, sessions, db, writes);
      && r.response == Response(201, Created)
      && r.db.shops == db.shops + [Shop(writes.newShopId, uid, app.shopName, app.instagramHandle, app.bio)]
      && (forall i :: 0 <= i < |db.profiles| && db.profiles[i].id == uid ==> r.db.profiles[i] == Profile(uid, true, app.bio))
  {
  }

  /** Once a registration succeeds, the same user's next registration is
      refused as "already a seller", whatever it sends. */
  lemma SecondRegistrationRefused(req: Request, sessions: map<string, string>, db: Db, writes: Writes,
                                  again: Request, writes2: Writes)
    requires Register(req, sessions, db, writes).response.status == 201
    requires UserOf(again.authorization, sessions) == UserOf(req.authorization, sessions)
    ensures Register(again, sessions, Register(req, sessions, db, writes).db, writes2)
      == Outcome(Response(400, AlreadySeller), Register(req, sessions, db, writes).db)
  {
    var adm := Admit(req, sessions, db);
    var uid := adm.uid;
    var db2 := Register(req, sessions, db, writes).db;
    assert db2.profiles == SetSeller(db.profiles, uid, true, adm.app.bio);
    SetSellerRows(db.profiles, uid, true, adm.app.bio);
    var rows := Filter(db2.profiles, HasId(uid));
    assert rows[0] in rows;
  }

  /** The caller is signed in, has exactly one profile, is not a seller and
      has no shop found for them. */
  ghost predicate AccountOk(req: Request, sessions: map<string, string>, db: Db) {
    UserOf(req.authorization, sessions).Some? && AccountFree(UserOf(req.authorization, sessions).value, db)
  }

  /** A refused request writes nothing, and the refusals come in the
      handler's order: the header before anything else, the account before
      the body, the body before the uniqueness lookups, the name before the
      handle. */
  lemma RefusalOrder(req: Request, sessions: map<string, string>, db: Db, writes: Writes)
    ensures BearerToken(req.authorization).None? ==>
      Register(req, sessions, db, writes) == Outcome(Response(401, Unauthorized), db)
    ensures BearerToken(req.authorization).Some? && UserOf(req.authorization, sessions).None? ==>
      Register(req, sessions, db, writes) == Outcome(Response(401, InvalidToken), db)
    ensures var uid := UserOf(req.authorization, sessions);
      uid.Some? && |Filter(db.profiles, HasId(uid.value))| != 1
      ==> Register(req, sessions, db, writes) == Outcome(Response(500, ProfileFetchFailed), db)
    ensures var uid := UserOf(req.authorization, sessions);
      uid.Some? && |Filter(db.profiles, HasId(uid.value))| == 1 && Filter(db.profiles, HasId(uid.value))[0].isSeller
      ==> Register(req, sessions, db, writes) == Outcome(Response(400, AlreadySeller), db)
    ensures var uid := UserOf(req.authorization, sessions);
      (uid.Some? && |Filter(db.profiles, HasId(uid.value))| == 1 && !Filter(db.profiles, HasId(uid.value))[0].isSeller
      && SingleRow(Filter(db.shops, OwnedBy(uid.value))))
      ==> Register(req, sessions, db, writes) == Outcome(Response(400, ShopExists), db)
    ensures AccountOk(req, sessions, db) && req.body.Err? ==>
      Register(req, sessions, db, writes) == Outcome(Response(500, ServerErrorPrefix + req.body.message), db)
    ensures AccountOk(req, sessions, db) && req.body.Ok? && ValidateBody(req.body.value).Err? ==>
      Register(req, sessions, db, writes) == Outcome(Response(400, ValidateBody(req.body.value).message), db)
    ensures (AccountOk(req, sessions, db) && req.body.Ok? && ValidateBody(req.body.value).Ok?
      && SingleRow(Filter(db.shops, NamedAs(ValidateBody(req.body.value).value.shopName)))) ==>
      Register(req, sessions, db, writes) == Outcome(Response(409, NameTaken), db)
    ensures (AccountOk(req, sessions, db) && req.body.Ok? && ValidateBody(req.body.value).Ok?
      && !SingleRow(Filter(db.shops, NamedAs(ValidateBody(req.body.value).value.shopName)))
      && SingleRow(Filter(db.shops, HandleIs(ValidateBody(req.body.value).value.instagramHandle)))) ==>
      Register(req, sessions, db, writes) == Outcome(Response(409, HandleTaken), db)
  {
  }

  /** When the shop insert fails and the rollback takes effect, the shop
      table is untouched, the caller's profile is a non-seller without a
      bio, and the same request made again with working writes succeeds. */
  lemma RetryAfterRollback(req: Request, sessions: map<string, string>, db: Db, writes: Writes)
    requires Admit(req, sessions, db).Admitted?
    requires !writes.profileUpdateFails && writes.shopInsertError.Some? && writes.rollbackApplies
    ensures var r := Register(req, sessions, db, writes);
      && r.response == Response(500, ShopCreateFailedPrefix + writes.shopInsertError.value)
      && r.db.shops == db.shops
      && (forall i :: 0 <= i < |db.profiles| && db.profiles[i].id == Admit(req, sessions, db).uid
            ==> r.db.profiles[i] == Profile(Admit(req, sessions, db).uid, false, None))
      && Register(req, sessions, r.db, Writes(false, None, true, writes.newShopId)).response.status == 201
  {
    var adm := Admit(req, sessions, db);
    var uid := adm.uid;
    var promoted := SetSeller(db.profiles, uid, true, adm.app.bio);
    var back := SetSeller(promoted, uid, false, None);
    SetSellerRows(db.profiles, uid, true, adm.app.bio);
    SetSellerRows(promoted, uid, false, None);
    var db2 := Db(back, db.shops);
    assert Register(req, sessions, db, writes).db == db2;
    var rows := Filter(back, HasId(uid));
    assert rows[0] in rows;
    assert Admit(req, sessions, db2).Admitted?;
  }

  /** The rollback's own result is never checked: when it does not take
      effect the caller is left a seller without a new shop, and every later
      registration by them is refused as "already a seller". */
  lemma FailedRollbackStrandsSeller(req: Request, sessions: map<string, string>, db: Db, writes: Writes,
                                    again: Request, writes2: Writes)
    requires Admit(req, sessions, db).Admitted?
    requires !writes.profileUpdateFails && writes.shopInsertError.Some? && !writes.rollbackApplies
    requires UserOf(again.authorization, sessions) == UserOf(req.authorization, sessions)
    ensures Register(req, sessions, db, writes).db.shops == db.shops
    ensures Register(again, sessions, Register(req, sessions, db, writes).db, writes2).response
      == Response(400, AlreadySeller)
  {
    var adm := Admit(req, sessions, db);
    var uid := adm.uid;
    var db2 := Register(req, sessions, db, writes).db;
    assert db2.profiles == SetSeller(db.profiles, uid, true, adm.app.bio);
    SetSellerRows(db.profiles, uid, true, adm.app.bio);
    var rows := Filter(db2.profiles, HasId(uid));
    assert rows[0] in rows;
  }
}

=== FILE: seqs.dfy ===
/** Sequence helpers used throughout the model: duplicate freedom, the
    first-occurrence deduplication that `Array.from(new Set(xs))` performs,
    order-preserving filtering, prefixes (`slice(0, n)`) and a sort by a
    real-valued key. Occurrence counts are `multiset(s)[x]`. */
module Seqs {

  /** No element occurs twice. */
  predicate NoDup<T(==)>(s: seq<T>) {
    forall i, j :: 0 <= i < j < |s| ==> s[i] != s[j]
  }

  /** `a` is `b` with some elements left out, the rest kept in order. */
  ghost predicate IsSubseq<T>(a: seq<T>, b: seq<T>)
    decreases |b|
  {
    if |a| == 0 then true
    else if |b| == 0 then false
    else if a[0] == b[0] then IsSubseq(a[1..], b[1..])
    else IsSubseq(a, b[1..])
  }

  /** The position of the first occurrence of `x` in `s`. */
  function FirstIndex<T(==)>(s: seq<T>, x: T): (k: nat)
    requires x in s
    ensures k < |s| && s[k] == x && x !in s[..k]
  {
    if s[0] == x then 0
    else
      assert s == [s[0]] + s[1..];
      var k := 1 + FirstIndex(s[1..], x);
      assert s[..k] == [s[0]] + s[1..][..k - 1];
      k
  }

  lemma FirstIndexUnique<T(!new)>(s: seq<T>, x: T, k: nat)
    requires k < |s| && s[k] == x && x !in s[..k]
    ensures FirstIndex(s, x) == k
  {
  }

  /** Keeps the first occurrence of every element, in the order the
      elements first occur: what inserting `s` into a JavaScript `Set`
      one by one and reading it back yields. */
  function Dedup<T(==,!new)>(s: seq<T>): (r: seq<T>)
    ensures NoDup(r)
    ensures forall x :: x in r <==> x in s
    ensures |r| <= |s|
    decreases |s|
  {
    if |s| == 0 then []
    else
      var init := s[..|s| - 1];
      var last := s[|s| - 1];
      assert s == init + [last];
      var d := Dedup(init);
      if last in d then d else d + [last]
  }

  lemma FirstIndexOfPrefix<T(!new)>(s: seq<T>, n: nat, x: T)
    requires n <= |s| && x in s[..n]
    ensures FirstIndex(s, x) == FirstIndex(s[..n], x)
  {
    var k := FirstIndex(s[..n], x);
    assert s[..n][..k] == s[..k];
    FirstIndexUnique(s, x, k);
  }

  /** The elements of `Dedup(s)` appear in the order of their first
      occurrence in `s`. */
  lemma {:induction false} DedupFirstOccurrenceOrder<T(!new)>(s: seq<T>)
    ensures forall i, j :: 0 <= i < j < |Dedup(s)| ==>
      FirstIndex(s, Dedup(s)[i]) < FirstIndex(s, Dedup(s)[j])
    decreases |s|
  {
    if |s| > 0 {
      var init := s[..|s| - 1];
      var last := s[|s| - 1];
      assert s == init + [last];
      var d := Dedup(init);
      DedupFirstOccurrenceOrder(init);
      var r := Dedup(s);
      forall i, j | 0 <= i < j < |r|
        ensures FirstIndex(s, r[i]) < FirstIndex(s, r[j])
      {
        assert r[i] in d;
        FirstIndexOfPrefix(s, |s| - 1, r[i]);
        if j < |d| {
          FirstIndexOfPrefix(s, |s| - 1, r[j]);
        } else {
          assert r[j] == last && last !in init;
          assert s[..|s| - 1] == init;
          FirstIndexUnique(s, last, |s| - 1);
        }
      }
    }
  }

  /** Deduplicating a duplicate-free sequence changes nothing. */
  lemma {:induction false} DedupOfNoDup<T(!new)>(s: seq<T>)
    requires NoDup(s)
    ensures Dedup(s) == s
    decreases |s|
  {
    if |s| > 0 {
      var init := s[..|s| - 1];
      assert NoDup(init);
      DedupOfNoDup(init);
      assert s[|s| - 1] !in init;
      assert s == init + [s[|s| - 1]];
    }
  }

  /** The elements of `s` that satisfy `p`, in their original order and
      with their original multiplicities (`Array.prototype.filter`). */
  function Filter<T(!new)>(s: seq<T>, p: T -> bool): (r: seq<T>)
    ensures |r| <= |s|
    ensures forall x :: x in r <==> x in s && p(x)
    decreases |s|
  {
    if |s| == 0 then []
    else
      assert s == [s[0]] + s[1..];
      var rest := Filter(s[1..], p);
      if p(s[0]) then [s[0]] + rest else rest
  }

  /** The filter keeps each satisfying element with its multiplicity and
      drops every other element. */
  lemma {:induction false} FilterCounts<T(!new)>(s: seq<T>, p: T -> bool)
    ensures forall x :: multiset(Filter(s, p))[x] == if p(x) then multiset(s)[x] else 0
    decreases |s|
  {
    if |s| > 0 {
      assert s == [s[0]] + s[1..];
      FilterCounts(s[1..], p);
    }
  }

  /** The filter keeps the order of the elements it keeps. */
  lemma {:induction false} FilterSubseq<T(!new)>(s: seq<T>, p: T -> bool)
    ensures IsSubseq(Filter(s, p), s)
    decreases |s|
  {
    if |s| > 0 {
      FilterSubseq(s[1..], p);
      var r := Filter(s[1..], p);
      if p(s[0]) {
        assert ([s[0]] + r)[1..] == r;
      } else {
        SubseqDropHead(r, s);
      }
    }
  }

  lemma {:induction false} SubseqDropHead<T>(a: seq<T>, b: seq<T>)
    requires |b| > 0 && IsSubseq(a, b[1..])
    ensures IsSubseq(a, b)
    decreases |b|, |a|
  {
    if |a| > 0 && a[0] == b[0] {
      SubseqTail(a, b[1..]);
    }
  }

  /** Dropping the head of a subsequence keeps it a subsequence. */
  lemma {:induction false} SubseqTail<T>(a: seq<T>, b: seq<T>)
    requires |a| > 0 && IsSubseq(a, b)
    ensures IsSubseq(a[1..], b)
    decreases |b|, |a|
  {
    if |b| > 0 {
      if a[0] == b[0] {
        SubseqDropHead(a[1..], b);
      } else {
        SubseqTail(a, b[1..]);
        SubseqDropHead(a[1..], b);
      }
    }
  }

  /** Filtering distributes over appending one element. */
  lemma {:induction false} FilterSnoc<T(!new)>(s: seq<T>, x: T, p: T -> bool)
    ensures Filter(s + [x], p) == Filter(s, p) + (if p(x) then [x] else [])
    decreases |s|
  {
    if |s| == 0 {
      assert s + [x] == [x];
      assert [x][1..] == [];
    } else {
      var t := s + [x];
      assert t[0] == s[0];
      assert t[1..] == s[1..] + [x];
      FilterSnoc(s[1..], x, p);
      assert Filter(t, p) == (if p(s[0]) then [s[0]] else []) + Filter(t[1..], p);
      assert Filter(s, p) == (if p(s[0]) then [s[0]] else []) + Filter(s[1..], p);
    }
  }

  /** Filtering twice with the same predicate is filtering once. */
  lemma {:induction false} FilterIdempotent<T(!new)>(s: seq<T>, p: T -> bool)
    ensures Filter(Filter(s, p), p) == Filter(s, p)
    decreases |s|
  {
    if |s| > 0 {
      FilterIdempotent(s[1..], p);
    }
  }

  /** Two predicates that agree on the elements of `s` filter it alike. */
  lemma {:induction false} FilterAgree<T(!new)>(s: seq<T>, p: T -> bool, q: T -> bool)
    requires forall i :: 0 <= i < |s| ==> p(s[i]) == q(s[i])
    ensures Filter(s, p) == Filter(s, q)
    decreases |s|
  {
    if |s| > 0 {
      FilterAgree(s[1..], p, q);
    }
  }

  /** Filtering keeps every element when all of them satisfy `p`. */
  lemma {:induction false} FilterAll<T(!new)>(s: seq<T>, p: T -> bool)
    requires forall i :: 0 <= i < |s| ==> p(s[i])
    ensures Filter(s, p) == s
    decreases |s|
  {
    if |s| > 0 {
      FilterAll(s[1..], p);
    }
  }

  /** A subsequence of a duplicate-free sequence is duplicate-free. */
  lemma {:induction false} SubseqNoDup<T>(a: seq<T>, b: seq<T>)
    requires IsSubseq(a, b) && NoDup(b)
    ensures NoDup(a)
    decreases |b|
  {
    if |a| > 0 && |b| > 0 {
      assert NoDup(b[1..]);
      if a[0] == b[0] {
        SubseqNoDup(a[1..], b[1..]);
        SubseqElements(a[1..], b[1..]);
        assert a[0] !in b[1..];
        assert forall j :: 1 <= j < |a| ==> a[j] == a[1..][j - 1];
      } else {
        SubseqNoDup(a, b[1..]);
      }
    }
  }

  lemma {:induction false} SubseqElements<T>(a: seq<T>, b: seq<T>)
    requires IsSubseq(a, b)
    ensures forall x :: x in a ==> x in b
    decreases |b|
  {
    if |a| > 0 && |b| > 0 {
      if a[0] == b[0] {
        SubseqElements(a[1..], b[1..]);
        assert a == [a[0]] + a[1..];
      } else {
        SubseqElements(a, b[1..]);
      }
      assert b == [b[0]] + b[1..];
    }
  }

  /** `s.slice(0, n)`: the first `n` elements, or all of them. */
  function Take<T>(s: seq<T>, n: nat): (r: seq<T>)
    ensures |r| == if n < |s| then n else |s|
    ensures r == s[..|r|]
  {
    if n < |s| then s[..n] else s
  }

  /** Every adjacent-or-not pair is in non-increasing key order. */
  ghost predicate SortedDesc<T>(s: seq<T>, key: T -> real) {
    forall i, j :: 0 <= i < j < |s| ==> key(s[i]) >= key(s[j])
  }

  /** Every element of a permutation of `t + [x]` is bounded by `b` when
      every element of `t` and `x` are. */
  lemma BoundedPermutation<T>(rest: seq<T>, t: seq<T>, x: T, key: T -> real, b: real)
    requires multiset(rest) == multiset(t) + multiset{x}
    requires key(x) <= b
    requires forall j :: 0 <= j < |t| ==> key(t[j]) <= b
    ensures forall j :: 0 <= j < |rest| ==> key(rest[j]) <= b
  {
    forall j | 0 <= j < |rest|
      ensures key(rest[j]) <= b
    {
      assert rest[j] in multiset(rest);
      if rest[j] != x {
        assert rest[j] in multiset(t);
      }
    }
  }

  function Insert<T>(x: T, s: seq<T>, key: T -> real): (r: seq<T>)
    requires SortedDesc(s, key)
    ensures SortedDesc(r, key)
    ensures multiset(r) == multiset(s) + multiset{x}
    decreases |s|
  {
    if |s| == 0 || key(x) >= key(s[0]) then [x] + s
    else
      assert s == [s[0]] + s[1..];
      var rest := Insert(x, s[1..], key);
      BoundedPermutation(rest, s[1..], x, key, key(s[0]));
      [s[0]] + rest
  }

  /** A sort by non-increasing `key`. The result is a permutation of the
      input; nothing is promised about the relative order of equal keys. */
  function SortDesc<T>(s: seq<T>, key: T -> real): (r: seq<T>)
    ensures SortedDesc(r, key)
    ensures multiset(r) == multiset(s)
    ensures |r| == |s|
    decreases |s|
  {
    if |s| == 0 then []
    else
      assert s == [s[0]] + s[1..];
      Insert(s[0], SortDesc(s[1..], key), key)
  }

  /** Taking a prefix of a sorted sequence keeps the largest keys: every
      element left out is at most every element kept. */
  lemma TakeOfSortedKeepsLargest<T>(s: seq<T>, n: nat, key: T -> real, y: T)
    requires SortedDesc(s, key)
    requires y in multiset(s) - multiset(Take(s, n))
    ensures forall i :: 0 <= i < |Take(s, n)| ==> key(y) <= key(Take(s, n)[i])
  {
    var t := Take(s, n);
    assert s == t + s[|t|..];
    assert multiset(s) == multiset(t) + multiset(s[|t|..]);
    assert y in s[|t|..];
    var j :| |t| <= j < |s| && s[j] == y;
  }

  /** Duplicate freedom is "every element occurs at most once". */
  lemma {:induction false} NoDupMultiset<T>(s: seq<T>)
    ensures NoDup(s) <==> forall x :: multiset(s)[x] <= 1
    decreases |s|
  {
    if |s| > 0 {
      var init := s[..|s| - 1];
      var last := s[|s| - 1];
      assert s == init + [last];
      NoDupMultiset(init);
      if NoDup(s) {
        assert NoDup(init) && last !in init;
        forall x ensures multiset(s)[x] <= 1 {
          assert multiset(s)[x] == multiset(init)[x] + (if x == last then 1 else 0);
        }
      }
      if forall x :: multiset(s)[x] <= 1 {
        forall x ensures multiset(init)[x] <= 1 {
          assert multiset(s)[x] == multiset(init)[x] + (if x == last then 1 else 0);
        }
        assert multiset(s)[last] == multiset(init)[last] + 1;
        assert last !in init;
        forall i, j | 0 <= i < j < |s| ensures s[i] != s[j] {
          if j < |s| - 1 {
            assert s[i] == init[i] && s[j] == init[j];
          } else {
            assert s[i] == init[i];
          }
        }
      }
    }
  }

  /** A permutation of a duplicate-free sequence is duplicate-free. */
  lemma PermutationNoDup<T>(a: seq<T>, b: seq<T>)
    requires NoDup(a) && multiset(a) == multiset(b)
    ensures NoDup(b)
  {
    NoDupMultiset(a);
    NoDupMultiset(b);
  }

  /** A filter of a sorted sequence is sorted. */
  lemma {:induction false} FilterSorted<T(!new)>(s: seq<T>, p: T -> bool, key: T -> real)
    requires SortedDesc(s, key)
    ensures SortedDesc(Filter(s, p), key)
    decreases |s|
  {
    if |s| > 0 {
      assert s == [s[0]] + s[1..];
      FilterSorted(s[1..], p, key);
      var rest := Filter(s[1..], p);
      assert forall j :: 0 <= j < |rest| ==> rest[j] in s[1..];
    }
  }

  /** No two elements share a key. */
  ghost predicate KeysDistinct<T, K>(s: seq<T>, key: T -> K) {
    forall i, j :: 0 <= i < j < |s| ==> key(s[i]) != key(s[j])
  }

  /** A filter keeps the keys of its elements distinct. */
  lemma {:induction false} FilterKeysDistinct<T(!new), K>(s: seq<T>, p: T -> bool, key: T -> K)
    requires KeysDistinct(s, key)
    ensures KeysDistinct(Filter(s, p), key)
    decreases |s|
  {
    if |s| > 0 {
      assert s == [s[0]] + s[1..];
      FilterKeysDistinct(s[1..], p, key);
      var rest := Filter(s[1..], p);
      assert forall j :: 0 <= j < |rest| ==> rest[j] in s[1..];
    }
  }

  /** A duplicate-free sequence has as many distinct elements as entries. */
  lemma {:induction false} NoDupCard<T>(s: seq<T>)
    requires NoDup(s)
    ensures |set x | x in s| == |s|
    decreases |s|
  {
    if |s| > 0 {
      var init, last := s[..|s| - 1], s[|s| - 1];
      NoDupCard(init);
      assert s == init + [last];
      assert (set x | x in s) == (set x | x in init) + {last};
    }
  }

  /** A duplicate-free sequence whose elements all occur in another
      duplicate-free sequence is no longer than it. */
  lemma NoDupSubsetLength<T>(a: seq<T>, b: seq<T>)
    requires NoDup(a) && NoDup(b)
    requires forall x :: x in a ==> x in b
    ensures |a| <= |b|
  {
    NoDupCard(a);
    NoDupCard(b);
    SubsetCard(set x | x in a, set x | x in b);
  }

  lemma {:induction false} SubsetCard<T>(a: set<T>, b: set<T>)
    requires a <= b
    ensures |a| <= |b|
    decreases a
  {
    if a != {} {
      var x :| x in a;
      SubsetCard(a - {x}, b - {x});
    }
  }

  /** A non-empty sequence has a first element. */
  lemma HeadIn<T>(s: seq<T>)
    ensures |s| > 0 ==> s[0] in s
  {
  }

  /** A prefix of a duplicate-free sequence is duplicate-free. */
  lemma PrefixNoDup<T>(a: seq<T>, n: nat)
    requires NoDup(a) && n <= |a|
    ensures NoDup(a[..n])
  {
  }

  lemma TopKFacts<T>(s: seq<T>, key: T -> real, limit: nat, sorted: seq<T>, r: seq<T>)
    requires SortedDesc(sorted, key) && multiset(sorted) == multiset(s)
    requires r == Take(sorted, limit)
    ensures multiset(r) <= multiset(s)
    ensures forall x :: x in r ==> x in s
    ensures forall y :: y in s && y !in r ==> forall i :: 0 <= i < |r| ==> key(y) <= key(r[i])
    ensures NoDup(s) ==> NoDup(r)
  {
    assert sorted == r + sorted[|r|..];
    assert multiset(sorted) == multiset(r) + multiset(sorted[|r|..]);
    forall x | x in r ensures x in s {
      assert x in multiset(r);
      assert x in multiset(sorted);
      assert x in multiset(s);
    }
    forall y | y in s && y !in r
      ensures forall i :: 0 <= i < |r| ==> key(y) <= key(r[i])
    {
      assert y in multiset(sorted);
      assert y !in multiset(r);
      TakeOfSortedKeepsLargest(sorted, limit, key, y);
    }
    if NoDup(s) {
      PermutationNoDup(s, sorted);
      PrefixNoDup(sorted, |r|);
    }
  }

  /** The `limit` largest elements by `key`, largest first: a prefix of a
      sort by non-increasing key (`s.sort(...).slice(0, limit)`). */
  function TopK<T(!new)>(s: seq<T>, key: T -> real, limit: nat): (r: seq<T>)
    ensures |r| == if limit < |s| then limit else |s|
    ensures multiset(r) <= multiset(s)
    ensures forall x :: x in r ==> x in s
    ensures SortedDesc(r, key)
    ensures forall y :: y in s && y !in r ==> forall i :: 0 <= i < |r| ==> key(y) <= key(r[i])
    ensures NoDup(s) ==> NoDup(r)
  {
    var sorted := SortDesc(s, key);
    var r := Take(sorted, limit);
    TopKFacts(s, key, limit, sorted, r);
    r
  }
}

=== FILE: strings.dfy ===
/** The string operations the validators and filters use, on `seq<char>`:
    `String.prototype.trim`, removal of `<` and `>`, truncation,
    `startsWith`, `includes` and an ASCII `toLowerCase`. */
module Strings {
  import opened Seqs

  /** The characters `trim` removes: ECMAScript's WhiteSpace (tab, vertical
      tab, form feed, space, no-break space, byte order mark and the Zs
      category) and LineTerminator (LF, CR, line and paragraph separators). */
  predicate IsWhitespace(c: char) {
    || c == ' ' || c == '\t' || c == '\n' || c == '\r'
    || c == '\U{000B}' || c == '\U{000C}' || c == '\U{00A0}' || c == '\U{FEFF}'
    || c == '\U{1680}' || ('\U{2000}' <= c <= '\U{200A}')
    || c == '\U{2028}' || c == '\U{2029}' || c == '\U{202F}' || c == '\U{205F}'
    || c == '\U{3000}'
  }

  /** Every character of `s` is whitespace (the empty string included). */
  predicate AllWhitespace(s: string) {
    forall i :: 0 <= i < |s| ==> IsWhitespace(s[i])
  }

  function TrimStart(s: string): (r: string)
    ensures |r| <= |s|
    ensures r == s[|s| - |r|..]
    ensures AllWhitespace(s[..|s| - |r|])
    ensures |r| > 0 ==> !IsWhitespace(r[0])
    decreases |s|
  {
    if |s| > 0 && IsWhitespace(s[0]) then
      var r := TrimStart(s[1..]);
      assert s[..|s| - |r|] == [s[0]] + s[1..][..|s| - 1 - |r|];
      r
    else s
  }

  function TrimEnd(s: string): (r: string)
    ensures |r| <= |s|
    ensures r == s[..|r|]
    ensures AllWhitespace(s[|r|..])
    ensures |r| > 0 ==> !IsWhitespace(r[|r| - 1])
    decreases |s|
  {
    if |s| > 0 && IsWhitespace(s[|s| - 1]) then
      var r := TrimEnd(s[..|s| - 1]);
      assert s[|r|..] == s[..|s| - 1][|r|..] + [s[|s| - 1]];
      r
    else s
  }

  /** `s.trim()`: `s` without its leading and trailing whitespace (that it
      is a slice of `s` with only whitespace around it is `TrimIsSlice`). */
  function Trim(s: string): (r: string)
    ensures |r| <= |s|
    ensures |r| > 0 ==> !IsWhitespace(r[0]) && !IsWhitespace(r[|r| - 1])
  {
    var t := TrimStart(s);
    var r := TrimEnd(t);
    assert |r| > 0 ==> r[0] == t[0];
    r
  }

  /** The trim is the part of `s` between a whitespace prefix and a
      whitespace suffix. */
  lemma TrimIsSlice(s: string)
    ensures exists i :: (0 <= i <= |s| - |Trim(s)| && Trim(s) == s[i..i + |Trim(s)|]
      && AllWhitespace(s[..i]) && AllWhitespace(s[i + |Trim(s)|..]))
  {
    TrimFacts(s, TrimStart(s), Trim(s));
  }

  lemma TrimFacts(s: string, t: string, r: string)
    requires |t| <= |s| && t == s[|s| - |t|..] && AllWhitespace(s[..|s| - |t|])
    requires |t| > 0 ==> !IsWhitespace(t[0])
    requires |r| <= |t| && r == t[..|r|] && AllWhitespace(t[|r|..])
    requires |r| > 0 ==> !IsWhitespace(r[|r| - 1])
    ensures |r| <= |s|
    ensures |r| > 0 ==> !IsWhitespace(r[0]) && !IsWhitespace(r[|r| - 1])
    ensures exists i :: (0 <= i <= |s| - |r| && r == s[i..i + |r|]
      && AllWhitespace(s[..i]) && AllWhitespace(s[i + |r|..]))
  {
    var i := |s| - |t|;
    assert |r| > 0 ==> r[0] == t[0];
    assert r == s[i..i + |r|];
    assert s[i + |r|..] == t[|r|..];
  }

  /** A string is blank (its trim is empty) exactly when it is all
      whitespace. */
  lemma TrimEmptyIff(s: string)
    ensures Trim(s) == "" <==> AllWhitespace(s)
  {
    var r := Trim(s);
    TrimIsSlice(s);
    if r == "" {
      var i :| 0 <= i <= |s| && AllWhitespace(s[..i]) && AllWhitespace(s[i..]);
      assert s == s[..i] + s[i..];
      forall k | 0 <= k < |s| ensures IsWhitespace(s[k]) {
        if k < i { assert s[..i][k] == s[k]; } else { assert s[i..][k - i] == s[k]; }
      }
    }
    TrimStartOfBlank(s);
  }

  lemma {:induction false} TrimStartOfBlank(s: string)
    ensures AllWhitespace(s) ==> TrimStart(s) == ""
    decreases |s|
  {
    if |s| > 0 {
      TrimStartOfBlank(s[1..]);
      assert AllWhitespace(s) ==> AllWhitespace(s[1..]);
    }
  }

  /** Trimming a trimmed string changes nothing. */
  lemma TrimIdempotent(s: string)
    ensures Trim(Trim(s)) == Trim(s)
  {
    TrimOfTrimmed(Trim(s));
  }

  /** A string with no whitespace at either end is its own trim. */
  lemma TrimOfTrimmed(s: string)
    requires |s| > 0 ==> !IsWhitespace(s[0]) && !IsWhitespace(s[|s| - 1])
    ensures Trim(s) == s
  {
  }

  predicate IsAngle(c: char) {
    c == '<' || c == '>'
  }

  predicate NotAngle(c: char) {
    !IsAngle(c)
  }

  /** No `<` or `>` anywhere in `s`. */
  predicate NoAngles(s: string) {
    forall i :: 0 <= i < |s| ==> !IsAngle(s[i])
  }

  /** `s.replace(/[<>]/g, '')`. */
  function StripAngles(s: string): (r: string)
    ensures forall i :: 0 <= i < |r| ==> !IsAngle(r[i])
    ensures forall c :: c in r <==> c in s && !IsAngle(c)
    ensures IsSubseq(r, s)
    ensures forall c :: multiset(r)[c] == if IsAngle(c) then 0 else multiset(s)[c]
  {
    var r := Filter(s, NotAngle);
    assert forall i :: 0 <= i < |r| ==> r[i] in r;
    FilterSubseq(s, NotAngle);
    FilterCounts(s, NotAngle);
    r
  }

  /** `input.trim().replace(/[<>]/g, '').slice(0, maxLength)`: the
      sanitiser both API routes apply to free-text fields. */
  function Sanitize(input: string, maxLength: nat): (r: string)
    ensures |r| <= maxLength
    ensures forall i :: 0 <= i < |r| ==> !IsAngle(r[i])
    ensures |r| <= |StripAngles(Trim(input))|
    ensures r == StripAngles(Trim(input))[..|r|]
    ensures |r| == maxLength || r == StripAngles(Trim(input))
  {
    Take(StripAngles(Trim(input)), maxLength)
  }

  /** Sanitising a string that is already trimmed, free of angle brackets
      and within the length limit returns it unchanged. */
  lemma SanitizeOfClean(s: string, maxLength: nat)
    requires |s| <= maxLength
    requires |s| > 0 ==> !IsWhitespace(s[0]) && !IsWhitespace(s[|s| - 1])
    requires forall i :: 0 <= i < |s| ==> !IsAngle(s[i])
    ensures Sanitize(s, maxLength) == s
  {
    TrimOfTrimmed(s);
    FilterAll(s, NotAngle);
  }

  /** Sanitising ignores whitespace around the input. */
  lemma SanitizeOfTrim(s: string, maxLength: nat)
    ensures Sanitize(Trim(s), maxLength) == Sanitize(s, maxLength)
  {
    TrimIdempotent(s);
  }

  /** `s.startsWith(prefix)`. */
  predicate StartsWith(s: string, prefix: string) {
    |prefix| <= |s| && s[..|prefix|] == prefix
  }

  /** `s.includes(sub)`: `sub` occurs in `s` at some position. */
  predicate Contains(s: string, sub: string)
    decreases |s|
  {
    StartsWith(s, sub) || (|s| > 0 && Contains(s[1..], sub))
  }

  /** A string containing `sub` contains each character of `sub`, so a
      character missing from `s` rules the match out. */
  lemma {:induction false} NotContainsByChar(s: string, sub: string, c: char)
    requires c in sub && c !in s
    ensures !Contains(s, sub)
    decreases |s|
  {
    if |s| > 0 {
      assert forall k :: 0 <= k < |s| - 1 ==> s[1..][k] == s[k + 1];
      NotContainsByChar(s[1..], sub, c);
    }
    PrefixChars(s, sub);
  }

  lemma PrefixChars(s: string, sub: string)
    ensures StartsWith(s, sub) ==> forall x :: x in sub ==> x in s
  {
    if StartsWith(s, sub) {
      forall x | x in sub ensures x in s {
        var k :| 0 <= k < |sub| && sub[k] == x;
        assert s[..|sub|][k] == x;
      }
    }
  }

  /** A string contains each of its suffixes. */
  lemma {:induction false} ContainsSuffix(a: string, b: string)
    ensures Contains(a + b, b)
    decreases |a|
  {
    if |a| == 0 {
      assert a + b == b;
      assert (a + b)[..|b|] == b;
    } else {
      ContainsSuffix(a[1..], b);
      assert (a + b)[1..] == a[1..] + b;
    }
  }

  /** ASCII case folding (the model's stand-in for `toLowerCase`). */
  function LowerChar(c: char): (r: char)
    ensures 'A' <= c <= 'Z' ==> 'a' <= r <= 'z' && r as int == c as int + 32
    ensures !('A' <= c <= 'Z') ==> r == c
  {
    if 'A' <= c <= 'Z' then (c as int + 32) as char else c
  }

  function Lower(s: string): (r: string)
    ensures |r| == |s|
    ensures forall i :: 0 <= i < |s| ==> r[i] == LowerChar(s[i])
  {
    seq(|s|, i requires 0 <= i < |s| => LowerChar(s[i]))
  }

  /** Lower-casing is idempotent. */
  lemma LowerIdempotent(s: string)
    ensures Lower(Lower(s)) == Lower(s)
  {
  }
}

=== FILE: tag_manager.dfy ===
/** The tag picker of the product form: the selected `{ tag, category }`
    list it hands to its parent, and the per-category expand flags. */
module TagManager {
  import opened Seqs
  import opened Tags
  import Flags

  datatype Selected = Selected(tag: string, category: TagCategory)

  function TagOf(t: Selected): string {
    t.tag
  }

  function OtherTag(tag: string): Selected -> bool {
    (t: Selected) => t.tag != tag
  }

  /** `selectedTags.some(t => t.tag === tag)`. */
  predicate IsSelected(tags: seq<Selected>, tag: string) {
    exists i :: 0 <= i < |tags| && tags[i].tag == tag
  }

  /** `addTag`: nothing happens when an entry with the same tag string is
      selected; otherwise the new entry goes at the end. */
  function AddTag(tags: seq<Selected>, tag: string, category: TagCategory): (r: seq<Selected>)
    ensures IsSelected(tags, tag) ==> r == tags
    ensures !IsSelected(tags, tag) ==> |r| == |tags| + 1 && r[|tags|] == Selected(tag, category)
    ensures |tags| <= |r| && r[..|tags|] == tags
    ensures IsSelected(r, tag)
  {
    if IsSelected(tags, tag) then tags
    else
      var r := tags + [Selected(tag, category)];
      assert r[|tags|].tag == tag;
      r
  }

  /** `removeTag`: every entry with that tag string goes, the rest stay in
      order. */
  function RemoveTag(tags: seq<Selected>, tag: string): (r: seq<Selected>)
    ensures !IsSelected(r, tag)
    ensures forall x :: x in r <==> x in tags && x.tag != tag
    ensures IsSubseq(r, tags)
    ensures forall x :: multiset(r)[x] == if x.tag == tag then 0 else multiset(tags)[x]
  {
    var r := Filter(tags, OtherTag(tag));
    FilterSubseq(tags, OtherTag(tag));
    FilterCounts(tags, OtherTag(tag));
    assert forall i :: 0 <= i < |r| ==> r[i] in r;
    r
  }

  /** Adding keeps the tag strings of the selection distinct. */
  lemma AddKeepsDistinct(tags: seq<Selected>, tag: string, category: TagCategory)
    requires KeysDistinct(tags, TagOf)
    ensures KeysDistinct(AddTag(tags, tag, category), TagOf)
  {
    var r := AddTag(tags, tag, category);
    if !IsSelected(tags, tag) {
      forall i, j | 0 <= i < j < |r| ensures TagOf(r[i]) != TagOf(r[j]) {
        if j == |tags| {
          assert r[i] == tags[i];
        } else {
          assert r[i] == tags[i] && r[j] == tags[j];
        }
      }
    }
  }

  /** Removing keeps the tag strings of the selection distinct. */
  lemma RemoveKeepsDistinct(tags: seq<Selected>, tag: string)
    requires KeysDistinct(tags, TagOf)
    ensures KeysDistinct(RemoveTag(tags, tag), TagOf)
  {
    FilterKeysDistinct(tags, OtherTag(tag), TagOf);
  }

  /** Removing a tag that is not selected changes nothing. */
  lemma RemoveAbsent(tags: seq<Selected>, tag: string)
    requires !IsSelected(tags, tag)
    ensures RemoveTag(tags, tag) == tags
  {
    forall i | 0 <= i < |tags| ensures OtherTag(tag)(tags[i]) {
    }
    FilterAll(tags, OtherTag(tag));
  }

  /** Adding a fresh tag and then removing it restores the selection. */
  lemma AddThenRemove(tags: seq<Selected>, tag: string, category: TagCategory)
    requires !IsSelected(tags, tag)
    ensures RemoveTag(AddTag(tags, tag, category), tag) == tags
  {
    var x := Selected(tag, category);
    assert !OtherTag(tag)(x);
    FilterSnoc(tags, x, OtherTag(tag));
    RemoveAbsent(tags, tag);
    assert Filter(tags, OtherTag(tag)) + [] == tags;
  }

  /** The expand flags the picker starts with: style, type and condition
      open, the other five closed. */
  const InitialExpanded: map<TagCategory, bool> := map[
    Style := true, Material := false, Season := false, Size := false,
    Type := true, Color := false, Condition := true, Vibe := false]

  /** `toggleCategory`: flips the named category's flag and no other. */
  function ToggleCategory(expanded: map<TagCategory, bool>, category: TagCategory): (r: map<TagCategory, bool>)
    ensures Flags.IsOn(r, category) <==> !Flags.IsOn(expanded, category)
    ensures forall c :: c != category ==> Flags.IsOn(r, c) == Flags.IsOn(expanded, c)
    ensures r.Keys == expanded.Keys + {category}
  {
    var r := Flags.Toggle(expanded, category);
    forall c | c != category ensures Flags.IsOn(r, c) == Flags.IsOn(expanded, c) {
      Flags.ToggleOthersRead(expanded, category, c);
    }
    r
  }

  /** Every category has a flag from the start, and toggling keeps that. */
  lemma ExpandedStaysTotal(expanded: map<TagCategory, bool>, category: TagCategory)
    requires forall c: TagCategory :: c in expanded
    ensures forall c: TagCategory :: c in ToggleCategory(expanded, category)
    ensures ToggleCategory(ToggleCategory(expanded, category), category) == expanded
  {
    Flags.ToggleTwice(expanded, category);
  }

  lemma InitialExpandedTotal()
    ensures forall c: TagCategory :: c in InitialExpanded
  {
    forall c: TagCategory ensures c in InitialExpanded {
      match c
      case Style => case Material => case Season => case Size =>
      case Type => case Color => case Condition => case Vibe =>
    }
  }
}

=== FILE: tags.dfy ===
/** The tag vocabulary and the pure parts of the tag helpers in
    `src/lib/tags.ts`: the fixed categories sellers choose tags from,
    `extractTagsFromProducts`, and the counting, ranking and truncation
    `getProductsByTags` performs on the `product_tags` rows it reads. */
module Tags {
  import opened Results
  import opened Seqs
  import opened Records

  datatype TagCategory = Style | Material | Season | Size | Type | Color | Condition | Vibe

  /** A `product_tags` row. */
  datatype ProductTag = ProductTag(productId: string, tag: string, category: TagCategory)

  /** The keys of `TAG_CATEGORIES`, in declaration order. */
  const AllCategories: seq<TagCategory> :=
    [Style, Material, Season, Size, Type, Color, Condition, Vibe]

  // The tag lists of `TAG_CATEGORIES`, one per category.
  const StyleTags: seq<string> := ["Vintage", "Streetwear", "Formal", "Casual", "Bohemian", "Minimalist", "Y2K", "Grunge", "Preppy", "Retro"]
  const MaterialTags: seq<string> := ["Cotton", "Silk", "Wool", "Linen", "Denim", "Leather", "Polyester", "Velvet", "Corduroy", "Suede"]
  const SeasonTags: seq<string> := ["Summer", "Winter", "Spring", "Fall", "All-Season"]
  const SizeTags: seq<string> := ["XS", "S", "M", "L", "XL", "XXL", "One-Size"]
  const TypeTags: seq<string> := ["Shirt", "Pants", "Dress", "Jacket", "Skirt", "Sweater", "T-Shirt", "Shorts", "Coat", "Blazer", "Jeans", "Hoodie"]
  const ColorTags: seq<string> := ["Black", "White", "Red", "Blue", "Green", "Yellow", "Purple", "Pink", "Brown", "Gray", "Multicolor"]
  const ConditionTags: seq<string> := ["Like-New", "Excellent", "Good", "Fair", "Well-Loved"]
  const VibeTags: seq<string> := ["Trendy", "Classic", "Edgy", "Comfortable", "Luxury", "Eco-Friendly", "Unique", "Statement"]

  /** `TAG_CATEGORIES[c]`. */
  function Vocabulary(c: TagCategory): seq<string> {
    match c
    case Style => StyleTags
    case Material => MaterialTags
    case Season => SeasonTags
    case Size => SizeTags
    case Type => TypeTags
    case Color => ColorTags
    case Condition => ConditionTags
    case Vibe => VibeTags
  }

  /** There are exactly eight categories, each with a non-empty list of
      tags. */
  lemma VocabularyShape()
    ensures |AllCategories| == 8 && NoDup(AllCategories)
    ensures forall c: TagCategory :: c in AllCategories
    ensures forall c: TagCategory :: |Vocabulary(c)| > 0 && NoDup(Vocabulary(c))
  {
    NoDupStyle(); NoDupMaterial(); NoDupSeason(); NoDupSize();
    NoDupType(); NoDupColor(); NoDupCondition(); NoDupVibe();
    forall c: TagCategory ensures c in AllCategories {
      match c
      case Style => assert AllCategories[0] == c;
      case Material => assert AllCategories[1] == c;
      case Season => assert AllCategories[2] == c;
      case Size => assert AllCategories[3] == c;
      case Type => assert AllCategories[4] == c;
      case Color => assert AllCategories[5] == c;
      case Condition => assert AllCategories[6] == c;
      case Vibe => assert AllCategories[7] == c;
    }
  }

  // One lemma per category keeps each list's string comparisons apart.
  lemma NoDupStyle() ensures NoDup(StyleTags) {}
  lemma NoDupMaterial() ensures NoDup(MaterialTags) {}
  lemma NoDupSeason() ensures NoDup(SeasonTags) {}
  lemma NoDupSize() ensures NoDup(SizeTags) {}
  lemma NoDupType() ensures NoDup(TypeTags) {}
  lemma NoDupColor() ensures NoDup(ColorTags) {}
  lemma NoDupCondition() ensures NoDup(ConditionTags) {}
  lemma NoDupVibe() ensures NoDup(VibeTags) {}

  /** No entry of `a` equals an entry of `b`. */
  predicate Disjoint(a: seq<string>, b: seq<string>) {
    forall i, j :: 0 <= i < |a| && 0 <= j < |b| ==> a[i] != b[j]
  }

  // One lemma per pair of categories keeps each string comparison small.
  lemma DisjointStyleMaterial() ensures Disjoint(StyleTags, MaterialTags) {}
  lemma DisjointStyleSeason() ensures Disjoint(StyleTags, SeasonTags) {}
  lemma DisjointStyleSize() ensures Disjoint(StyleTags, SizeTags) {}
  lemma DisjointStyleType() ensures Disjoint(StyleTags, TypeTags) {}
  lemma DisjointStyleColor() ensures Disjoint(StyleTags, ColorTags) {}
  lemma DisjointStyleCondition() ensures Disjoint(StyleTags, ConditionTags) {}
  lemma DisjointStyleVibe() ensures Disjoint(StyleTags, VibeTags) {}
  lemma DisjointMaterialSeason() ensures Disjoint(MaterialTags, SeasonTags) {}
  lemma DisjointMaterialSize() ensures Disjoint(MaterialTags, SizeTags) {}
  lemma DisjointMaterialType() ensures Disjoint(MaterialTags, TypeTags) {}
  lemma DisjointMaterialColor() ensures Disjoint(MaterialTags, ColorTags) {}
  lemma DisjointMaterialCondition() ensures Disjoint(MaterialTags, ConditionTags) {}
  lemma DisjointMaterialVibe() ensures Disjoint(MaterialTags, VibeTags) {}
  lemma DisjointSeasonSize() ensures Disjoint(SeasonTags, SizeTags) {}
  lemma DisjointSeasonType() ensures Disjoint(SeasonTags, TypeTags) {}
  lemma DisjointSeasonColor() ensures Disjoint(SeasonTags, ColorTags) {}
  lemma DisjointSeasonCondition() ensures Disjoint(SeasonTags, ConditionTags) {}
  lemma DisjointSeasonVibe() ensures Disjoint(SeasonTags, VibeTags) {}
  lemma DisjointSizeType() ensures Disjoint(SizeTags, TypeTags) {}
  lemma DisjointSizeColor() ensures Disjoint(SizeTags, ColorTags) {}
  lemma DisjointSizeCondition() ensures Disjoint(SizeTags, ConditionTags) {}
  lemma DisjointSizeVibe() ensures Disjoint(SizeTags, VibeTags) {}
  lemma DisjointTypeColor() ensures Disjoint(TypeTags, ColorTags) {}
  lemma DisjointTypeCondition() ensures Disjoint(TypeTags, ConditionTags) {}
  lemma DisjointTypeVibe() ensures Disjoint(TypeTags, VibeTags) {}
  lemma DisjointColorCondition() ensures Disjoint(ColorTags, ConditionTags) {}
  lemma DisjointColorVibe() ensures Disjoint(ColorTags, VibeTags) {}
  lemma DisjointConditionVibe() ensures Disjoint(ConditionTags, VibeTags) {}

  /** No tag string belongs to two categories, so a tag determines its
      category. */
  lemma VocabularyDisjoint(c1: TagCategory, c2: TagCategory, t: string)
    requires t in Vocabulary(c1) && t in Vocabulary(c2)
    ensures c1 == c2
  {
    DisjointStyleMaterial();
    DisjointStyleSeason();
    DisjointStyleSize();
    DisjointStyleType();
    DisjointStyleColor();
    DisjointStyleCondition();
    DisjointStyleVibe();
    DisjointMaterialSeason();
    DisjointMaterialSize();
    DisjointMaterialType();
    DisjointMaterialColor();
    DisjointMaterialCondition();
    DisjointMaterialVibe();
    DisjointSeasonSize();
    DisjointSeasonType();
    DisjointSeasonColor();
    DisjointSeasonCondition();
    DisjointSeasonVibe();
    DisjointSizeType();
    DisjointSizeColor();
    DisjointSizeCondition();
    DisjointSizeVibe();
    DisjointTypeColor();
    DisjointTypeCondition();
    DisjointTypeVibe();
    DisjointColorCondition();
    DisjointColorVibe();
    DisjointConditionVibe();
  }

  /** The tag strings of a list of rows, in row order. */
  function TagStrings(rows: seq<ProductTag>): (r: seq<string>)
    ensures |r| == |rows|
    ensures forall i :: 0 <= i < |rows| ==> r[i] == rows[i].tag
  {
    seq(|rows|, i requires 0 <= i < |rows| => rows[i].tag)
  }

  /** The tag column distributes over concatenation. */
  lemma TagStringsAppend(a: seq<ProductTag>, b: seq<ProductTag>)
    ensures TagStrings(a + b) == TagStrings(a) + TagStrings(b)
  {
  }

  /** The product ids of a list of rows, in row order. */
  function ProductIds(rows: seq<ProductTag>): (r: seq<string>)
    ensures |r| == |rows|
    ensures forall i :: 0 <= i < |rows| ==> r[i] == rows[i].productId
  {
    seq(|rows|, i requires 0 <= i < |rows| => rows[i].productId)
  }

  /** A string is in the tag column exactly when some row carries it. */
  lemma TagStringsMembers(rows: seq<ProductTag>)
    ensures forall t :: t in TagStrings(rows) <==> exists row :: row in rows && row.tag == t
  {
    forall t | t in TagStrings(rows) ensures exists row :: row in rows && row.tag == t {
      var i :| 0 <= i < |rows| && TagStrings(rows)[i] == t;
      assert rows[i] in rows;
    }
    forall row | row in rows ensures row.tag in TagStrings(rows) {
      var i :| 0 <= i < |rows| && rows[i] == row;
      assert TagStrings(rows)[i] == row.tag;
    }
  }

  /** An id is in the product-id column exactly when some row carries it. */
  lemma ProductIdsMembers(rows: seq<ProductTag>)
    ensures forall x :: x in ProductIds(rows) <==> exists row :: row in rows && row.productId == x
  {
    forall x | x in ProductIds(rows) ensures exists row :: row in rows && row.productId == x {
      var i :| 0 <= i < |rows| && ProductIds(rows)[i] == x;
      assert rows[i] in rows;
    }
    forall row | row in rows ensures row.productId in ProductIds(rows) {
      var i :| 0 <= i < |rows| && rows[i] == row;
      assert ProductIds(rows)[i] == row.productId;
    }
  }

  /** Every tag string of a list of row lists, visited in `forEach` order. */
  function FlattenTags(productTags: seq<seq<ProductTag>>): (r: seq<string>)
    ensures forall x :: x in r <==>
      exists i, j :: 0 <= i < |productTags| && 0 <= j < |productTags[i]| && productTags[i][j].tag == x
    decreases |productTags|
  {
    if |productTags| == 0 then []
    else
      var init := productTags[..|productTags| - 1];
      var last := productTags[|productTags| - 1];
      var r := FlattenTags(init) + TagStrings(last);
      assert forall i :: 0 <= i < |init| ==> init[i] == productTags[i];
      r
  }

  /** `extractTagsFromProducts`: every tag string of the input once, in
      first-occurrence order. */
  function ExtractTags(productTags: seq<seq<ProductTag>>): (r: seq<string>)
    ensures NoDup(r)
    ensures forall x :: x in r ==> x in FlattenTags(productTags)
    ensures forall x :: x in r <==>
      exists i, j :: 0 <= i < |productTags| && 0 <= j < |productTags[i]| && productTags[i][j].tag == x
    ensures forall i, j :: 0 <= i < j < |r| ==>
      FirstIndex(FlattenTags(productTags), r[i]) < FirstIndex(FlattenTags(productTags), r[j])
  {
    DedupFirstOccurrenceOrder(FlattenTags(productTags));
    Dedup(FlattenTags(productTags))
  }

  /** The rows of `product_tags` whose tag is one of `tagNames`
      (`.in('tag', tagNames)`), in table order. */
  function RowsWithTags(table: seq<ProductTag>, tagNames: seq<string>): (r: seq<ProductTag>)
    ensures forall x :: x in r <==> x in table && x.tag in tagNames
    ensures IsSubseq(r, table)
  {
    FilterSubseq(table, (row: ProductTag) => row.tag in tagNames);
    Filter(table, (row: ProductTag) => row.tag in tagNames)
  }

  /** The product-id column of a non-empty list of rows, split at its last
      row. */
  lemma SnocIds(rows: seq<ProductTag>)
    requires |rows| > 0
    ensures var ids, init := ProductIds(rows), ProductIds(rows[..|rows| - 1]);
      && Dedup(ids) == (if rows[|rows| - 1].productId in init then Dedup(init) else Dedup(init) + [rows[|rows| - 1].productId])
      && (forall x :: x in ids <==> x in init || x == rows[|rows| - 1].productId)
  {
    var ids, init := ProductIds(rows), ProductIds(rows[..|rows| - 1]);
    assert ids == init + [rows[|rows| - 1].productId];
    assert ids[..|ids| - 1] == init;
  }

  /** `t` maps each product that has a row, in first-row order, to its
      number of rows. */
  ghost predicate CountTable(t: Record<nat>, rows: seq<ProductTag>) {
    && t.Valid()
    && t.keys == Dedup(ProductIds(rows))
    && (forall id :: id in t.at <==> id in ProductIds(rows))
    && (forall id :: id in t.at ==> t.at[id] == multiset(ProductIds(rows))[id])
  }

  /** The per-product match counter of `getProductsByTags`: every row adds
      one to its product's count, created on the first row for that
      product. */
  function CountMatches(rows: seq<ProductTag>): (t: Record<nat>)
    ensures CountTable(t, rows)
    decreases |rows|
  {
    if |rows| == 0 then Empty()
    else
      var t := CountMatches(rows[..|rows| - 1]);
      var id := rows[|rows| - 1].productId;
      var r := t.Put(id, (if id in t.at then t.at[id] else 0) + 1);
      CountStep(rows, t, r);
      r
  }

  lemma CountStep(rows: seq<ProductTag>, t: Record<nat>, r: Record<nat>)
    requires |rows| > 0 && CountTable(t, rows[..|rows| - 1])
    requires var id := rows[|rows| - 1].productId;
      r == t.Put(id, (if id in t.at then t.at[id] else 0) + 1)
    ensures CountTable(r, rows)
  {
    var id := rows[|rows| - 1].productId;
    SnocIds(rows);
    assert r.keys == if id in t.at then t.keys else t.keys + [id];
    assert r.at == t.at[id := (if id in t.at then t.at[id] else 0) + 1];
    CountStepValues(rows, t.at, r.at);
  }

  lemma CountStepValues(rows: seq<ProductTag>, before: map<string, nat>, after: map<string, nat>)
    requires |rows| > 0
    requires forall x :: x in before <==> x in ProductIds(rows[..|rows| - 1])
    requires forall x :: x in before ==> before[x] == multiset(ProductIds(rows[..|rows| - 1]))[x]
    requires var id := rows[|rows| - 1].productId;
      after == before[id := (if id in before then before[id] else 0) + 1]
    ensures forall x :: x in after ==> after[x] == multiset(ProductIds(rows))[x]
  {
    var id := rows[|rows| - 1].productId;
    var init := ProductIds(rows[..|rows| - 1]);
    assert ProductIds(rows) == init + [id];
    assert multiset(ProductIds(rows)) == multiset(init) + multiset{id};
    assert id !in before ==> multiset(init)[id] == 0;
  }

  function CountKey(e: (string, nat)): real {
    e.1 as real
  }

  function FirstOfPairs(s: seq<(string, nat)>): (r: seq<string>)
    ensures |r| == |s|
    ensures forall i :: 0 <= i < |s| ==> r[i] == s[i].0
  {
    seq(|s|, i requires 0 <= i < |s| => s[i].0)
  }

  lemma EntryShape(t: Record<nat>, x: (string, nat))
    requires t.Valid() && x in t.Entries()
    ensures x.0 in t.at && x.1 == t.at[x.0]
  {
    var i :| 0 <= i < |t.keys| && t.Entries()[i] == x;
  }

  lemma EntryPresent(t: Record<nat>, k: string)
    requires t.Valid() && k in t.at
    ensures (k, t.at[k]) in t.Entries()
  {
    var i :| 0 <= i < |t.keys| && t.keys[i] == k;
    assert t.Entries()[i] == (k, t.at[k]);
  }

  /** `Object.entries(counts).sort((a, b) => b[1] - a[1]).slice(0, limit)
      .map(([id]) => id)`. */
  function TopByCount(counts: Record<nat>, limit: nat): (ids: seq<string>)
    requires counts.Valid()
    ensures |ids| == if limit < |counts.keys| then limit else |counts.keys|
    ensures NoDup(ids)
    ensures forall i :: 0 <= i < |ids| ==> ids[i] in counts.at
    ensures forall i, j :: 0 <= i < j < |ids| ==> counts.at[ids[i]] >= counts.at[ids[j]]
    ensures forall k :: k in counts.at && k !in ids ==>
      forall i :: 0 <= i < |ids| ==> counts.at[k] <= counts.at[ids[i]]
  {
    var entries := counts.Entries();
    var ranked := TopK(entries, CountKey, limit);
    var ids := FirstOfPairs(ranked);
    TopByCountFacts(counts, limit, entries, ranked, ids);
    ids
  }

  lemma TopByCountFacts(counts: Record<nat>, limit: nat, entries: seq<(string, nat)>,
                        ranked: seq<(string, nat)>, ids: seq<string>)
    requires counts.Valid() && entries == counts.Entries()
    requires ranked == TopK(entries, CountKey, limit) && ids == FirstOfPairs(ranked)
    ensures NoDup(ids)
    ensures forall i :: 0 <= i < |ids| ==> ids[i] in counts.at && ranked[i].1 == counts.at[ids[i]]
    ensures forall i, j :: 0 <= i < j < |ids| ==> counts.at[ids[i]] >= counts.at[ids[j]]
    ensures forall k :: k in counts.at && k !in ids ==>
      forall i :: 0 <= i < |ids| ==> counts.at[k] <= counts.at[ids[i]]
  {
    RankedShape(counts, ranked, ids);
    RankedSorted(counts, ranked, ids);
    RankedTop(counts, entries, ranked, ids);
  }

  lemma RankedShape(counts: Record<nat>, ranked: seq<(string, nat)>, ids: seq<string>)
    requires counts.Valid() && ids == FirstOfPairs(ranked) && NoDup(ranked)
    requires forall x :: x in ranked ==> x in counts.Entries()
    ensures forall i :: 0 <= i < |ids| ==> ids[i] in counts.at && ranked[i].1 == counts.at[ids[i]]
    ensures NoDup(ids)
  {
    forall i | 0 <= i < |ids|
      ensures ids[i] in counts.at && ranked[i].1 == counts.at[ids[i]]
    {
      assert ranked[i] in ranked;
      EntryShape(counts, ranked[i]);
    }
    forall i, j | 0 <= i < j < |ids| ensures ids[i] != ids[j] {
      assert ranked[i] != ranked[j];
    }
  }

  lemma RankedSorted(counts: Record<nat>, ranked: seq<(string, nat)>, ids: seq<string>)
    requires counts.Valid() && ids == FirstOfPairs(ranked) && SortedDesc(ranked, CountKey)
    requires forall i :: 0 <= i < |ids| ==> ids[i] in counts.at && ranked[i].1 == counts.at[ids[i]]
    ensures forall i, j :: 0 <= i < j < |ids| ==> counts.at[ids[i]] >= counts.at[ids[j]]
  {
    forall i, j | 0 <= i < j < |ids|
      ensures counts.at[ids[i]] >= counts.at[ids[j]]
    {
      assert CountKey(ranked[i]) >= CountKey(ranked[j]);
    }
  }

  lemma RankedTop(counts: Record<nat>, entries: seq<(string, nat)>, ranked: seq<(string, nat)>, ids: seq<string>)
    requires counts.Valid() && entries == counts.Entries() && ids == FirstOfPairs(ranked)
    requires forall i :: 0 <= i < |ids| ==> ids[i] in counts.at && ranked[i].1 == counts.at[ids[i]]
    requires forall y :: y in entries && y !in ranked ==>
      forall i :: 0 <= i < |ranked| ==> CountKey(y) <= CountKey(ranked[i])
    ensures forall k :: k in counts.at && k !in ids ==>
      forall i :: 0 <= i < |ids| ==> counts.at[k] <= counts.at[ids[i]]
  {
    forall k | k in counts.at && k !in ids
      ensures forall i :: 0 <= i < |ids| ==> counts.at[k] <= counts.at[ids[i]]
    {
      EntryPresent(counts, k);
      var e := (k, counts.at[k]);
      assert forall i :: 0 <= i < |ranked| ==> ranked[i].0 == ids[i] != k;
      forall i | 0 <= i < |ids| ensures counts.at[k] <= counts.at[ids[i]] {
        assert CountKey(e) <= CountKey(ranked[i]);
      }
    }
  }

  /** The product ids `getProductsByTags` looks up: the matched products
      ranked by match count and cut to `limit`. `None` is the early
      `return []` taken, without a product lookup, when nothing is
      selected. */
  function ProductsByTagsSelection(table: seq<ProductTag>, tagNames: seq<string>, limit: nat): (r: Option<seq<string>>)
    ensures r.None? <==> limit == 0 || RowsWithTags(table, tagNames) == []
    ensures r.Some? ==> 0 < |r.value| <= limit && NoDup(r.value)
  {
    var counts := CountMatches(RowsWithTags(table, tagNames));
    var ids := TopByCount(counts, limit);
    if |ids| == 0 then None else Some(ids)
  }

  /** The number of matching rows carrying product `id`. */
  function MatchCount(table: seq<ProductTag>, tagNames: seq<string>, id: string): nat {
    multiset(ProductIds(RowsWithTags(table, tagNames)))[id]
  }

  /** What the selection means in terms of the rows: only matched products
      are selected, in non-increasing order of their match count, and
      every matched product left out has no more matches than any
      selected one. */
  lemma ProductsByTagsRanking(table: seq<ProductTag>, tagNames: seq<string>, limit: nat)
    requires ProductsByTagsSelection(table, tagNames, limit).Some?
    ensures var ids := ProductsByTagsSelection(table, tagNames, limit).value;
      && (forall i :: 0 <= i < |ids| ==> MatchCount(table, tagNames, ids[i]) > 0)
      && (forall i, j :: 0 <= i < j < |ids| ==>
            MatchCount(table, tagNames, ids[i]) >= MatchCount(table, tagNames, ids[j]))
      && (forall id :: MatchCount(table, tagNames, id) > 0 && id !in ids ==>
            forall i :: 0 <= i < |ids| ==> MatchCount(table, tagNames, id) <= MatchCount(table, tagNames, ids[i]))
  {
    var rows := RowsWithTags(table, tagNames);
    var counts := CountMatches(rows);
    assert forall id :: MatchCount(table, tagNames, id) > 0 <==> id in counts.at;
  }
}
